=== FILE: README.md ===
# WorkUA helper bot — a Dafny model

This project models the core of a Telegram job-board bot. In the bot,
job seekers:

- browse the active vacancies, newest first;
- search vacancies by keyword;
- register their contacts;
- write, update and delete one resume;
- apply to vacancies.

Employers:

- publish vacancies;
- list their own vacancies;
- read the applications they received;
- mark applications as seen, take the candidate's contacts, or reject them;
- delete vacancies;
- search resumes by keyword.

Everything is kept in four SQLite tables (users, vacancies, resumes,
applications). Seven demonstration vacancies are seeded into an empty
database.

The model has the following parts:

- **Records** — the four row kinds and the `Store` that holds the tables.
  The ghost invariant `Valid` is what the handlers maintain:
  - unique keys;
  - one resume per user;
  - one application per user and vacancy;
  - insertion order that agrees with `created_at`;
  - every application points at an existing vacancy of its recorded employer;
  - every applicant holds a resume.

  New rowids follow SQLite's rule: one more than the largest, or 1 in an empty table.
- **Tables** — each kind of database write the handlers perform. Each one
  states what it changes, what it leaves alone, and that it preserves `Valid`.
- **Session** — the per-user `user_data` keys, as `Option`s so that a missing
  key is visible, plus the state of each of the four conversation handlers.
  A handler's result is a `Reply`: the new store, the new `user_data`, the
  messages sent, and whether the handler raised. A handler that raises
  leaves the database as it was, because nothing was committed. It keeps the
  `user_data` changes it made before the raise, and its conversation does
  not move.
- **Accounts, Browsing, Applying, Views, Search, ContactFlow, ResumeFlow,
  UpdateFlow, VacancyFlow** — one function per handler or conversation step.
  Each follows the handler's branches, including the error branches where
  the Python code raises (`KeyError` on a `user_data` key cleared by
  `/reset`, `AttributeError` on a missing row, `ZeroDivisionError` when
  navigating without a stored list).
- **Labels, Validation, Text, Snapshot** — the text-level machinery:
  - the keyboard labels and the two ways they are matched: `==` in the
    fallback handler, and `^label$` regexes, where `$` also accepts one final
    line feed;
  - the phone and e-mail regular expressions, each proved equal to a
    deterministic check;
  - SQLite's `ilike` (ASCII `lower()` and the `%`/`_` wildcards);
  - the `'|'`-joined resume snapshot stored with an application and split
    again when an employer reads it.
- **Bot** — the dispatcher. It offers an event to the handlers in
  registration order:
  1. callback buttons;
  2. `/start` and `/reset`;
  3. the four conversations;
  4. the two role buttons;
  5. the fallback text handler.

  `Deliver` and `Run` extend this to any sequence of events from any users.
- **Seed** — `add_sample_vacancies`.

## Model

| member | source | states |
|---|---|---|
| Records.NewUser | WorkUAHelper/database.py:8-18 | a new account has no phone or e-mail, is a job seeker unless the caller says otherwise, and is stamped with the registration time |
| Records.NextVacancyId | WorkUAHelper/database.py:27 | a new vacancy rowid is 1 in an empty table and otherwise one more than the largest existing id, so it exceeds every existing id (a deleted newest id is handed out again) |
| Records.InsertVacancy | WorkUAHelper/database.py:24-37 | inserting a vacancy appends exactly one active row owned by the employer with the given column values, changes no other table, and keeps the store invariant |
| Records.FindUser | WorkUAHelper/database.py:12 | the account lookup returns a row with that Telegram id, and returns nothing exactly when no row has it |
| Records.FindOwnedVacancy | WorkUAHelper/bot.py:440 | the lookup by id and employer finds a vacancy only if the caller owns it |
| Records.UniqueAccount | WorkUAHelper/database.py:12 | under the invariant, two account rows with the same Telegram id are the same row (the `unique` constraint) |
| Records.UniqueResume | WorkUAHelper/bot.py:1080-1110 | under the invariant, a user has at most one resume, which the create flow maintains by overwriting instead of inserting |
| Records.UniqueApplication | WorkUAHelper/bot.py:183-187 | under the invariant, a user has at most one application per vacancy, which the duplicate check maintains |
| Records.EmptyStoreValid | WorkUAHelper/database.py:74-75 | a freshly created database satisfies the invariant |
| Records.StatusTextInjective | WorkUAHelper/database.py:68 | the three status strings the bot writes are distinct, so a status can be read back from its text |
| Tables.EnsureUser | WorkUAHelper/bot.py:68-85 | `/start` adds an account row only when none exists for the sender; afterwards one exists; the invariant is kept |
| Tables.SetRole | WorkUAHelper/bot.py:1403-1469 | choosing a role changes only the role flag of the sender's row; every other row is as before |
| Tables.SetContacts | WorkUAHelper/bot.py:616-620 | saving contacts overwrites name, phone and e-mail of the sender's row only |
| Tables.UpsertResume | WorkUAHelper/bot.py:1079-1110 | after saving, the user's resume holds exactly the draft's values and is active; an existing resume is replaced in place (same count), otherwise one is added; other users' resumes are untouched; the invariant is kept |
| Tables.Assign | WorkUAHelper/bot.py:821-833 | a field update changes the chosen field to the new value and leaves the other five fields, the contacts, the owner and the id unchanged |
| Tables.SetResumeField | WorkUAHelper/bot.py:819-835 | the single-field update rewrites only the user's resume, and only the chosen field; without a resume nothing changes |
| Tables.AddApplication | WorkUAHelper/bot.py:189-200 | a new application is appended with the next rowid and clock stamp; when the duplicate, vacancy and resume checks passed, the invariant is kept |
| Tables.SetStatus | WorkUAHelper/bot.py:331-348 | a status change rewrites only the application with that rowid, and only its status |
| Tables.RemoveVacancy | WorkUAHelper/bot.py:447-453 | deleting a vacancy removes exactly that vacancy and exactly the applications to it |
| Tables.RemoveResume | WorkUAHelper/bot.py:908-916 | deleting a resume removes exactly that resume and every application of its owner, after which the user has no resume |
| Tables.RemoveAccount | WorkUAHelper/bot.py:1571-1579 | reset removes exactly the user's row, vacancies, resume, submitted applications and received applications |
| Accounts.Start | WorkUAHelper/bot.py:68-85 | `/start` registers a first-time sender as a job seeker, changes nothing for a known one, and always shows the role choice |
| Accounts.ChooseRole | WorkUAHelper/bot.py:1403-1469 | the role buttons register a new account in that role or switch an existing one; afterwards the sender's account has exactly that role |
| Accounts.ChooseRoleIdempotent | WorkUAHelper/bot.py:1403-1469 | pressing the same role button twice leaves the database as after one press |
| Accounts.Reset | WorkUAHelper/bot.py:1567-1585 | `/reset` empties `user_data` and deletes everything the account owns or submitted, but only when the account row exists |
| Accounts.ResetForgetsEverything | WorkUAHelper/bot.py:1571-1579 | after resetting an existing account no row refers to it: no account, no resume, no vacancy, no application as applicant or employer |
| Accounts.ConfirmDelete | WorkUAHelper/bot.py:896-927 | with a pending confirmation, any text except the confirm button cancels and keeps everything; otherwise the resume and all the user's applications go, the reported count is the number removed, and the flag is cleared |
| Accounts.DeleteResume | WorkUAHelper/bot.py:866-894 | deleting asks for confirmation exactly when the user has applications, and otherwise deletes at once |
| Accounts.StaleFlagCancelsDeletion | WorkUAHelper/bot.py:900-906 | a confirmation flag left from an earlier prompt turns the next immediate deletion into a cancellation |
| Accounts.DeleteAfterConfirmation | WorkUAHelper/bot.py:866-927 | asking and then confirming removes the resume and every application of the user |
| Accounts.KeepResume | WorkUAHelper/bot.py:1545-1547 | declining the deletion writes nothing and keeps `user_data` as it was |
| Browsing.Listing | WorkUAHelper/bot.py:89 | the listing holds exactly the active vacancies, strictly newest first |
| Browsing.NewestListedFirst | WorkUAHelper/bot.py:87-91 | the most recently stored row, when active, is the first card of the listing |
| Browsing.OpenListing | WorkUAHelper/bot.py:87-100 | the first card shown is an active vacancy no older than any other active vacancy; an empty listing says so |
| Browsing.Navigate | WorkUAHelper/bot.py:146-163 | next and previous move the index by one around the stored list with wrap-around; without a stored list the handler raises |
| Browsing.PrevUndoesNext | WorkUAHelper/bot.py:152-157 | pressing previous after next returns to the same card |
| Browsing.ForwardAdvances | WorkUAHelper/bot.py:152-157 | for any number `k` of presses of next, the index ends at `(index + k) % len`, the list and every other key unchanged |
| Browsing.FullCircle | WorkUAHelper/bot.py:152-157 | going once round the list returns to the starting card |
| Applying.Apply | WorkUAHelper/bot.py:165-225 | applying needs a resume, refuses a second application to the same vacancy, raises when the vacancy is gone, and otherwise stores one new application with the resume snapshot and the contacts; the employer is notified unless the vacancy is a demonstration one |
| Applying.ApplyTwice | WorkUAHelper/bot.py:183-187 | a second application to the same vacancy is refused and changes nothing |
| Applying.ApplicationSnapshotReadsBack | WorkUAHelper/bot.py:194 | the employer reads back the four resume fields of an application exactly when none contains `|` |
| Applying.StatusAfter | WorkUAHelper/bot.py:331-347 | only the reject button gives the rejected status; no button resets an application to new |
| Applying.Manage | WorkUAHelper/bot.py:316-391 | a management button sets the application's status and changes no other row; call and message hand over the contacts; only a rejection notifies the candidate, and that notice carries the looked-up vacancy (its title and company; none, so the placeholders, when the lookup fails), which under the invariant is always found; a missing application is reported |
| Applying.ManageIdempotent | WorkUAHelper/bot.py:316-391 | pressing the same management button twice leaves the database as after one press |
| Applying.RejectionCanBeUndone | WorkUAHelper/bot.py:331-348 | a rejected application becomes seen again when the employer later presses the seen button |
| Applying.DeleteVacancy | WorkUAHelper/bot.py:432-478 | only the owner can delete a vacancy; the vacancy and exactly its applications go, the reported count is the number removed, and no candidate is notified |
| Views.SubmittedBy | WorkUAHelper/bot.py:230 | a seeker's applications are exactly those they submitted, strictly newest first |
| Views.MyApplications | WorkUAHelper/bot.py:227-255 | every application of the seeker appears once, with its vacancy, which exists under the invariant |
| Views.ReceivedBy | WorkUAHelper/bot.py:260 | an employer's received applications are exactly those addressed to them, and under the invariant they come newest first |
| Views.GroupKeys | WorkUAHelper/bot.py:267-273 | the grouping keys are distinct, existing vacancy ids, exactly those of the received applications |
| Views.Groups | WorkUAHelper/bot.py:267-281 | one header per vacancy key and no vacancy headed twice; every card sits below the header of its own vacancy; each header names a stored vacancy and carries the number of applications to it |
| Views.EmployerApplications | WorkUAHelper/bot.py:257-314 | only the employer's own applications are shown, and under the invariant every one of them is; below the count line every card sits under its own vacancy's header, each header counts that vacancy's received applications, and no vacancy is headed twice |
| Views.OwnedBy | WorkUAHelper/bot.py:397 | an employer's vacancies are exactly those they own, active or not, strictly newest first |
| Views.VacancySummary | WorkUAHelper/bot.py:407-408 | each own vacancy shows the number of its applications and how many of them are new, which is never more |
| Views.MyVacancies | WorkUAHelper/bot.py:393-430 | every own vacancy is listed, with its counts, and no other |
| Views.Profile | WorkUAHelper/bot.py:480-517 | the profile shows the counts that fit the account's role: own vacancies and received applications for an employer, submitted applications for a seeker |
| Views.ContactsCard | WorkUAHelper/bot.py:645-669 | the stored contact card is shown exactly when the account exists |
| Views.ShowResume | WorkUAHelper/bot.py:695-725 | the resume shown is the user's own, and "not found" is shown exactly when there is none |
| Views.ResumeScreen | WorkUAHelper/bot.py:671-693 | the resume menu offers management exactly when the user has a resume, and creation exactly when not |
| Search.VacancyReply | WorkUAHelper/bot.py:1331-1359 | at most eight hits are shown, ranked from 1, with a total notice exactly when there are more; no hits gives the no-result reply |
| Search.SearchVacancies | WorkUAHelper/bot.py:1322-1359 | every vacancy shown is active and matches the term in its title, description, company or requirements |
| Search.FewVacancyHitsAllShown | WorkUAHelper/bot.py:1338 | when at most eight vacancies match, every matching vacancy is shown |
| Search.FewCandidateHitsAllShown | WorkUAHelper/bot.py:1381 | when at most six resumes match, every matching resume is shown |
| Search.VacancyMatchIsSubstring | WorkUAHelper/bot.py:1324-1329 | for a term without `%` or `_`, a vacancy matches exactly when it is active and one of the four fields contains the term, ignoring ASCII case |
| Search.CandidateReply | WorkUAHelper/bot.py:1374-1401 | at most six candidates are shown, ranked, with the account name or a placeholder, and a total notice exactly when there are more |
| Search.SearchCandidates | WorkUAHelper/bot.py:1365-1401 | every resume shown is active and matches the term in its position, skills, experience or education |
| Search.ResumeMatchIsSubstring | WorkUAHelper/bot.py:1367-1372 | for a term without `%` or `_`, a resume matches exactly when it is active and one of the four fields contains the term, ignoring ASCII case |
| Text.ILikeIsSubstring | WorkUAHelper/bot.py:1325 | `ilike('%term%')` on SQLite, for a term without wildcards, is a substring test ignoring ASCII case |
| Text.UnderscoreIsWildcard | WorkUAHelper/bot.py:1325 | an `_` typed in a search term is not escaped and matches any character |
| Text.RemoveSpaces | WorkUAHelper/bot.py:578 | removing spaces leaves no space and keeps every other character |
| Text.RemoveSpacesSplits | WorkUAHelper/bot.py:578 | removing spaces from a concatenation removes them from each part, so the kept characters stay in order and in number |
| Text.RemoveSpacesChar | WorkUAHelper/bot.py:578 | a single space is dropped and any other single character is kept |
| Validation.PhoneCheckIsPattern | WorkUAHelper/bot.py:578 | the phone check accepts exactly the texts that, without spaces, match `^(\+?38)?0\d{9}$` |
| Validation.PhoneAcceptedInternational | WorkUAHelper/bot.py:578 | the international form of a Ukrainian number is accepted |
| Validation.EmailCheckIsPattern | WorkUAHelper/bot.py:607 | the e-mail check accepts exactly the texts that match the address pattern |
| Validation.EmailAccepted | WorkUAHelper/bot.py:607 | an ordinary address is accepted |
| Snapshot.Split | WorkUAHelper/bot.py:286 | Python's split gives at least one piece, and no piece contains the separator |
| Snapshot.JoinSplit | WorkUAHelper/bot.py:286 | joining the pieces of a split gives back the text |
| Snapshot.SplitJoin | WorkUAHelper/bot.py:286 | splitting a join of separator-free pieces gives back the pieces |
| Snapshot.RoundTrip | WorkUAHelper/bot.py:286-290 | parsing a snapshot recovers the four resume fields exactly when none of them contains `|` |
| Snapshot.EncodedHasFourParts | WorkUAHelper/bot.py:287-290 | a snapshot always has at least four pieces, so the "not given" placeholder never shows |
| Snapshot.SeparatorInPositionShifts | WorkUAHelper/bot.py:194 | a `|` inside the position pushes every later field one place on, and the skills are lost |
| Labels.ButtonOf | WorkUAHelper/bot.py:1503-1565 | the fallback chain recognises a text exactly when it equals a label |
| Labels.FieldOfLabel | WorkUAHelper/bot.py:773-786 | each field button selects its own field |
| Labels.FieldLabelsApart | WorkUAHelper/bot.py:773-786 | the six field buttons have six different texts, none of them the cancel button, so a button never selects two fields or cancels |
| Labels.Classify | WorkUAHelper/bot.py:1075-1117 | a confirmation answer, lower-cased, commits on one of the four yes-words, declines on one of the four no-words, and otherwise asks again |
| Labels.AnswersDisjoint | WorkUAHelper/bot.py:1077-1117 | no word is both a yes-word and a no-word |
| Labels.KeyboardAnswers | WorkUAHelper/bot.py:1075-1077 | the keyboard's own yes and no buttons are read as intended |
| Labels.AnswerIgnoresCase | WorkUAHelper/bot.py:1075-1077 | an answer is classified as its lower-cased form is, so "ТАК", "Так" and "так" all confirm |
| Labels.TrailingNewlineIsUnclear | WorkUAHelper/bot.py:1075-1077 | unlike the button regexes, the answer check does not forgive a trailing line feed |
| ContactFlow.RegisterName | WorkUAHelper/bot.py:549-570 | any text except the cancel button is taken as the name |
| ContactFlow.RegisterPhone | WorkUAHelper/bot.py:572-599 | only a valid phone is kept and moves on; an invalid one is refused and asked again |
| ContactFlow.RegisterEmail | WorkUAHelper/bot.py:601-643 | only a valid e-mail is accepted; it raises exactly when the account exists and an earlier answer is missing; otherwise it saves the three contacts (without an account, writes nothing) and clears the answers |
| ContactFlow.CancelContact | WorkUAHelper/bot.py:1300-1320 | cancelling forgets the answers and writes nothing |
| ContactFlow.ContactsStored | WorkUAHelper/bot.py:616-620 | under the invariant, the sender's account after saving is the old one with the new name, phone and e-mail |
| ContactFlow.RegistrationStoresContacts | WorkUAHelper/bot.py:549-643 | the whole flow stores exactly the three answers, so the contact line copied into later resumes and vacancies is "name, phone, e-mail" |
| ContactFlow.RegistrationWithoutAccount | WorkUAHelper/bot.py:616-631 | without an account row the flow reports success but writes nothing |
| ResumeFlow.StartResume | WorkUAHelper/bot.py:936-956 | the resume flow starts only for a user with a phone, with an empty draft |
| ResumeFlow.ResumeAnswer | WorkUAHelper/bot.py:958-1037 | each plain step stores its answer under its own key and asks the next question; without a draft it raises |
| ResumeFlow.ResumeAbout | WorkUAHelper/bot.py:1038-1069 | the last answer completes the draft with the account's contact line and shows the summary; it raises exactly when the draft, the account or an earlier answer is missing |
| ResumeFlow.ResumeConfirm | WorkUAHelper/bot.py:1071-1125 | yes writes the draft as the user's only resume, no discards it, anything else asks again; nothing but a yes with a complete draft writes |
| ResumeFlow.ConfirmWrites | WorkUAHelper/bot.py:1071-1115 | "Так" on a complete draft leaves the user with a resume holding the draft's values and drops the draft |
| ResumeFlow.ResumeConv | WorkUAHelper/bot.py:1653-1683 | only a confirmed yes in the confirmation state changes the database, and the invariant is kept |
| ResumeFlow.PlainAnswersFill | WorkUAHelper/bot.py:958-1037 | the five plain answers fill the draft key by key |
| ResumeFlow.ResumeCreated | WorkUAHelper/bot.py:936-1125 | six answers and "Так" leave the user with a resume holding exactly those answers and the account's contact line |
| ResumeFlow.DecliningWritesNothing | WorkUAHelper/bot.py:1117-1125 | an answer other than yes never writes the database |
| UpdateFlow.StartUpdate | WorkUAHelper/bot.py:727-767 | the update flow starts only when the user has a resume, with a snapshot of its six fields |
| UpdateFlow.UpdateChoice | WorkUAHelper/bot.py:769-808 | a field button records the choice and asks for the value; any other text is refused; without the snapshot it raises after recording the choice |
| UpdateFlow.UpdateValue | WorkUAHelper/bot.py:810-864 | the value is written into the chosen field of the user's resume only, the update keys are dropped and the flow ends; without a choice it raises |
| UpdateFlow.CancelUpdate | WorkUAHelper/bot.py:929-934 | cancelling forgets the choice and writes nothing |
| UpdateFlow.UpdateChangesOneField | WorkUAHelper/bot.py:727-864 | choosing a field and typing a value changes that field to the value and nothing else in the resume |
| UpdateFlow.ChoosingThenCancellingWritesNothing | WorkUAHelper/bot.py:810-812 | cancelling at the value step leaves the database as it was |
| VacancyFlow.StartVacancy | WorkUAHelper/bot.py:1133-1154 | without a phone the contact prompt is sent but the flow does not start; otherwise an empty draft is opened |
| VacancyFlow.VacancyAnswer | WorkUAHelper/bot.py:1156-1219 | each plain step stores its answer under its own key and asks the next question; without a draft it raises |
| VacancyFlow.VacancyRequirements | WorkUAHelper/bot.py:1220-1250 | the last answer completes the draft with the account's contact line; it raises exactly when the draft, the account or an earlier answer is missing |
| VacancyFlow.VacancyConfirm | WorkUAHelper/bot.py:1252-1292 | yes publishes exactly one active vacancy owned by the sender with the draft's values and no category; no discards it; anything else asks again |
| VacancyFlow.ConfirmPublishes | WorkUAHelper/bot.py:1252-1282 | "Так" on a complete draft appends one vacancy with the draft's values owned by the sender and drops the draft |
| VacancyFlow.VacancyConv | WorkUAHelper/bot.py:1603-1629 | only a confirmed yes in the confirmation state changes the database, and the invariant is kept |
| VacancyFlow.PublishedVacancyListedFirst | WorkUAHelper/bot.py:87-100 | a vacancy just published is the first card job seekers see |
| VacancyFlow.VacancyCreated | WorkUAHelper/bot.py:1133-1292 | five answers and "Так" publish a vacancy holding exactly those answers and the account's contact line |
| Bot.HandleMessage | WorkUAHelper/bot.py:1490-1565 | a pending search takes the next text as its term and clears its flag; only the role, delete and confirm buttons can write the database; an unknown text is answered with the menu hint |
| Bot.Button | WorkUAHelper/bot.py:1503-1562 | the two search buttons only set their flag; only the role and resume-deletion buttons write |
| Bot.RouteText | WorkUAHelper/bot.py:1601-1709 | a text moves at most one conversation; a handler that raises leaves the database and every conversation as they were |
| Bot.Handle | WorkUAHelper/bot.py:1593-1709 | button presses and commands never move a conversation; `/reset` clears `user_data` but not the conversation states; unhandled updates change nothing; the invariant is kept |
| Bot.NameStepTakesAnyText | WorkUAHelper/bot.py:1632-1648 | inside the contact flow a menu button typed at the name step becomes the name |
| Bot.SearchFlagTakesNextText | WorkUAHelper/bot.py:1493-1501 | after the search button the next ordinary text, even a menu label, is the search term |
| Bot.ResetStrandsResumeFlow | WorkUAHelper/bot.py:1567-1585 | `/reset` in the middle of the resume flow leaves the flow in its state without a draft, so every answer raises until cancel is pressed |
| Bot.EntryLabelsStartConversations | WorkUAHelper/bot.py:1601-1704 | the four entry labels, typed outside any conversation, reach the conversation and not the fallback handler |
| Bot.Deliver | WorkUAHelper/bot.py:1593-1709 | an event changes only its sender's session and the shared database, and keeps the invariant |
| Bot.RunKeepsValid | WorkUAHelper/bot.py:1593-1709 | every sequence of events from any users keeps the database invariant |
| Bot.FromEmptyDatabase | WorkUAHelper/database.py:74-75 | starting from an empty database, the invariant holds after any run of events |
| Seed.InsertAll | WorkUAHelper/database.py:168-182 | the samples are appended in order as active vacancies owned by the reserved employer, and no other table changes |
| Seed.AddSampleVacancies | WorkUAHelper/database.py:78-186 | seeding does nothing once a vacancy exists; otherwise it inserts the seven samples in order |
| Seed.SeedingIsIdempotent | WorkUAHelper/database.py:82-86 | seeding twice is the same as seeding once |
| Seed.SeedingFreshDatabase | WorkUAHelper/database.py:78-186 | a fresh database ends with exactly the seven samples, owned by the reserved employer, satisfying the invariant |

## Behaviour notes

Where the bot's documentation and its code differ, the model follows the code:

- The vacancy-creation gate sends the contact prompt but ends without
  entering the contact conversation. It is the resume gate that only gives
  an instruction.
- Deleting a vacancy notifies nobody. The handler looks up the applications
  again after deleting them, so it finds none.
- An application's status is not monotone. A rejected application becomes
  "переглянута" when a seen, call or message button is pressed on it.
- "❌ Ні, скасувати" does not clear the pending-deletion flag. A later
  deletion without applications is therefore cancelled.
- "🔄 Оновити ще щось" runs the update entry point from the fallback handler.
  It asks for a field without entering the update conversation, so the next
  field button only gets the menu hint.
- `/reset` commits its deletions only when an account row exists. It does
  not end the conversations in progress.
- Saving contacts without an account row reports success and writes nothing.
- The search queries have no `ORDER BY`, so hits are listed in table order.

## Left out

- Telegram transport is not modelled: message texts, emoji, keyboards,
  message editing and deletion. Replies are abstract `Out` values carrying
  the data they show.
- Notification delivery failures are left out. The bot logs them and carries on.
- SQLAlchemy sessions, commits and connection handling are left out. A
  handler either commits all its writes or, when it raises, none.
- `created_at` timestamps are an abstract clock that increases with each
  insert. `datetime.utcnow()` can repeat a value, and the model does not
  capture that.
- Callback data parsing (`int(...)` on the button data) is left out. Presses
  carry already-parsed ids, and a malformed payload's `ValueError` is not
  modelled.
- Non-text messages, commands other than `/start` and `/reset`, and
  concurrent updates are left out.
- Validation.IsValidPhone: `\d` is modelled as the ASCII digits. Python also
  accepts other Unicode decimal digits.
- Labels.Classify: `str.lower` is modelled for ASCII, Cyrillic capitals and
  the Kelvin sign only. That is exact for membership in the eight answer
  words, but not a full Unicode lower-casing.
- Text.ILikeContains: SQLite's `lower()` folds ASCII letters only, so a
  Cyrillic term matches case-sensitively. This is as on SQLite; another
  database engine would differ.
- The `current_*` prompt keys that `start_contact_registration` stores are
  never read, so they are not modelled.
- The display truncation of long descriptions is not modelled.
- `show_user_contacts` is not reachable from any registered handler. It is
  modelled as `Views.ContactsCard` but not routed.
- The keyboard label "📝 Оновити резюме" offered in the resume menu matches
  no handler. Typing it gets the menu hint, and the model routes it that way.
- `check_vacancies.py`, `config.py` and the polling loop in `main()` are not
  part of this model.
- Views.Groups: the order of the cards inside one vacancy's group (newest
  first, as `Views.ReceivedBy` delivers them) is kept by the definition but
  is not stated in its contract.

=== FILE: accounts.dfy ===
/**
 * Account life cycle: `/start`, choosing a role on the main menu, `/reset`,
 * and deleting the resume (with the confirmation asked when applications
 * would go with it).
 */
module Accounts {
  import opened Wrappers
  import opened Seqs
  import opened Records
  import opened Labels
  import opened Session
  import opened Tables

  /** `/start`: creates a job-seeker account on first contact and shows the role choice. */
  function Start(st: Store, d: UserData, who: Actor): (r: Reply)
    ensures r.data == d && !r.raised && r.out == [ShowMenu(Welcome)]
    ensures FindUser(st.users, who.id).Some? ==> r.store == st
    ensures FindUser(st.users, who.id).None? ==>
      && r.store.users == st.users + [NewUser(who, false, st.clock)]
      && r.store == st.(users := r.store.users, clock := st.clock + 1)
    ensures Valid(st) ==> Valid(r.store)
  {
    Done(EnsureUser(st, who, false), d, [ShowMenu(Welcome)])
  }

  /**
   * "📋 Знайти вакансії" (`isEmployer` false) and "📝 Подати вакансію"
   * (`isEmployer` true): registers a new account in that role, or switches an
   * existing account to it; then the contacts hint and the role's menu.
   */
  function ChooseRole(st: Store, d: UserData, who: Actor, isEmployer: bool): (r: Reply)
    ensures r.data == d && !r.raised && |r.out| == 3
    ensures r.out[1] == Say(if isEmployer then EmployerContactsHint else SeekerContactsHint)
    ensures r.out[2] == ShowMenu(if isEmployer then EmployerMenu else SeekerMenu)
    ensures FindUser(st.users, who.id).None? ==>
      && r.store.users == st.users + [NewUser(who, isEmployer, st.clock)]
      && r.store == st.(users := r.store.users, clock := st.clock + 1)
      && r.out[0] == Say(if isEmployer then RegisteredAsEmployer else RegisteredAsSeeker)
    ensures FindUser(st.users, who.id).Some? ==>
      && r.store == st.(users := r.store.users)
      && |r.store.users| == |st.users|
      && (forall i :: 0 <= i < |st.users| ==>
            r.store.users[i] == if st.users[i].telegramId == who.id
              then st.users[i].(isEmployer := isEmployer) else st.users[i])
      && r.out[0] == Say(if isEmployer then WelcomeBackEmployer else WelcomeBackSeeker)
    ensures Valid(st) ==> Valid(r.store)
    ensures Valid(st) ==>
      FindUser(r.store.users, who.id).Some? && FindUser(r.store.users, who.id).value.isEmployer == isEmployer
  {
    var hint := Say(if isEmployer then EmployerContactsHint else SeekerContactsHint);
    var menu := ShowMenu(if isEmployer then EmployerMenu else SeekerMenu);
    match FindUser(st.users, who.id)
    case None =>
      var st' := EnsureUser(st, who, isEmployer);
      FoundAfterAppend(st, NewUser(who, isEmployer, st.clock));
      Done(st', d, [Say(if isEmployer then RegisteredAsEmployer else RegisteredAsSeeker), hint, menu])
    case Some(u) =>
      var st' := SetRole(st, who.id, isEmployer);
      RoleSwitched(st, u, isEmployer);
      Done(st', d, [Say(if isEmployer then WelcomeBackEmployer else WelcomeBackSeeker), hint, menu])
  }

  /** The row appended for a new account is the one found for its id. */
  lemma FoundAfterAppend(st: Store, u: User)
    requires FindUser(st.users, u.telegramId).None?
    ensures FindUser(st.users + [u], u.telegramId) == Some(u)
  {
    var us := st.users + [u];
    assert us[|st.users|] == u;
    assert forall i :: 0 <= i < |st.users| ==> us[i] == st.users[i];
  }

  /** Under `Valid` the account row of `u` is the only one with its id, and it now has the role. */
  lemma RoleSwitched(st: Store, u: User, isEmployer: bool)
    requires FindUser(st.users, u.telegramId) == Some(u)
    ensures Valid(st) ==>
      FindUser(SetRole(st, u.telegramId, isEmployer).users, u.telegramId) == Some(u.(isEmployer := isEmployer))
  {
    if Valid(st) {
      var us := SetRole(st, u.telegramId, isEmployer).users;
      var k :| 0 <= k < |st.users| && st.users[k] == u;
      assert us[k] == u.(isEmployer := isEmployer);
      var f := FindUser(us, u.telegramId);
      var i :| 0 <= i < |us| && us[i] == f.value;
      UserIdUnique(st, i, k);
    }
  }

  lemma UserIdUnique(st: Store, i: nat, j: nat)
    requires Valid(st) && i < |st.users| && j < |st.users|
    requires st.users[i].telegramId == st.users[j].telegramId
    ensures i == j
  {
  }

  /** Choosing a role twice in a row leaves the same database as choosing it once. */
  lemma ChooseRoleIdempotent(st: Store, d: UserData, who: Actor, isEmployer: bool)
    requires Valid(st)
    ensures var r := ChooseRole(st, d, who, isEmployer).store;
      ChooseRole(r, d, who, isEmployer).store == r
  {
    var r := ChooseRole(st, d, who, isEmployer).store;
    var u := FindUser(r.users, who.id).value;
    var r2 := ChooseRole(r, d, who, isEmployer).store;
    assert r2.users == r.users by {
      forall i | 0 <= i < |r.users| ensures r2.users[i] == r.users[i] {
        if r.users[i].telegramId == who.id {
          UserIdUnique(r, i, IndexIn(r.users, u));
        }
      }
    }
  }

  // ------------------------------------------------------------ reset

  /**
   * `/reset`: deletes the account with everything it owns or submitted, but
   * the deletions are committed only when the account row exists; the
   * user's `user_data` is cleared either way. The conversation states are
   * not touched.
   */
  function Reset(st: Store, d: UserData, who: int): (r: Reply)
    ensures r.data == NoData && !r.raised && r.out == [Say(ResetDone), ShowMenu(Welcome)]
    ensures FindUser(st.users, who).None? ==> r.store == st
    ensures FindUser(st.users, who).Some? ==>
      && (forall u :: u in r.store.users <==> u in st.users && u.telegramId != who)
      && (forall v :: v in r.store.vacancies <==> v in st.vacancies && v.employerId != who)
      && (forall x :: x in r.store.resumes <==> x in st.resumes && x.userId != who)
      && (forall a :: a in r.store.applications <==>
            a in st.applications && a.userId != who && a.employerId != who)
    ensures Valid(st) ==> Valid(r.store)
  {
    var st' := if FindUser(st.users, who).Some? then RemoveAccount(st, who) else st;
    Done(st', NoData, [Say(ResetDone), ShowMenu(Welcome)])
  }

  /** After a reset of an existing account nothing in the database refers to it. */
  lemma ResetForgetsEverything(st: Store, d: UserData, who: int)
    requires FindUser(st.users, who).Some?
    ensures var s := Reset(st, d, who).store;
      && FindUser(s.users, who).None?
      && FindResumeOf(s.resumes, who).None?
      && (forall v :: v in s.vacancies ==> v.employerId != who)
      && (forall a :: a in s.applications ==> a.userId != who && a.employerId != who)
  {
  }

  // ------------------------------------------------------------ resume deletion

  /**
   * `confirm_delete_resume`, reached from "✅ Так, видалити" and, when there
   * are no applications, straight from "❌ Видалити резюме". With the
   * confirmation flag set, any text other than the confirm label cancels;
   * otherwise the resume and all applications of the user are deleted.
   */
  function ConfirmDelete(st: Store, d: UserData, who: int, text: string): (r: Reply)
    ensures !r.raised && r.data == d.(pendingResumeDeletion := false)
    ensures d.pendingResumeDeletion && text != LabelText(Labels.ConfirmDelete) ==>
      r.store == st && r.out == [Say(ResumeDeletionCancelled), ShowMenu(ResumeMenuOf(st, who))]
    ensures !(d.pendingResumeDeletion && text != LabelText(Labels.ConfirmDelete)) ==>
      && |r.out| >= 1 && r.out[|r.out| - 1] == ShowMenu(SeekerMenu)
      && (FindResumeOf(st.resumes, who).None? ==> r.store == st && |r.out| == 1)
      && (FindResumeOf(st.resumes, who).Some? ==>
            && (forall x :: x in r.store.resumes <==>
                  x in st.resumes && x.id != FindResumeOf(st.resumes, who).value.id)
            && (forall a :: a in r.store.applications <==> a in st.applications && a.userId != who)
            && r.store.users == st.users && r.store.vacancies == st.vacancies
            && |r.out| == 2 && r.out[0].ResumeDeleted?
            && |r.store.applications| + r.out[0].applications == |st.applications|
            && (Valid(st) ==> FindResumeOf(r.store.resumes, who).None?))
    ensures Valid(st) ==> Valid(r.store)
  {
    var d' := d.(pendingResumeDeletion := false);
    if d.pendingResumeDeletion && text != LabelText(Labels.ConfirmDelete) then
      Done(st, d', [Say(ResumeDeletionCancelled), ShowMenu(ResumeMenuOf(st, who))])
    else match FindResumeOf(st.resumes, who)
      case None => Done(st, d', [ShowMenu(SeekerMenu)])
      case Some(x) =>
        var count := Count(st.applications, (a: Application) => a.userId == who);
        CountComplement(st.applications, (a: Application) => a.userId == who, (a: Application) => a.userId != who);
        Done(RemoveResume(st, x, who), d', [ResumeDeleted(count), ShowMenu(SeekerMenu)])
  }

  /**
   * "❌ Видалити резюме": asks for confirmation when applications would be
   * deleted too, and otherwise deletes at once through `ConfirmDelete`
   * with the button's own text.
   */
  function DeleteResume(st: Store, d: UserData, who: int): (r: Reply)
    ensures !r.raised
    ensures FindResumeOf(st.resumes, who).None? ==>
      r.store == st && r.data == d && r.out == [Say(ResumeNotFoundShort)]
    ensures FindResumeOf(st.resumes, who).Some? && HasApplicationOf(st, who) ==>
      && r.store == st && r.data == d.(pendingResumeDeletion := true)
      && r.out == [Ask(ConfirmResumeDeletion(Count(st.applications, (a: Application) => a.userId == who)))]
    ensures FindResumeOf(st.resumes, who).Some? && !HasApplicationOf(st, who) ==>
      r == ConfirmDelete(st, d, who, LabelText(Labels.DeleteResume))
    ensures Valid(st) ==> Valid(r.store)
  {
    match FindResumeOf(st.resumes, who)
    case None => Done(st, d, [Say(ResumeNotFoundShort)])
    case Some(x) =>
      var count := Count(st.applications, (a: Application) => a.userId == who);
      if count > 0 then
        Done(st, d.(pendingResumeDeletion := true), [Ask(ConfirmResumeDeletion(count))])
      else ConfirmDelete(st, d, who, LabelText(Labels.DeleteResume))
  }

  predicate HasApplicationOf(st: Store, who: int) {
    exists a :: a in st.applications && a.userId == who
  }

  /**
   * A confirmation flag left over from an earlier prompt ("❌ Ні, скасувати"
   * does not clear it) turns the next immediate deletion into a cancellation.
   */
  lemma StaleFlagCancelsDeletion(st: Store, d: UserData, who: int)
    requires d.pendingResumeDeletion
    requires FindResumeOf(st.resumes, who).Some? && !HasApplicationOf(st, who)
    ensures var r := DeleteResume(st, d, who);
      r.store == st && r.out[0] == Say(ResumeDeletionCancelled) && !r.data.pendingResumeDeletion
  {
    var del := LabelText(Labels.DeleteResume);
    assert del[0] != LabelText(Labels.ConfirmDelete)[0];
    var r := ConfirmDelete(st, d, who, del);
    assert r.store == st && r.out[0] == Say(ResumeDeletionCancelled);
  }

  /** Asked, then confirmed: the resume and every application of the user are gone. */
  lemma DeleteAfterConfirmation(st: Store, d: UserData, who: int)
    requires Valid(st)
    requires FindResumeOf(st.resumes, who).Some? && HasApplicationOf(st, who)
    ensures var asked := DeleteResume(st, d, who);
      var done := ConfirmDelete(asked.store, asked.data, who, LabelText(Labels.ConfirmDelete));
      && asked.store == st && asked.data.pendingResumeDeletion
      && FindResumeOf(done.store.resumes, who).None?
      && (forall a :: a in done.store.applications ==> a.userId != who)
      && !done.data.pendingResumeDeletion
  {
  }

  /** "❌ Ні, скасувати": says so and shows the resume menu, leaving the flag as it was. */
  function KeepResume(st: Store, d: UserData, who: int): (r: Reply)
    ensures r.store == st && r.data == d && !r.raised
    ensures r.out == [Say(ResumeDeletionAborted), ShowMenu(ResumeMenu(FindResumeOf(st.resumes, who).Some?))]
  {
    Done(st, d, [Say(ResumeDeletionAborted), ShowMenu(ResumeMenuOf(st, who))])
  }
}

=== FILE: applying.dfy ===
/**
 * The inline-button actions on applications: a job seeker applies to a
 * vacancy, an employer marks an application as seen, takes the contacts or
 * rejects it, and an employer deletes a vacancy together with its
 * applications.
 */
module Applying {
  import opened Wrappers
  import opened Seqs
  import opened Records
  import opened Snapshot
  import opened Session
  import opened Tables

  // ------------------------------------------------------------ apply

  /** The snapshot an application keeps of the resume it was made with. */
  function SnapshotOf(x: Resume): string {
    Encode(x.position, x.experience, x.education, x.skills)
  }

  /** The three lookups an application needs all succeed. */
  predicate CanApply(st: Store, uid: int, vid: nat) {
    && FindResumeOf(st.resumes, uid).Some?
    && !HasApplication(st.applications, uid, vid)
    && FindVacancy(st.vacancies, vid).Some?
  }

  /**
   * "📨 Подати заявку" on vacancy `vid`: needs a resume, refuses a second
   * application to the same vacancy, and raises when the vacancy has gone
   * (the handler reads `employer_id` of `None`).
   */
  function Apply(st: Store, d: UserData, who: Actor, vid: nat): (r: Reply)
    ensures r.data == d
    ensures FindResumeOf(st.resumes, who.id).None? ==>
      r.store == st && r.out == [Say(NeedResumeToApply)] && !r.raised
    ensures FindResumeOf(st.resumes, who.id).Some? && HasApplication(st.applications, who.id, vid) ==>
      r.store == st && r.out == [Say(AlreadyApplied)] && !r.raised
    ensures r.raised <==>
      FindResumeOf(st.resumes, who.id).Some? && !HasApplication(st.applications, who.id, vid)
      && FindVacancy(st.vacancies, vid).None?
    ensures r.raised ==> r.store == st
    ensures !CanApply(st, who.id, vid) ==> r.store == st
    ensures CanApply(st, who.id, vid) ==>
      var x := FindResumeOf(st.resumes, who.id).value;
      var v := FindVacancy(st.vacancies, vid).value;
      && !r.raised
      && r.store.applications == st.applications + [Application(NextApplicationId(st.applications),
           who.id, vid, v.employerId, SnapshotOf(x), x.contacts, New, st.clock)]
      && r.store == st.(applications := r.store.applications, clock := st.clock + 1)
      && HasApplication(r.store.applications, who.id, vid)
      && 1 <= |r.out| <= 2 && r.out[0] == Submitted(v.title)
      && (|r.out| == 2 <==> v.employerId != SampleEmployerId)
      && (|r.out| == 2 ==> r.out[1] == Notify(v.employerId,
            NewApplication(v.title, NameOr(st, who), x.position)))
    ensures Valid(st) ==> Valid(r.store)
  {
    match FindResumeOf(st.resumes, who.id)
    case None => Done(st, d, [Say(NeedResumeToApply)])
    case Some(x) =>
      if HasApplication(st.applications, who.id, vid) then Done(st, d, [Say(AlreadyApplied)])
      else match FindVacancy(st.vacancies, vid)
        case None => Raised(st, d)
        case Some(v) =>
          var a := Application(NextApplicationId(st.applications), who.id, vid, v.employerId,
                               SnapshotOf(x), x.contacts, New, st.clock);
          var st' := AddApplication(st, a);
          assert a in st'.applications;
          var notify := if v.employerId != SampleEmployerId
            then [Notify(v.employerId, NewApplication(v.title, NameOr(st', who), x.position))]
            else [];
          assert st'.users == st.users && NameOr(st', who) == NameOr(st, who);
          var out := [Submitted(v.title)] + notify;
          assert |out| == 1 + |notify| && out[0] == Submitted(v.title);
          assert |notify| == 1 ==> out[1] == notify[0];
          Done(st', d, out)
  }

  /** The candidate's name in the employer's notice: the account name, else Telegram's first name. */
  function NameOr(st: Store, who: Actor): string {
    match FindUser(st.users, who.id)
    case Some(u) => u.fullName
    case None => who.firstName
  }

  /** A second press of the same button is refused and changes nothing. */
  lemma ApplyTwice(st: Store, d: UserData, who: Actor, vid: nat)
    requires CanApply(st, who.id, vid)
    ensures var r := Apply(st, d, who, vid).store;
      Apply(r, d, who, vid) == Done(r, d, [Say(AlreadyApplied)])
  {
    var r := Apply(st, d, who, vid).store;
    assert r.resumes == st.resumes;
  }

  /**
   * The employer reads back the four resume fields of an application
   * exactly when none of them contains the separator.
   */
  lemma ApplicationSnapshotReadsBack(st: Store, d: UserData, who: Actor, vid: nat)
    requires CanApply(st, who.id, vid)
    ensures var x := FindResumeOf(st.resumes, who.id).value;
      var a := Apply(st, d, who, vid).store.applications[|st.applications|];
      Parse(a.resumeData) == Summary(x.position, x.experience, x.education, x.skills)
      <==> (Separator !in x.position && Separator !in x.experience
            && Separator !in x.education && Separator !in x.skills)
  {
    var x := FindResumeOf(st.resumes, who.id).value;
    RoundTrip(x.position, x.experience, x.education, x.skills);
  }

  // ------------------------------------------------------------ manage

  /** The four management buttons under an application card. */
  datatype Action = MarkViewed | Call | Message | Reject

  /** "Переглянуто", "Зателефонувати" and "Написати" all mark the application seen. */
  function StatusAfter(action: Action): (s: Status)
    ensures s == Rejected <==> action == Reject
    ensures s != New
  {
    if action == Reject then Rejected else Viewed
  }

  /**
   * A management button on application `id`: sets the status, hands over the
   * contacts for a call or a message, tells the candidate about a rejection,
   * and redraws the card. Any sender with the button's data may press it:
   * the handler does not check that the application is theirs.
   */
  function Manage(st: Store, d: UserData, action: Action, id: nat): (r: Reply)
    ensures r.data == d && !r.raised
    ensures FindApplication(st.applications, id).None? ==>
      r.store == st && r.out == [Say(ApplicationNotFound)]
    ensures FindApplication(st.applications, id).Some? ==>
      var a := FindApplication(st.applications, id).value;
      var b := a.(status := StatusAfter(action));
      && r.store == st.(applications := r.store.applications)
      && |r.store.applications| == |st.applications|
      && (forall i :: 0 <= i < |st.applications| && st.applications[i].id != id ==>
            r.store.applications[i] == st.applications[i])
      && (Valid(st) ==> FindApplication(r.store.applications, id) == Some(b))
      && |r.out| >= 2 && r.out[0] == StatusSet(b.status, if action in {Call, Message} then Some(a.userContacts) else None)
      && (action == Reject <==> |r.out| == 3)
      && (action == Reject ==>
            r.out[1] == Notify(a.userId, ApplicationRejected(FindVacancy(st.vacancies, a.vacancyId))))
      && (Valid(st) && action == Reject ==> r.out[1].notice.vacancy.Some?)
      && r.out[|r.out| - 1] == ApplicationCard(b, NameOf(st, a.userId), Parse(a.resumeData))
    ensures Valid(st) ==> Valid(r.store)
  {
    match FindApplication(st.applications, id)
    case None => Done(st, d, [Say(ApplicationNotFound)])
    case Some(a) =>
      ManageFound(st, d, action, a)
  }

  /** `Manage` once the application has been found. */
  function ManageFound(st: Store, d: UserData, action: Action, a: Application): (r: Reply)
    requires FindApplication(st.applications, a.id) == Some(a)
    ensures r.data == d && !r.raised
    ensures r.store == st.(applications := r.store.applications)
    ensures |r.store.applications| == |st.applications|
    ensures forall i :: 0 <= i < |st.applications| && st.applications[i].id != a.id ==>
      r.store.applications[i] == st.applications[i]
    ensures Valid(st) ==> FindApplication(r.store.applications, a.id) == Some(a.(status := StatusAfter(action)))
    ensures r.out == ManageOut(st, action, a)
    ensures Valid(st) ==> Valid(r.store)
  {
    var s := StatusAfter(action);
    SetStatusFinds(st, a.id, s, a);
    Done(SetStatus(st, a.id, s), d, ManageOut(st, action, a))
  }

  /** The reply to a management press: the status line, the rejection notice, the redrawn card. */
  function ManageOut(st: Store, action: Action, a: Application): (out: seq<Out>)
    requires a in st.applications
    ensures |out| >= 2
    ensures out[0] == StatusSet(StatusAfter(action), if action in {Call, Message} then Some(a.userContacts) else None)
    ensures action == Reject <==> |out| == 3
    ensures action == Reject ==>
      out[1] == Notify(a.userId, ApplicationRejected(FindVacancy(st.vacancies, a.vacancyId)))
    ensures Valid(st) && action == Reject ==> out[1].notice.vacancy.Some?
    ensures out[|out| - 1] == ApplicationCard(a.(status := StatusAfter(action)), NameOf(st, a.userId), Parse(a.resumeData))
  {
    var s := StatusAfter(action);
    AppliedVacancyFound(st, a);
    var shown := StatusSet(s, if action in {Call, Message} then Some(a.userContacts) else None);
    var notice := if action == Reject
      then [Notify(a.userId, ApplicationRejected(FindVacancy(st.vacancies, a.vacancyId)))]
      else [];
    var card := ApplicationCard(a.(status := s), NameOf(st, a.userId), Parse(a.resumeData));
    NoticeBetween(shown, notice, card);
    [shown] + notice + [card]
  }

  /** Where the status line, the optional notice and the card sit in the reply. */
  lemma NoticeBetween(shown: Out, notice: seq<Out>, card: Out)
    requires |notice| <= 1
    ensures var out := [shown] + notice + [card];
      && |out| == 2 + |notice| && out[0] == shown && out[|out| - 1] == card
      && (|notice| == 1 ==> out[1] == notice[0])
  {
  }

  /** Under `Valid` the vacancy an application points at is still stored. */
  lemma AppliedVacancyFound(st: Store, a: Application)
    requires a in st.applications
    ensures Valid(st) ==> FindVacancy(st.vacancies, a.vacancyId).Some?
  {
    if Valid(st) {
      var v :| v in st.vacancies && v.id == a.vacancyId && v.employerId == a.employerId;
    }
  }

  /** Under `Valid` the rewritten row is the only one with its id. */
  lemma SetStatusFinds(st: Store, id: nat, s: Status, a: Application)
    requires FindApplication(st.applications, id) == Some(a)
    ensures Valid(st) ==> FindApplication(SetStatus(st, id, s).applications, id) == Some(a.(status := s))
  {
    if Valid(st) {
      var apps := SetStatus(st, id, s).applications;
      var k :| 0 <= k < |st.applications| && st.applications[k] == a;
      assert apps[k] == a.(status := s);
      forall i | 0 <= i < |apps| && apps[i].id == id ensures apps[i] == a.(status := s) {
        ApplicationIdUnique(st, i, k);
      }
      FindApplicationUnique(apps, id, a.(status := s));
    }
  }

  /** Under `Valid` two application rows with the same id are the same row. */
  lemma ApplicationIdUnique(st: Store, i: nat, j: nat)
    requires Valid(st) && i < |st.applications| && j < |st.applications|
    requires st.applications[i].id == st.applications[j].id
    ensures i == j
  {
  }

  /** A lookup by key returns the one row with that key. */
  lemma FindApplicationUnique(apps: seq<Application>, id: nat, b: Application)
    requires b in apps && b.id == id
    requires forall i :: 0 <= i < |apps| && apps[i].id == id ==> apps[i] == b
    ensures FindApplication(apps, id) == Some(b)
  {
    var f := FindApplication(apps, id);
    var i :| 0 <= i < |apps| && apps[i] == f.value;
  }

  /** Setting the same status again changes nothing. */
  lemma SetStatusTwice(st: Store, id: nat, s: Status)
    ensures SetStatus(SetStatus(st, id, s), id, s) == SetStatus(st, id, s)
  {
    var r := SetStatus(st, id, s);
    var r2 := SetStatus(r, id, s);
    assert r2.applications == r.applications;
  }

  /** Pressing the same management button twice leaves the database as after the first press. */
  lemma ManageIdempotent(st: Store, d: UserData, action: Action, id: nat)
    requires Valid(st)
    ensures var r := Manage(st, d, action, id).store;
      Manage(r, d, action, id).store == r
  {
    match FindApplication(st.applications, id)
    case None =>
    case Some(a) =>
      var s := StatusAfter(action);
      SetStatusFinds(st, id, s, a);
      SetStatusTwice(st, id, s);
  }

  /** A rejected application goes back to "seen" when the employer later presses "Переглянуто". */
  lemma RejectionCanBeUndone(st: Store, d: UserData, id: nat)
    requires Valid(st) && FindApplication(st.applications, id).Some?
    ensures var r := Manage(st, d, Reject, id).store;
      var r2 := Manage(r, d, MarkViewed, id).store;
      FindApplication(r.applications, id).value.status == Rejected
      && FindApplication(r2.applications, id).value.status == Viewed
  {
    var r := Manage(st, d, Reject, id).store;
    assert Valid(r);
  }

  // ------------------------------------------------------------ delete a vacancy

  /**
   * "🗑️ Видалити вакансію": only the owner's vacancy is found; it is deleted
   * with all applications to it. The candidates are not told: the handler
   * looks the applications up again after deleting them and finds none.
   */
  function DeleteVacancy(st: Store, d: UserData, who: int, vid: nat): (r: Reply)
    ensures r.data == d && !r.raised
    ensures forall o :: o in r.out ==> !o.Notify?
    ensures FindOwnedVacancy(st.vacancies, vid, who).None? ==>
      r.store == st && r.out == [Say(VacancyNotFoundOrNotOwned)]
    ensures FindOwnedVacancy(st.vacancies, vid, who).Some? ==>
      && (forall v :: v in r.store.vacancies <==> v in st.vacancies && v.id != vid)
      && (forall a :: a in r.store.applications <==> a in st.applications && a.vacancyId != vid)
      && r.store.users == st.users && r.store.resumes == st.resumes
      && |r.out| == 1 && r.out[0].VacancyDeleted?
      && r.out[0].title == FindOwnedVacancy(st.vacancies, vid, who).value.title
      && |r.store.applications| + r.out[0].applications == |st.applications|
    ensures Valid(st) ==> Valid(r.store)
  {
    match FindOwnedVacancy(st.vacancies, vid, who)
    case None => Done(st, d, [Say(VacancyNotFoundOrNotOwned)])
    case Some(v) =>
      var p := (a: Application) => a.vacancyId == vid;
      var count := Count(st.applications, p);
      var st' := RemoveVacancy(st, vid);
      CountComplement(st.applications, p, (a: Application) => a.vacancyId != vid);
      Done(st', d, [VacancyDeleted(v.title, count)])
  }
}

=== FILE: browsing.dfy ===
/**
 * The job seeker's vacancy carousel: the list of active vacancies, newest
 * first, is copied into `user_data` and shown one card at a time; the ⬅️
 * and ➡️ buttons move the index around the list with wrap-around.
 */
module Browsing {
  import opened Seqs
  import opened Records
  import opened Session

  /** `filter_by(is_active=True).order_by(created_at.desc())`. */
  function Listing(st: Store): (l: seq<Vacancy>)
    ensures forall v :: v in l <==> v in st.vacancies && v.isActive
    ensures Valid(st) ==> forall i, j :: 0 <= i < j < |l| ==> l[i].created > l[j].created
  {
    var active := Filter(st.vacancies, (v: Vacancy) => v.isActive);
    ReverseMembers(active);
    ListingNewestFirst(st, active);
    Reverse(active)
  }

  /** The last row stored, when active, heads the listing. */
  lemma NewestListedFirst(st: Store)
    requires Valid(st) && |st.vacancies| > 0 && st.vacancies[|st.vacancies| - 1].isActive
    ensures |Listing(st)| > 0 && Listing(st)[0] == st.vacancies[|st.vacancies| - 1]
  {
    var n := |st.vacancies|;
    var v := st.vacancies[n - 1];
    var l := Listing(st);
    assert v in l;
    var j :| 0 <= j < |l| && l[j] == v;
    var w := l[0];
    assert w in st.vacancies;
    var i :| 0 <= i < n && st.vacancies[i] == w;
    assert forall k :: 0 <= k < n - 1 ==> VacancyOrder(st.vacancies[k], v);
    assert w.created >= v.created;
    assert i == n - 1;
  }

  /** Rows are stored in stamp order, so reversing the active rows sorts them newest first. */
  lemma ListingNewestFirst(st: Store, active: seq<Vacancy>)
    requires active == Filter(st.vacancies, (v: Vacancy) => v.isActive)
    ensures Valid(st) ==> forall i, j :: 0 <= i < j < |active| ==>
      Reverse(active)[i].created > Reverse(active)[j].created
  {
    if Valid(st) {
      FilterPairwise(st.vacancies, (v: Vacancy) => v.isActive, VacancyOrder);
      ReversePairwise(active, VacancyOrder);
    }
  }

  /**
   * "📋 Список вакансій": stores the listing and shows its first card, or
   * says there is nothing to show.
   */
  function OpenListing(st: Store, d: UserData): (r: Reply)
    ensures r.store == st && !r.raised
    ensures |Listing(st)| == 0 ==> r.data == d && r.out == [Say(NoActiveVacancies)]
    ensures |Listing(st)| > 0 ==>
      && r.data == d.(browse := Listing(st), cursor := 0)
      && |r.out| == 2 && r.out[0] == Say(ListHeader) && r.out[1].Card?
      && r.out[1].index == 0 && r.out[1].total == |r.data.browse|
    ensures Valid(st) && |Listing(st)| > 0 ==>
      var v := r.out[1].vacancy;
      v in st.vacancies && v.isActive
      && forall w :: w in st.vacancies && w.isActive ==> w.created <= v.created
  {
    var l := Listing(st);
    if |l| == 0 then Done(st, d, [Say(NoActiveVacancies)])
    else
      FirstIsNewest(st, l);
      Done(st, d.(browse := l, cursor := 0), [Say(ListHeader), Card(l[0], 0, |l|)])
  }

  lemma FirstIsNewest(st: Store, l: seq<Vacancy>)
    requires l == Listing(st) && |l| > 0
    ensures Valid(st) ==> forall w :: w in st.vacancies && w.isActive ==> w.created <= l[0].created
  {
    if Valid(st) {
      forall w | w in st.vacancies && w.isActive ensures w.created <= l[0].created {
        var j :| 0 <= j < |l| && l[j] == w;
        if j > 0 {
          assert l[0].created > l[j].created;
        }
      }
    }
  }

  datatype Direction = Prev | Next

  /**
   * The ⬅️/➡️ buttons: `(index ∓ 1) % len(list)` on the stored list. With no
   * stored list (after `/reset`) the modulo divides by zero and the handler
   * raises.
   */
  function Navigate(st: Store, d: UserData, dir: Direction): (r: Reply)
    ensures r.store == st
    ensures r.raised <==> |d.browse| == 0
    ensures r.raised ==> r.data == d && r.out == []
    ensures !r.raised ==>
      && 0 <= r.data.cursor < |d.browse|
      && r.data == d.(cursor := r.data.cursor)
      && r.out == [Card(d.browse[r.data.cursor], r.data.cursor, |d.browse|)]
    ensures !r.raised && 0 <= d.cursor < |d.browse| ==>
      r.data.cursor == match dir
        case Next => if d.cursor == |d.browse| - 1 then 0 else d.cursor + 1
        case Prev => if d.cursor == 0 then |d.browse| - 1 else d.cursor - 1
  {
    var n := |d.browse|;
    if n == 0 then Raised(st, d)
    else
      WrapAround(d.cursor, n);
      var k := match dir
        case Next => (d.cursor + 1) % n
        case Prev => (d.cursor - 1) % n;
      Done(st, d.(cursor := k), [Card(d.browse[k], k, n)])
  }

  /** Python's `%` by the list length steps an in-range index around the ends of the list. */
  lemma WrapAround(c: int, n: int)
    requires n > 0
    ensures 0 <= c < n ==> (c + 1) % n == (if c == n - 1 then 0 else c + 1)
    ensures 0 <= c < n ==> (c - 1) % n == (if c == 0 then n - 1 else c - 1)
  {
    if 0 <= c < n {
      if c == n - 1 {
        assert c + 1 == n;
      }
      if c == 0 {
        assert (c - 1) == (-1) * n + (n - 1);
      }
    }
  }

  /** ⬅️ undoes ➡️. */
  lemma PrevUndoesNext(st: Store, d: UserData)
    requires 0 <= d.cursor < |d.browse|
    ensures Navigate(st, Navigate(st, d, Next).data, Prev).data == d
  {
  }

  /** The index after `k` presses of ➡️. */
  function Forward(st: Store, d: UserData, k: nat): UserData
  {
    if k == 0 then d else Navigate(st, Forward(st, d, k - 1), Next).data
  }

  /** `k` presses of ➡️ advance the index by `k` around the list: Python's `(index + k) % len`. */
  lemma {:induction false} ForwardAdvances(st: Store, d: UserData, k: nat)
    requires 0 <= d.cursor < |d.browse|
    ensures Forward(st, d, k) == d.(cursor := (d.cursor + k) % |d.browse|)
  {
    var n := |d.browse|;
    if k == 0 {
      ModOfRemainder(d.cursor, n, 0, d.cursor);
    } else {
      ForwardAdvances(st, d, k - 1);
      var a := d.cursor + k - 1;
      var m := a % n;
      assert Forward(st, d, k - 1) == d.(cursor := m);
      WrapAround(m, n);
      ModStep(a, n);
    }
  }

  /** The remainder is determined by any quotient-remainder split. */
  lemma ModOfRemainder(x: int, n: int, q: int, r: int)
    requires n > 0 && 0 <= r < n && x == q * n + r
    ensures x % n == r
  {
    var q', r' := x / n, x % n;
    assert q' * n + r' == q * n + r;
    MultipleApart(q, q', n);
    MultipleApart(q', q, n);
  }

  /** Distinct multiples of `n` lie at least `n` apart. */
  lemma {:induction false} MultipleApart(a: int, b: int, n: int)
    requires n > 0
    ensures a < b ==> a * n + n <= b * n
    decreases b - a
  {
    if a < b {
      assert (a + 1) * n == a * n + n;
      MultipleApart(a + 1, b, n);
    }
  }

  /** One step past a remainder is the remainder of one step. */
  lemma ModStep(a: int, n: int)
    requires n > 0
    ensures (if a % n == n - 1 then 0 else a % n + 1) == (a + 1) % n
  {
    var q, r := a / n, a % n;
    if r == n - 1 {
      ModOfRemainder(a + 1, n, q + 1, 0);
    } else {
      ModOfRemainder(a + 1, n, q, r + 1);
    }
  }

  /** Going once round the whole list comes back to the same card. */
  lemma FullCircle(st: Store, d: UserData)
    requires 0 <= d.cursor < |d.browse|
    ensures Forward(st, d, |d.browse|) == d
  {
    ForwardAdvances(st, d, |d.browse|);
    ModOfRemainder(d.cursor + |d.browse|, |d.browse|, 1, d.cursor);
  }
}

=== FILE: contact_flow.dfy ===
/**
 * The "📞 Контакти" conversation: name, then phone, then e-mail, each kept
 * in `user_data` until the last step writes all three to the account row.
 */
module ContactFlow {
  import opened Wrappers
  import opened Records
  import opened Labels
  import opened Validation
  import opened Session
  import opened Tables
  import Accounts

  /** The three registration keys removed. */
  function ClearRegistration(d: UserData): (c: UserData)
    ensures c.regName.None? && c.regPhone.None? && c.regEmail.None?
    ensures c == d.(regName := c.regName, regPhone := c.regPhone, regEmail := c.regEmail)
  {
    d.(regName := None, regPhone := None, regEmail := None)
  }

  /** The entry point: asks for the name. */
  function StartContact(st: Store, d: UserData): (s: Step<ContactStep>)
    ensures s.reply == Done(st, d, [Ask(EnterName)]) && s.next == Some(AskName)
  {
    Step(Done(st, d, [Ask(EnterName)]), Some(AskName))
  }

  /** "❌ Скасувати реєстрацію": forgets the answers, writes nothing, and shows the role's menu. */
  function CancelContact(st: Store, d: UserData, who: int): (s: Step<ContactStep>)
    ensures s.reply.store == st && !s.reply.raised && s.next.None?
    ensures s.reply.data == ClearRegistration(d)
    ensures s.reply.out == [Say(RegistrationCancelled), ShowMenu(RoleMenu(st, who))]
  {
    Step(Done(st, ClearRegistration(d), [Say(RegistrationCancelled), ShowMenu(RoleMenu(st, who))]), None)
  }

  /** The name step: any text is taken as the name. */
  function RegisterName(st: Store, d: UserData, who: int, text: string): (s: Step<ContactStep>)
    ensures s.reply.store == st && !s.reply.raised
    ensures text == LabelText(CancelRegistration) ==> s == CancelContact(st, d, who)
    ensures text != LabelText(CancelRegistration) ==>
      s.reply.data == d.(regName := Some(text)) && s.reply.out == [Ask(EnterPhone)] && s.next == Some(AskPhone)
  {
    if text == LabelText(CancelRegistration) then CancelContact(st, d, who)
    else Step(Done(st, d.(regName := Some(text)), [Ask(EnterPhone)]), Some(AskPhone))
  }

  /** The phone step: a text failing the phone pattern is refused and asked again. */
  function RegisterPhone(st: Store, d: UserData, who: int, text: string): (s: Step<ContactStep>)
    ensures s.reply.store == st && !s.reply.raised
    ensures text == LabelText(CancelRegistration) ==> s == CancelContact(st, d, who)
    ensures text != LabelText(CancelRegistration) && !IsValidPhone(text) ==>
      s.reply.data == d && s.reply.out == [Say(WrongPhone)] && s.next == Some(AskPhone)
    ensures text != LabelText(CancelRegistration) && IsValidPhone(text) ==>
      s.reply.data == d.(regPhone := Some(text)) && s.reply.out == [Ask(EnterEmail)] && s.next == Some(AskEmail)
  {
    if text == LabelText(CancelRegistration) then CancelContact(st, d, who)
    else if !IsValidPhone(text) then Step(Done(st, d, [Say(WrongPhone)]), Some(AskPhone))
    else Step(Done(st, d.(regPhone := Some(text)), [Ask(EnterEmail)]), Some(AskEmail))
  }

  /**
   * The e-mail step. A valid address is stored in `user_data`; then, when the
   * account row exists, name, phone and e-mail are copied into it, which
   * raises if the name or phone answer is missing (as after `/reset` in the
   * middle of the flow). Without an account row nothing is written, and the
   * success message is sent all the same.
   */
  function RegisterEmail(st: Store, d: UserData, who: int, text: string): (s: Step<ContactStep>)
    ensures text == LabelText(CancelRegistration) ==> s == CancelContact(st, d, who)
    ensures text != LabelText(CancelRegistration) && !IsValidEmail(text) ==>
      s.reply == Done(st, d, [Say(WrongEmail)]) && s.next == Some(AskEmail)
    ensures text != LabelText(CancelRegistration) && IsValidEmail(text) ==>
      (s.reply.raised <==> FindUser(st.users, who).Some? && (d.regName.None? || d.regPhone.None?))
    ensures s.reply.raised ==>
      s.reply.store == st && s.reply.data == d.(regEmail := Some(text)) && s.next == Some(AskEmail)
    ensures text != LabelText(CancelRegistration) && IsValidEmail(text) && !s.reply.raised ==>
      && s.next.None?
      && s.reply.data == ClearRegistration(d)
      && s.reply.out == [Say(ContactsSaved), ShowMenu(RoleMenu(s.reply.store, who))]
      && (FindUser(st.users, who).None? ==> s.reply.store == st)
      && (FindUser(st.users, who).Some? ==>
            s.reply.store == SetContacts(st, who, d.regName.value, d.regPhone.value, text))
    ensures Valid(st) ==> Valid(s.reply.store)
  {
    if text == LabelText(CancelRegistration) then CancelContact(st, d, who)
    else if !IsValidEmail(text) then Step(Done(st, d, [Say(WrongEmail)]), Some(AskEmail))
    else
      var d1 := d.(regEmail := Some(text));
      if FindUser(st.users, who).Some? && (d1.regName.None? || d1.regPhone.None?) then
        Step(Raised(st, d1), Some(AskEmail))
      else
        var st' := if FindUser(st.users, who).Some?
          then SetContacts(st, who, d1.regName.value, d1.regPhone.value, text) else st;
        Step(Done(st', ClearRegistration(d1), [Say(ContactsSaved), ShowMenu(RoleMenu(st', who))]), None)
  }

  /** Under `Valid`, the account row of `who` after `SetContacts` is the old row with the new contacts. */
  lemma ContactsStored(st: Store, who: int, name: string, phone: string, email: string)
    requires Valid(st) && FindUser(st.users, who).Some?
    ensures var u := FindUser(st.users, who).value;
      FindUser(SetContacts(st, who, name, phone, email).users, who)
        == Some(u.(fullName := name, phone := Some(phone), email := Some(email)))
  {
    var u := FindUser(st.users, who).value;
    var r := SetContacts(st, who, name, phone, email);
    var k :| 0 <= k < |st.users| && st.users[k] == u;
    assert r.users[k] == u.(fullName := name, phone := Some(phone), email := Some(email));
    var f := FindUser(r.users, who);
    var i :| 0 <= i < |r.users| && r.users[i] == f.value;
    Accounts.UserIdUnique(st, i, k);
  }

  /**
   * The whole conversation for a registered user: after a name, a valid
   * phone and a valid e-mail, the account row holds exactly those three
   * values, so the contact line copied into later vacancies and resumes is
   * "name, phone, e-mail", and the answers are no longer kept in `user_data`.
   */
  lemma {:induction false} RegistrationStoresContacts(st: Store, d: UserData, who: int,
                                                    name: string, phone: string, email: string)
    requires Valid(st) && FindUser(st.users, who).Some?
    requires name != LabelText(CancelRegistration)
    requires phone != LabelText(CancelRegistration) && IsValidPhone(phone)
    requires email != LabelText(CancelRegistration) && IsValidEmail(email)
    ensures var s1 := RegisterName(st, d, who, name);
      var s2 := RegisterPhone(s1.reply.store, s1.reply.data, who, phone);
      var s3 := RegisterEmail(s2.reply.store, s2.reply.data, who, email);
      && !s3.reply.raised && s3.next.None?
      && var u := FindUser(s3.reply.store.users, who);
      && u.Some? && u.value.fullName == name
      && u.value.phone == Some(phone) && u.value.email == Some(email)
      && ContactLine(u.value) == name + ", " + phone + ", " + email
      && HasPhone(u)
      && s3.reply.data.regName.None? && s3.reply.data.regPhone.None? && s3.reply.data.regEmail.None?
  {
    var s1 := RegisterName(st, d, who, name);
    var s2 := RegisterPhone(s1.reply.store, s1.reply.data, who, phone);
    assert s2.reply.store == st && s2.reply.data.regName == Some(name) && s2.reply.data.regPhone == Some(phone);
    var s3 := RegisterEmail(st, s2.reply.data, who, email);
    var r := SetContacts(st, who, name, phone, email);
    assert !s3.reply.raised && s3.next.None? && s3.reply.store == r;
    assert s3.reply.data == ClearRegistration(s2.reply.data);
    ContactsStored(st, who, name, phone, email);
    var u := FindUser(r.users, who).value;
    assert u.fullName == name && u.phone == Some(phone) && u.email == Some(email);
  }

  /** Without an account row the flow ends with the success message but writes nothing. */
  lemma RegistrationWithoutAccount(st: Store, d: UserData, who: int, email: string)
    requires FindUser(st.users, who).None?
    requires email != LabelText(CancelRegistration) && IsValidEmail(email)
    ensures var s := RegisterEmail(st, d, who, email);
      s.reply.store == st && !s.reply.raised && s.reply.out[0] == Say(ContactsSaved)
  {
  }
}

=== FILE: dispatcher.dfy ===
/**
 * The bot's routing: which handler an incoming event reaches, in the order
 * the handlers are registered (the first one that accepts an update handles
 * it), how the four guided conversations keep their state per user, and the
 * fallback text handler with its search flags and `==` button chain.
 */
module Bot {
  import opened Wrappers
  import opened Records
  import opened Labels
  import opened Session
  import Browsing
  import Applying
  import Views
  import Search
  import Accounts
  import ContactFlow
  import ResumeFlow
  import UpdateFlow
  import VacancyFlow

  /**
   * What a user can send. `Text` is a text message that is not a command.
   * Inline-button presses carry their already-parsed callback data.
   */
  datatype Event =
    | Text(text: string)
    | StartCommand
    | ResetCommand
    | OtherCommand
    | ApplyPress(vacancy: nat)
    | ManagePress(action: Applying.Action, application: nat)
    | DeletePress(vacancy: nat)
    | NavigatePress(direction: Browsing.Direction)
    | PageInfoPress

  /** The effect of one event on the database and on the sender's session. */
  datatype Outcome = Outcome(store: Store, data: UserData, convs: Convs, out: seq<Out>, raised: bool)

  function Plain(r: Reply, c: Convs): Outcome {
    Outcome(r.store, r.data, c, r.out, r.raised)
  }

  /** A conversation keeps its state when its handler raises, and otherwise moves to the returned one. */
  function Advance<S>(cur: Option<S>, s: Step<S>): (next: Option<S>)
    ensures s.reply.raised ==> next == cur
    ensures !s.reply.raised ==> next == s.next
  {
    if s.reply.raised then cur else s.next
  }

  /** Apart from at most one conversation, every conversation keeps its state. */
  predicate AtMostOneMoved(a: Convs, b: Convs) {
    || (a.contact == b.contact && a.resume == b.resume && a.update == b.update)
    || (a.vacancy == b.vacancy && a.resume == b.resume && a.update == b.update)
    || (a.vacancy == b.vacancy && a.contact == b.contact && a.update == b.update)
    || (a.vacancy == b.vacancy && a.contact == b.contact && a.resume == b.resume)
  }

  // ------------------------------------------------------------ the four conversations

  /** The vacancy conversation's turn: its entry point when idle, else cancel or the state's step. */
  function VacancyTurn(st: Store, d: UserData, c: Convs, who: int, t: string): (o: Outcome)
    requires c.vacancy.Some? || RegexIs(t, AddVacancy)
    ensures o.convs == c.(vacancy := o.convs.vacancy)
    ensures o.raised ==> o.convs == c
    ensures c.vacancy.Some? && RegexIs(t, Labels.CancelVacancy) ==>
      o.store == st && o.convs.vacancy.None? && o.data == d.(vacancyDraft := None)
    ensures Valid(st) ==> Valid(o.store)
  {
    var s := match c.vacancy
      case None => VacancyFlow.StartVacancy(st, d, who)
      case Some(step) =>
        if RegexIs(t, Labels.CancelVacancy) then VacancyFlow.CancelVacancy(st, d)
        else VacancyFlow.VacancyConv(st, d, who, step, t);
    Outcome(s.reply.store, s.reply.data, c.(vacancy := Advance(c.vacancy, s)), s.reply.out, s.reply.raised)
  }

  function ContactTurn(st: Store, d: UserData, c: Convs, who: int, t: string): (o: Outcome)
    requires c.contact.Some? || RegexIs(t, Labels.Contacts)
    ensures o.convs == c.(contact := o.convs.contact)
    ensures o.raised ==> o.convs == c
    ensures c.contact.Some? && RegexIs(t, CancelRegistration) ==>
      o.store == st && o.convs.contact.None? && o.data == ContactFlow.ClearRegistration(d)
    ensures Valid(st) ==> Valid(o.store)
  {
    var s := match c.contact
      case None => ContactFlow.StartContact(st, d)
      case Some(step) =>
        if RegexIs(t, CancelRegistration) then ContactFlow.CancelContact(st, d, who)
        else match step
          case AskName => ContactFlow.RegisterName(st, d, who, t)
          case AskPhone => ContactFlow.RegisterPhone(st, d, who, t)
          case AskEmail => ContactFlow.RegisterEmail(st, d, who, t);
    Outcome(s.reply.store, s.reply.data, c.(contact := Advance(c.contact, s)), s.reply.out, s.reply.raised)
  }

  function ResumeTurn(st: Store, d: UserData, c: Convs, who: int, t: string): (o: Outcome)
    requires c.resume.Some? || RegexIs(t, CreateResume)
    ensures o.convs == c.(resume := o.convs.resume)
    ensures o.raised ==> o.convs == c
    ensures c.resume.Some? && RegexIs(t, Labels.CancelResume) ==>
      o.store == st && o.convs.resume.None? && o.data == d.(resumeDraft := None)
    ensures Valid(st) ==> Valid(o.store)
  {
    var s := match c.resume
      case None => ResumeFlow.StartResume(st, d, who)
      case Some(step) =>
        if RegexIs(t, Labels.CancelResume) then ResumeFlow.CancelResume(st, d)
        else ResumeFlow.ResumeConv(st, d, who, step, t);
    Outcome(s.reply.store, s.reply.data, c.(resume := Advance(c.resume, s)), s.reply.out, s.reply.raised)
  }

  function UpdateTurn(st: Store, d: UserData, c: Convs, who: int, t: string): (o: Outcome)
    requires c.update.Some? || RegexIs(t, UpdateResume)
    ensures o.convs == c.(update := o.convs.update)
    ensures o.raised ==> o.convs == c
    ensures c.update.Some? && RegexIs(t, Labels.CancelUpdate) ==>
      o.store == st && o.convs.update.None? && o.data == UpdateFlow.ClearUpdate(d)
    ensures Valid(st) ==> Valid(o.store)
  {
    var s := match c.update
      case None => UpdateFlow.StartUpdate(st, d, who)
      case Some(step) =>
        if RegexIs(t, Labels.CancelUpdate) then UpdateFlow.CancelUpdate(st, d, who)
        else UpdateFlow.UpdateConv(st, d, who, step, t);
    Outcome(s.reply.store, s.reply.data, c.(update := Advance(c.update, s)), s.reply.out, s.reply.raised)
  }

  // ------------------------------------------------------------ the fallback text handler

  /**
   * `handle_message`: a pending search takes the text as its term (clearing
   * its flag); otherwise the text is compared with `==` against the buttons.
   * Conversation entry points reached from here run their first step only:
   * the conversation itself is not entered.
   */
  function HandleMessage(st: Store, d: UserData, who: Actor, t: string): (r: Reply)
    ensures d.waitingForSearch ==>
      r == Done(st, d.(waitingForSearch := false), Search.SearchVacancies(st, t))
    ensures !d.waitingForSearch && d.waitingForCandidateSearch ==>
      r == Done(st, d.(waitingForCandidateSearch := false), Search.SearchCandidates(st, t))
    ensures !d.waitingForSearch && !d.waitingForCandidateSearch && ButtonOf(t).None? ==>
      r == Done(st, d, [Say(PickFromMenu)])
    ensures !d.waitingForSearch && !d.waitingForCandidateSearch && ButtonOf(t) == Some(SearchVacancies) ==>
      r == Done(st, d.(waitingForSearch := true), [Ask(EnterSearchTerm)])
    ensures !d.waitingForSearch && !d.waitingForCandidateSearch && ButtonOf(t) == Some(SearchCandidates) ==>
      r == Done(st, d.(waitingForCandidateSearch := true), [Ask(EnterCandidateTerm)])
    ensures r.store != st ==>
      !d.waitingForSearch && !d.waitingForCandidateSearch
      && ButtonOf(t) in {Some(FindJobs), Some(PostVacancy), Some(Labels.ConfirmDelete), Some(Labels.DeleteResume)}
    ensures r.raised ==> r.store == st
    ensures Valid(st) ==> Valid(r.store)
  {
    if d.waitingForSearch then
      Done(st, d.(waitingForSearch := false), Search.SearchVacancies(st, t))
    else if d.waitingForCandidateSearch then
      Done(st, d.(waitingForCandidateSearch := false), Search.SearchCandidates(st, t))
    else match ButtonOf(t)
      case None => Done(st, d, [Say(PickFromMenu)])
      case Some(l) => Button(st, d, who, l)
  }

  /** The branch of the `==` chain for each button. */
  function Button(st: Store, d: UserData, who: Actor, l: Label): (r: Reply)
    ensures l == SearchVacancies ==> r == Done(st, d.(waitingForSearch := true), [Ask(EnterSearchTerm)])
    ensures l == SearchCandidates ==> r == Done(st, d.(waitingForCandidateSearch := true), [Ask(EnterCandidateTerm)])
    ensures r.store != st ==> l in {FindJobs, PostVacancy, Labels.ConfirmDelete, Labels.DeleteResume}
    ensures !r.raised
    ensures Valid(st) ==> Valid(r.store)
  {
    match l
    case ListVacancies => Browsing.OpenListing(st, d)
    case SearchVacancies => Done(st, d.(waitingForSearch := true), [Ask(EnterSearchTerm)])
    case MyResume => Done(st, d, Views.ResumeScreen(st, who.id))
    case MyApplications => Done(st, d, Views.MyApplications(st, who.id))
    case MyProfile => Done(st, d, Views.Profile(st, who.id))
    case Contacts => ContactFlow.StartContact(st, d).reply
    case Help => Done(st, d, [Say(HelpText)])
    case MainMenu => Done(st, d, [ShowMenu(Welcome)])
    case AddVacancy => VacancyFlow.StartVacancy(st, d, who.id).reply
    case MyVacancies => Done(st, d, Views.MyVacancies(st, who.id))
    case EmployerApplications => Done(st, d, Views.EmployerApplications(st, who.id))
    case SearchCandidates => Done(st, d.(waitingForCandidateSearch := true), [Ask(EnterCandidateTerm)])
    case FindJobs => Accounts.ChooseRole(st, d, who, false)
    case PostVacancy => Accounts.ChooseRole(st, d, who, true)
    case CreateResume => ResumeFlow.StartResume(st, d, who.id).reply
    case UpdateMore => UpdateFlow.StartUpdate(st, d, who.id).reply
    case ViewResume => Done(st, d, Views.ShowResume(st, who.id))
    case BackToResumeMenu => Done(st, d, Views.ResumeScreen(st, who.id))
    case ConfirmDelete => Accounts.ConfirmDelete(st, d, who.id, LabelText(l))
    case KeepResume => Accounts.KeepResume(st, d, who.id)
    case DeleteResume => Accounts.DeleteResume(st, d, who.id)
    case UpdateResume => UpdateFlow.StartUpdate(st, d, who.id).reply
    case CancelRegistration => ContactFlow.CancelContact(st, d, who.id).reply
    case CancelResume => ResumeFlow.CancelResume(st, d).reply
    case CancelUpdate => UpdateFlow.CancelUpdate(st, d, who.id).reply
    case CancelVacancy => VacancyFlow.CancelVacancy(st, d).reply
    case Back => Done(st, d, [ShowMenu(SeekerMenu)])
  }

  // ------------------------------------------------------------ dispatch

  /** A text message, offered to the handlers in registration order. */
  function RouteText(st: Store, d: UserData, c: Convs, who: Actor, t: string): (o: Outcome)
    ensures AtMostOneMoved(c, o.convs)
    ensures o.raised ==> o.convs == c && o.store == st
    ensures Valid(st) ==> Valid(o.store)
  {
    if c.vacancy.Some? || RegexIs(t, AddVacancy) then VacancyTurn(st, d, c, who.id, t)
    else if c.contact.Some? || RegexIs(t, Labels.Contacts) then ContactTurn(st, d, c, who.id, t)
    else if c.resume.Some? || RegexIs(t, CreateResume) then ResumeTurn(st, d, c, who.id, t)
    else if c.update.Some? || RegexIs(t, UpdateResume) then UpdateTurn(st, d, c, who.id, t)
    else if RegexIs(t, FindJobs) then Plain(Accounts.ChooseRole(st, d, who, false), c)
    else if RegexIs(t, PostVacancy) then Plain(Accounts.ChooseRole(st, d, who, true), c)
    else Plain(HandleMessage(st, d, who, t), c)
  }

  /**
   * One event from `who`: the four button-press handlers, `/start`,
   * `/reset`, then the text handlers. An update nothing accepts (another
   * command, the page counter button) changes nothing.
   */
  function Handle(st: Store, d: UserData, c: Convs, who: Actor, ev: Event): (o: Outcome)
    ensures AtMostOneMoved(c, o.convs)
    ensures !ev.Text? ==> o.convs == c
    ensures ev == OtherCommand || ev == PageInfoPress ==> o == Outcome(st, d, c, [], false)
    ensures ev == ResetCommand ==> o.data == NoData && o.convs == c
    ensures o.raised ==> o.convs == c && o.store == st
    ensures Valid(st) ==> Valid(o.store)
  {
    match ev
    case ApplyPress(vid) => Plain(Applying.Apply(st, d, who, vid), c)
    case ManagePress(action, id) => Plain(Applying.Manage(st, d, action, id), c)
    case DeletePress(vid) => Plain(Applying.DeleteVacancy(st, d, who.id, vid), c)
    case NavigatePress(dir) => Plain(Browsing.Navigate(st, d, dir), c)
    case PageInfoPress => Outcome(st, d, c, [], false)
    case StartCommand => Plain(Accounts.Start(st, d, who), c)
    case ResetCommand => Plain(Accounts.Reset(st, d, who.id), c)
    case OtherCommand => Outcome(st, d, c, [], false)
    case Text(t) => RouteText(st, d, c, who, t)
  }

  // ------------------------------------------------------------ properties of the routing

  /**
   * While a conversation is waiting for an answer, a menu button is taken as
   * the answer: in the name step of the contact flow, any text except the
   * cancel button and the vacancy flow's entry becomes the name.
   */
  lemma NameStepTakesAnyText(st: Store, d: UserData, c: Convs, who: Actor, t: string)
    requires c.vacancy.None? && c.contact == Some(AskName)
    requires !RegexIs(t, AddVacancy) && !RegexIs(t, CancelRegistration)
    ensures var o := Handle(st, d, c, who, Text(t));
      o.data == d.(regName := Some(t)) && o.convs == c.(contact := Some(AskPhone)) && o.store == st
  {
  }

  /**
   * After "🔍 Пошук вакансій" the next ordinary text is the search term,
   * even a menu button; the flag is cleared by that search.
   */
  lemma SearchFlagTakesNextText(st: Store, d: UserData, who: Actor, t: string)
    requires d.waitingForSearch
    requires forall l :: l in {AddVacancy, Labels.Contacts, CreateResume, UpdateResume, FindJobs, PostVacancy}
                         ==> !RegexIs(t, l)
    ensures var o := Handle(st, d, Idle, who, Text(t));
      o == Outcome(st, d.(waitingForSearch := false), Idle, Search.SearchVacancies(st, t), false)
  {
  }

  /**
   * `/reset` in the middle of the resume flow clears the draft but not the
   * conversation state, so every later answer raises and the flow is stuck
   * until its cancel button is pressed.
   */
  lemma ResetStrandsResumeFlow(st: Store, d: UserData, who: Actor, step: ResumeStep, t: string, cancel: string)
    requires step in {RPosition, RSalary, RExperience, REducation, RSkills}
    requires !RegexIs(t, AddVacancy) && !RegexIs(t, Labels.Contacts) && !RegexIs(t, Labels.CancelResume)
    requires cancel == LabelText(Labels.CancelResume)
    ensures var c := Idle.(resume := Some(step));
      var o1 := Handle(st, d, c, who, ResetCommand);
      var o2 := Handle(o1.store, o1.data, o1.convs, who, Text(t));
      var o3 := Handle(o1.store, o1.data, o1.convs, who, Text(cancel));
      && o1.convs == c && o1.data == NoData
      && o2.raised && o2.convs == c && o2.store == o1.store
      && o3.convs == Idle && !o3.raised && o3.store == o1.store
  {
    var c := Idle.(resume := Some(step));
    var o1 := Handle(st, d, c, who, ResetCommand);
    StrandedAnswerRaises(o1.store, who, step, t);
    StrandedCancelEnds(o1.store, who, step, cancel);
  }

  /** Without a draft, an answer in the middle of the resume flow raises and moves nothing. */
  lemma StrandedAnswerRaises(st: Store, who: Actor, step: ResumeStep, t: string)
    requires step in {RPosition, RSalary, RExperience, REducation, RSkills}
    requires !RegexIs(t, AddVacancy) && !RegexIs(t, Labels.Contacts) && !RegexIs(t, Labels.CancelResume)
    ensures var c := Idle.(resume := Some(step));
      var o := Handle(st, NoData, c, who, Text(t));
      o.raised && o.convs == c && o.store == st
  {
  }

  /** The resume flow's cancel button ends it even without a draft. */
  lemma StrandedCancelEnds(st: Store, who: Actor, step: ResumeStep, cancel: string)
    requires cancel == LabelText(Labels.CancelResume)
    ensures var o := Handle(st, NoData, Idle.(resume := Some(step)), who, Text(cancel));
      o.convs == Idle && !o.raised && o.store == st
  {
    assert !RegexIs(cancel, AddVacancy) && !RegexIs(cancel, Labels.Contacts);
  }

  /**
   * The entry labels of the four conversations, typed while no conversation
   * is active, always start the conversation: the fallback handler's own
   * branches for them are never reached.
   */
  lemma EntryLabelsStartConversations(st: Store, d: UserData, who: Actor, l: Label)
    requires l in {AddVacancy, Labels.Contacts, CreateResume, UpdateResume}
    ensures var o := Handle(st, d, Idle, who, Text(LabelText(l)));
      && (l == AddVacancy ==> o == VacancyTurn(st, d, Idle, who.id, LabelText(l)))
      && (l == Labels.Contacts ==> o == ContactTurn(st, d, Idle, who.id, LabelText(l)))
      && (l == CreateResume ==> o == ResumeTurn(st, d, Idle, who.id, LabelText(l)))
      && (l == UpdateResume ==> o == UpdateTurn(st, d, Idle, who.id, LabelText(l)))
  {
    if l == AddVacancy {
      EntryRoute(st, d, who, LabelText(l), false, false, false);
    } else if l == Labels.Contacts {
      EntryRoute(st, d, who, LabelText(l), true, false, false);
    } else if l == CreateResume {
      EntryRoute(st, d, who, LabelText(l), true, true, false);
    } else {
      EntryRoute(st, d, who, LabelText(l), true, true, true);
    }
  }

  /** How an idle session routes a text, given which of the earlier entry buttons it is not. */
  lemma EntryRoute(st: Store, d: UserData, who: Actor, t: string, notVacancy: bool, notContacts: bool, notResume: bool)
    requires notVacancy ==> !RegexIs(t, AddVacancy)
    requires notContacts ==> !RegexIs(t, Labels.Contacts)
    requires notResume ==> !RegexIs(t, CreateResume)
    ensures var o := Handle(st, d, Idle, who, Text(t));
      && (!notVacancy && RegexIs(t, AddVacancy) ==> o == VacancyTurn(st, d, Idle, who.id, t))
      && (notVacancy && !notContacts && RegexIs(t, Labels.Contacts) ==> o == ContactTurn(st, d, Idle, who.id, t))
      && (notVacancy && notContacts && !notResume && RegexIs(t, CreateResume) ==> o == ResumeTurn(st, d, Idle, who.id, t))
      && (notVacancy && notContacts && notResume && RegexIs(t, UpdateResume) ==> o == UpdateTurn(st, d, Idle, who.id, t))
  {
  }

  // ------------------------------------------------------------ many users

  /** One user's session: `user_data` and the four conversation states. */
  datatype Chat = Chat(data: UserData, convs: Convs)

  datatype World = World(store: Store, chats: map<int, Chat>)

  /** A user the bot has not seen yet starts with empty data and no conversation. */
  function ChatOf(w: World, id: int): Chat {
    if id in w.chats then w.chats[id] else Chat(NoData, Idle)
  }

  /** Delivers one event from `who`; only that user's session and the shared database change. */
  function Deliver(w: World, who: Actor, ev: Event): (r: (World, seq<Out>))
    ensures forall id :: id != who.id ==> ChatOf(r.0, id) == ChatOf(w, id)
    ensures Valid(w.store) ==> Valid(r.0.store)
  {
    var ch := ChatOf(w, who.id);
    var o := Handle(w.store, ch.data, ch.convs, who, ev);
    (World(o.store, w.chats[who.id := Chat(o.data, o.convs)]), o.out)
  }

  /** The database after a run of events. */
  function Run(w: World, evs: seq<(Actor, Event)>): World
    decreases |evs|
  {
    if |evs| == 0 then w else Run(Deliver(w, evs[0].0, evs[0].1).0, evs[1..])
  }

  /** Every run of events from any users keeps the database invariant. */
  lemma {:induction false} RunKeepsValid(w: World, evs: seq<(Actor, Event)>)
    requires Valid(w.store)
    ensures Valid(Run(w, evs).store)
    decreases |evs|
  {
    if |evs| > 0 {
      RunKeepsValid(Deliver(w, evs[0].0, evs[0].1).0, evs[1..]);
    }
  }

  /** Starting from an empty database, whatever happens, the invariant holds. */
  lemma FromEmptyDatabase(evs: seq<(Actor, Event)>)
    ensures Valid(Run(World(EmptyStore, map[]), evs).store)
  {
    EmptyStoreValid();
    RunKeepsValid(World(EmptyStore, map[]), evs);
  }
}

=== FILE: labels.dfy ===
/**
 * The reply-keyboard labels the bot reacts to, how an incoming text is
 * matched against them, and how the confirmation step reads an answer.
 *
 * Two matchers exist side by side in the bot: the fallback text handler
 * compares with `==`, while the conversation entry points and cancel
 * buttons use `Filters.regex("^label$")`, where Python's `$` also accepts a
 * single trailing line feed.
 */
module Labels {
  import opened Wrappers
  import opened Text

  datatype Label =
    // job-seeker menu
    | ListVacancies | SearchVacancies | MyResume | MyApplications
    | MyProfile | Contacts | Help | MainMenu
    // employer menu
    | AddVacancy | MyVacancies | EmployerApplications | SearchCandidates
    // role choice on the main menu
    | FindJobs | PostVacancy
    // resume management
    | CreateResume | UpdateMore | ViewResume | BackToResumeMenu
    | ConfirmDelete | KeepResume | DeleteResume | UpdateResume
    // cancel buttons of the four guided flows, and the plain back button
    | CancelRegistration | CancelResume | CancelUpdate | CancelVacancy | Back

  function LabelText(l: Label): string {
    match l
    case ListVacancies => "📋 Список вакансій"
    case SearchVacancies => "🔍 Пошук вакансій"
    case MyResume => "📄 Моє резюме"
    case MyApplications => "📨 Мої заявки"
    case MyProfile => "👤 Мій профіль"
    case Contacts => "📞 Контакти"
    case Help => "ℹ️ Допомога"
    case MainMenu => "↩️ Головне меню"
    case AddVacancy => "📝 Додати вакансію"
    case MyVacancies => "📊 Мої вакансії"
    case EmployerApplications => "📨 Заявки на вакансії"
    case SearchCandidates => "🔍 Пошук кандидатів"
    case FindJobs => "📋 Знайти вакансії"
    case PostVacancy => "📝 Подати вакансію"
    case CreateResume => "📝 Створити резюме"
    case UpdateMore => "🔄 Оновити ще щось"
    case ViewResume => "👀 Переглянути резюме"
    case BackToResumeMenu => "↩️ Назад до меню резюме"
    case ConfirmDelete => "✅ Так, видалити"
    case KeepResume => "❌ Ні, скасувати"
    case DeleteResume => "❌ Видалити резюме"
    case UpdateResume => "🔄 Оновити резюме"
    case CancelRegistration => "❌ Скасувати реєстрацію"
    case CancelResume => "❌ Скасувати створення резюме"
    case CancelUpdate => "❌ Скасувати оновлення"
    case CancelVacancy => "❌ Скасувати створення вакансії"
    case Back => "↩️ Назад"
  }

  /** `Filters.regex("^label$")`: the label, optionally followed by one line feed. */
  predicate RegexIs(text: string, l: Label) {
    text == LabelText(l) || text == LabelText(l) + "\n"
  }

  /** Every label, in the order the fallback handler tests them. */
  const AllLabels: seq<Label> := [
    ListVacancies, SearchVacancies, MyResume, MyApplications, MyProfile, Contacts, Help, MainMenu,
    AddVacancy, MyVacancies, EmployerApplications, SearchCandidates, FindJobs, PostVacancy,
    CreateResume, UpdateMore, ViewResume, BackToResumeMenu, ConfirmDelete, KeepResume,
    DeleteResume, UpdateResume, CancelRegistration, CancelResume, CancelUpdate, CancelVacancy, Back]

  lemma AllLabelsComplete(l: Label)
    ensures l in AllLabels
  {
  }

  /** The first label in `ls` whose text is exactly `text`. */
  function FirstLabel(text: string, ls: seq<Label>): (r: Option<Label>)
    ensures r.Some? ==> r.value in ls && text == LabelText(r.value)
    ensures r.None? ==> forall l :: l in ls ==> text != LabelText(l)
  {
    if |ls| == 0 then None
    else if text == LabelText(ls[0]) then Some(ls[0])
    else FirstLabel(text, ls[1..])
  }

  /** The `text == "..."` chain of the fallback handler: the label typed exactly, if any. */
  function ButtonOf(text: string): (r: Option<Label>)
    ensures r.Some? ==> text == LabelText(r.value)
    ensures r.None? <==> forall l :: text != LabelText(l)
  {
    var r := FirstLabel(text, AllLabels);
    if r.None? then
      assert forall l :: text != LabelText(l) by {
        forall l ensures text != LabelText(l) {
          AllLabelsComplete(l);
        }
      }
      r
    else r
  }

  // ------------------------------------------------------------ resume fields

  /** The six resume fields the single-field update can change. */
  datatype ResumeField = Position | Salary | Experience | Education | Skills | About

  function FieldLabel(f: ResumeField): string {
    match f
    case Position => "🎯 Бажану посаду"
    case Salary => "💰 Бажану зарплату"
    case Experience => "💼 Досвід роботи"
    case Education => "🎓 Освіту"
    case Skills => "🛠️ Навички"
    case About => "📝 Інформацію про себе"
  }

  /** The `field_mapping` lookup: which field a button text selects, if any. */
  function FieldOf(text: string): (r: Option<ResumeField>)
    ensures r.Some? ==> text == FieldLabel(r.value)
    ensures r.None? ==> forall f :: text != FieldLabel(f)
  {
    if text == FieldLabel(Position) then Some(Position)
    else if text == FieldLabel(Salary) then Some(Salary)
    else if text == FieldLabel(Experience) then Some(Experience)
    else if text == FieldLabel(Education) then Some(Education)
    else if text == FieldLabel(Skills) then Some(Skills)
    else if text == FieldLabel(About) then Some(About)
    else None
  }

  /** Each button selects its own field. */
  lemma FieldOfLabel(f: ResumeField)
    ensures FieldOf(FieldLabel(f)) == Some(f)
  {
  }

  /** No two field buttons share a text, and none reads as "❌ Скасувати оновлення". */
  lemma FieldLabelsApart()
    ensures forall f, g :: FieldLabel(f) == FieldLabel(g) ==> f == g
    ensures forall f :: FieldLabel(f) != LabelText(CancelUpdate)
  {
    forall f, g | FieldLabel(f) == FieldLabel(g)
      ensures f == g
    {
      FieldOfLabel(f);
      FieldOfLabel(g);
    }
    forall f
      ensures FieldLabel(f) != LabelText(CancelUpdate)
    {
      assert FieldLabel(f)[0] != LabelText(CancelUpdate)[0];
    }
  }

  // ------------------------------------------------------------ confirmation

  /** The lower-cased answers that commit a draft. */
  const YesWords: set<string> := {"так", "yes", "ok", "підтверджую"}

  /** The lower-cased answers that discard a draft. */
  const NoWords: set<string> := {"ні", "no", "cancel", "скасувати"}

  datatype Answer = Affirm | Decline | Unclear

  /** `text.lower()` tested against the affirmative words first, then the negative ones. */
  function Classify(text: string): (a: Answer)
    ensures a == Affirm <==> PyLower(text) in YesWords
    ensures a == Decline <==> PyLower(text) in NoWords
    ensures a == Unclear <==> PyLower(text) !in YesWords + NoWords
  {
    AnswersDisjoint();
    var t := PyLower(text);
    if t in YesWords then Affirm
    else if t in NoWords then Decline
    else Unclear
  }

  /** The two word lists share no word, so the order of the two tests does not matter. */
  lemma AnswersDisjoint()
    ensures YesWords * NoWords == {}
  {
    assert forall w :: w in YesWords ==> w !in NoWords;
  }

  /** The keyboard's own "Так" and "Ні" buttons are read as intended. */
  lemma KeyboardAnswers(yes: string, no: string)
    requires yes == "Так" && no == "Ні"
    ensures Classify(yes) == Affirm && Classify(no) == Decline
  {
    assert PyLower(yes) == "так";
    assert PyLower(no) == "ні";
  }

  /** The answer check ignores case: an answer reads as its lower-cased form does. */
  lemma AnswerIgnoresCase(text: string)
    ensures Classify(PyLower(text)) == Classify(text)
  {
    PyLowerIdempotent(text);
  }

  /** Unlike the button regexes, the answer check does not forgive a trailing line feed. */
  lemma TrailingNewlineIsUnclear(yes: string)
    requires yes == "так\n"
    ensures Classify(yes) == Unclear
  {
    assert PyLower(yes) == yes;
  }
}

=== FILE: records.dfy ===
/**
 * The four record kinds of the job board and the store that holds them.
 *
 * A nullable column becomes `Option<string>` only where a live row can hold
 * NULL (a Telegram username, the phone and e-mail before registration, the
 * category of a vacancy created in the chat); nullable columns that every
 * writer fills are plain strings. `created` stands for `created_at`: the
 * store's `clock` is stamped on each insert and then advanced, so a later
 * insert always carries a larger stamp.
 */
module Records {
  import opened Wrappers
  import opened Seqs

  /** Owner id of the demonstration vacancies seeded into an empty database. */
  const SampleEmployerId: int := 999999999

  datatype User = User(
    telegramId: int,
    username: Option<string>,
    fullName: string,
    phone: Option<string>,
    email: Option<string>,
    isEmployer: bool,
    registered: nat)

  datatype Vacancy = Vacancy(
    id: nat,
    title: string,
    company: string,
    salary: string,
    description: string,
    requirements: string,
    contacts: string,
    category: Option<string>,
    isActive: bool,
    employerId: int,
    created: nat)

  datatype Resume = Resume(
    id: nat,
    userId: int,
    position: string,
    salary: string,
    experience: string,
    education: string,
    skills: string,
    about: string,
    contacts: string,
    isActive: bool,
    created: nat)

  /** The three status strings the bot ever writes. */
  datatype Status = New | Viewed | Rejected

  function StatusText(s: Status): string {
    match s
    case New => "нова"
    case Viewed => "переглянута"
    case Rejected => "відхилена"
  }

  lemma StatusTextInjective(a: Status, b: Status)
    ensures StatusText(a) == StatusText(b) ==> a == b
  {
  }

  datatype Application = Application(
    id: nat,
    userId: int,
    vacancyId: nat,
    employerId: int,
    resumeData: string,
    userContacts: string,
    status: Status,
    created: nat)

  datatype Store = Store(
    users: seq<User>,
    vacancies: seq<Vacancy>,
    resumes: seq<Resume>,
    applications: seq<Application>,
    clock: nat)

  /** A fresh database: every table empty. */
  const EmptyStore := Store([], [], [], [], 0)

  /** The identity Telegram reports for the sender of an event. */
  datatype Actor = Actor(id: int, username: Option<string>, fullName: string, firstName: string)

  // ------------------------------------------------------------ defaults

  /**
   * A new account row: no contacts yet, stamped with the store clock.
   * `isEmployer` is the column default (false) unless the caller sets it.
   */
  function NewUser(a: Actor, isEmployer: bool, stamp: nat): (u: User)
    ensures u.telegramId == a.id && u.phone.None? && u.email.None?
    ensures u.isEmployer == isEmployer && u.registered == stamp
  {
    User(a.id, a.username, a.fullName, None, None, isEmployer, stamp)
  }

  // ------------------------------------------------------------ rowids

  function VacancyKey(v: Vacancy): nat { v.id }
  function ResumeKey(r: Resume): nat { r.id }
  function ApplicationKey(a: Application): nat { a.id }

  /**
   * SQLite assigns a new rowid one larger than the largest in the table, or
   * 1 in an empty table; ids are never below 1, so both cases are `max + 1`.
   */
  function NextVacancyId(vs: seq<Vacancy>): (id: nat)
    ensures id >= 1 && forall v :: v in vs ==> v.id < id
    ensures |vs| == 0 ==> id == 1
    ensures |vs| > 0 ==> exists v :: v in vs && v.id == id - 1
  {
    var f: Vacancy -> nat := VacancyKey;
    var m := MaxKey(vs, f);
    assert |vs| > 0 ==> exists v :: v in vs && f(v) == m;
    m + 1
  }

  function NextResumeId(rs: seq<Resume>): (id: nat)
    ensures id >= 1 && forall r :: r in rs ==> r.id < id
    ensures |rs| == 0 ==> id == 1
    ensures |rs| > 0 ==> exists r :: r in rs && r.id == id - 1
  {
    var f: Resume -> nat := ResumeKey;
    var m := MaxKey(rs, f);
    assert |rs| > 0 ==> exists r :: r in rs && f(r) == m;
    m + 1
  }

  function NextApplicationId(apps: seq<Application>): (id: nat)
    ensures id >= 1 && forall a :: a in apps ==> a.id < id
    ensures |apps| == 0 ==> id == 1
    ensures |apps| > 0 ==> exists a :: a in apps && a.id == id - 1
  {
    var f: Application -> nat := ApplicationKey;
    var m := MaxKey(apps, f);
    assert |apps| > 0 ==> exists a :: a in apps && f(a) == m;
    m + 1
  }

  // ------------------------------------------------------------ inserts

  /** The column values a new vacancy is given (the chat flow leaves `category` NULL). */
  datatype VacancyData = VacancyData(
    title: string,
    company: string,
    salary: string,
    description: string,
    requirements: string,
    contacts: string,
    category: Option<string>)

  /** `v` is the active row stored for the form `d` on behalf of `employer`. */
  predicate Inserted(v: Vacancy, d: VacancyData, employer: int)
  {
    && v.title == d.title && v.company == d.company && v.salary == d.salary
    && v.description == d.description && v.requirements == d.requirements
    && v.contacts == d.contacts && v.category == d.category
    && v.isActive && v.employerId == employer
  }

  /** Stores a new active vacancy owned by `employer`, with a fresh rowid and stamp. */
  function InsertVacancy(st: Store, d: VacancyData, employer: int): (r: Store)
    ensures |r.vacancies| == |st.vacancies| + 1 && r.vacancies[..|st.vacancies|] == st.vacancies
    ensures Inserted(r.vacancies[|st.vacancies|], d, employer)
    ensures forall w :: w in st.vacancies ==> w.id != r.vacancies[|st.vacancies|].id
    ensures r.users == st.users && r.resumes == st.resumes && r.applications == st.applications
    ensures Valid(st) ==> Valid(r)
  {
    var v := Vacancy(NextVacancyId(st.vacancies), d.title, d.company, d.salary, d.description,
                     d.requirements, d.contacts, d.category, true, employer, st.clock);
    var r := st.(vacancies := st.vacancies + [v], clock := st.clock + 1);
    assert r.vacancies[..|st.vacancies|] == st.vacancies;
    AppendVacancyKeepsValid(st, v);
    r
  }

  lemma AppendVacancyKeepsValid(st: Store, v: Vacancy)
    requires forall w :: w in st.vacancies ==> w.id < v.id
    requires v.created == st.clock
    ensures Valid(st) ==> Valid(st.(vacancies := st.vacancies + [v], clock := st.clock + 1))
  {
    if Valid(st) {
      var r := st.(vacancies := st.vacancies + [v], clock := st.clock + 1);
      AppendPairwise(st.vacancies, v, VacancyOrder);
      forall a | a in r.applications ensures VacancyOwnedBy(r.vacancies, a.vacancyId, a.employerId) {
        var w :| w in st.vacancies && w.id == a.vacancyId && w.employerId == a.employerId;
        assert w in r.vacancies;
      }
    }
  }

  // ------------------------------------------------------------ lookups (`.first()`)

  function FindUser(users: seq<User>, tid: int): (r: Option<User>)
    ensures r.Some? ==> r.value in users && r.value.telegramId == tid
    ensures r.None? <==> forall u :: u in users ==> u.telegramId != tid
  {
    if |users| == 0 then None
    else if users[0].telegramId == tid then Some(users[0])
    else FindUser(users[1..], tid)
  }

  function FindResumeOf(resumes: seq<Resume>, uid: int): (r: Option<Resume>)
    ensures r.Some? ==> r.value in resumes && r.value.userId == uid
    ensures r.None? <==> forall x :: x in resumes ==> x.userId != uid
  {
    if |resumes| == 0 then None
    else if resumes[0].userId == uid then Some(resumes[0])
    else FindResumeOf(resumes[1..], uid)
  }

  function FindVacancy(vs: seq<Vacancy>, id: nat): (r: Option<Vacancy>)
    ensures r.Some? ==> r.value in vs && r.value.id == id
    ensures r.None? <==> forall v :: v in vs ==> v.id != id
  {
    if |vs| == 0 then None
    else if vs[0].id == id then Some(vs[0])
    else FindVacancy(vs[1..], id)
  }

  /** `filter_by(id=..., employer_id=...)`: the vacancy only if the caller owns it. */
  function FindOwnedVacancy(vs: seq<Vacancy>, id: nat, owner: int): (r: Option<Vacancy>)
    ensures r.Some? ==> r.value in vs && r.value.id == id && r.value.employerId == owner
    ensures r.None? <==> forall v :: v in vs ==> !(v.id == id && v.employerId == owner)
  {
    if |vs| == 0 then None
    else if vs[0].id == id && vs[0].employerId == owner then Some(vs[0])
    else FindOwnedVacancy(vs[1..], id, owner)
  }

  function FindApplication(apps: seq<Application>, id: nat): (r: Option<Application>)
    ensures r.Some? ==> r.value in apps && r.value.id == id
    ensures r.None? <==> forall a :: a in apps ==> a.id != id
  {
    if |apps| == 0 then None
    else if apps[0].id == id then Some(apps[0])
    else FindApplication(apps[1..], id)
  }

  predicate HasApplication(apps: seq<Application>, uid: int, vid: nat) {
    exists a :: a in apps && a.userId == uid && a.vacancyId == vid
  }

  /** The user has a phone that Python would treat as true (set and non-empty). */
  predicate HasPhone(u: Option<User>) {
    u.Some? && u.value.phone.Some? && u.value.phone.value != ""
  }

  // ------------------------------------------------------------ invariant

  predicate UserOrder(a: User, b: User) { a.telegramId != b.telegramId }

  predicate VacancyOrder(a: Vacancy, b: Vacancy) { a.id != b.id && a.created < b.created }

  predicate ResumeOrder(a: Resume, b: Resume) { a.id != b.id && a.userId != b.userId }

  predicate ApplicationOrder(a: Application, b: Application) {
    && a.id != b.id
    && (a.userId != b.userId || a.vacancyId != b.vacancyId)
    && a.created < b.created
  }

  ghost predicate VacancyOwnedBy(vs: seq<Vacancy>, vid: nat, employer: int) {
    exists v :: v in vs && v.id == vid && v.employerId == employer
  }

  ghost predicate HasResume(rs: seq<Resume>, uid: int) {
    exists r :: r in rs && r.userId == uid
  }

  /**
   * What the handlers maintain although the schema does not enforce it
   * beyond `telegram_id UNIQUE`: unique keys, one resume per user, one
   * application per (user, vacancy), insertion order matching `created_at`,
   * every application pointing at an existing vacancy of its recorded
   * employer, and every applicant holding a resume.
   */
  ghost predicate Valid(st: Store) {
    && Pairwise(st.users, UserOrder)
    && Pairwise(st.vacancies, VacancyOrder)
    && Pairwise(st.resumes, ResumeOrder)
    && Pairwise(st.applications, ApplicationOrder)
    && (forall v :: v in st.vacancies ==> v.created < st.clock)
    && (forall a :: a in st.applications ==> a.created < st.clock)
    && (forall a :: a in st.applications ==> VacancyOwnedBy(st.vacancies, a.vacancyId, a.employerId))
    && (forall a :: a in st.applications ==> HasResume(st.resumes, a.userId))
  }

  lemma EmptyStoreValid()
    ensures Valid(EmptyStore)
  {
  }

  /** Under `Valid` there is at most one account per Telegram id. */
  lemma UniqueAccount(st: Store, a: User, b: User)
    requires Valid(st)
    requires a in st.users && b in st.users && a.telegramId == b.telegramId
    ensures a == b
  {
  }

  /** Under `Valid` there is at most one resume per user. */
  lemma UniqueResume(st: Store, a: Resume, b: Resume)
    requires Valid(st)
    requires a in st.resumes && b in st.resumes && a.userId == b.userId
    ensures a == b
  {
  }

  /** Under `Valid` there is at most one application per (user, vacancy). */
  lemma UniqueApplication(st: Store, a: Application, b: Application)
    requires Valid(st)
    requires a in st.applications && b in st.applications
    requires a.userId == b.userId && a.vacancyId == b.vacancyId
    ensures a == b
  {
  }
}

=== FILE: resume_flow.dfy ===
/**
 * The "📝 Створити резюме" conversation: six answers collected into the
 * `resume` draft, the contact line taken from the account, a summary, and
 * a yes/no confirmation that writes the resume (replacing the user's
 * existing one in place).
 */
module ResumeFlow {
  import opened Wrappers
  import opened Records
  import opened Labels
  import opened Session
  import opened Tables

  /** The question asked after the answer of each step, and the step that follows. */
  function QuestionAfter(step: ResumeStep): Question {
    match step
    case RPosition => EnterResumeSalary
    case RSalary => EnterExperience
    case RExperience => EnterEducation
    case REducation => EnterSkills
    case RSkills => EnterAbout
    case _ => EnterPosition
  }

  function StepAfter(step: ResumeStep): ResumeStep {
    match step
    case RPosition => RSalary
    case RSalary => RExperience
    case RExperience => REducation
    case REducation => RSkills
    case RSkills => RAbout
    case _ => RConfirm
  }

  /** The draft with the answer of `step` stored under its key. */
  function WithAnswer(r: ResumeDraft, step: ResumeStep, text: string): ResumeDraft {
    match step
    case RPosition => r.(position := Some(text))
    case RSalary => r.(salary := Some(text))
    case RExperience => r.(experience := Some(text))
    case REducation => r.(education := Some(text))
    case RSkills => r.(skills := Some(text))
    case RAbout => r.(about := Some(text))
    case RConfirm => r
  }

  /** Every key the confirmation reads is present. */
  predicate Complete(r: ResumeDraft) {
    && r.position.Some? && r.salary.Some? && r.experience.Some? && r.education.Some?
    && r.skills.Some? && r.about.Some? && r.contacts.Some?
  }

  function DraftData(r: ResumeDraft): (x: ResumeData)
    requires Complete(r)
    ensures Some(x.position) == r.position && Some(x.salary) == r.salary
    ensures Some(x.experience) == r.experience && Some(x.education) == r.education
    ensures Some(x.skills) == r.skills && Some(x.about) == r.about && Some(x.contacts) == r.contacts
  {
    ResumeData(r.position.value, r.salary.value, r.experience.value, r.education.value,
               r.skills.value, r.about.value, r.contacts.value)
  }

  /**
   * The entry point. Without an account or without a phone the user is sent
   * to fill in contacts and the conversation does not start; otherwise an
   * empty draft is opened.
   */
  function StartResume(st: Store, d: UserData, who: int): (s: Step<ResumeStep>)
    ensures s.reply.store == st && !s.reply.raised
    ensures !HasPhone(FindUser(st.users, who)) ==>
      s.reply.data == d && s.reply.out == [Say(NeedContactsForResume)] && s.next.None?
    ensures HasPhone(FindUser(st.users, who)) ==>
      && s.reply.data == d.(resumeDraft := Some(EmptyResumeDraft))
      && s.reply.out == [Ask(EnterPosition)] && s.next == Some(RPosition)
  {
    if !HasPhone(FindUser(st.users, who)) then Step(Done(st, d, [Say(NeedContactsForResume)]), None)
    else Step(Done(st, d.(resumeDraft := Some(EmptyResumeDraft)), [Ask(EnterPosition)]), Some(RPosition))
  }

  /** "❌ Скасувати створення резюме": drops the draft and writes nothing. */
  function CancelResume(st: Store, d: UserData): (s: Step<ResumeStep>)
    ensures s.reply == Done(st, d.(resumeDraft := None), [Say(ResumeCreationCancelled), ShowMenu(SeekerMenu)])
    ensures s.next.None?
  {
    Step(Done(st, d.(resumeDraft := None), [Say(ResumeCreationCancelled), ShowMenu(SeekerMenu)]), None)
  }

  /**
   * One of the five plain steps (position to skills): stores the answer and
   * asks the next question. Without a draft (cleared by `/reset`) the step
   * raises.
   */
  function ResumeAnswer(st: Store, d: UserData, step: ResumeStep, text: string): (s: Step<ResumeStep>)
    requires step in {RPosition, RSalary, RExperience, REducation, RSkills}
    ensures s.reply.store == st
    ensures text == LabelText(Labels.CancelResume) ==> s == CancelResume(st, d)
    ensures text != LabelText(Labels.CancelResume) && d.resumeDraft.None? ==>
      s.reply == Raised(st, d) && s.next == Some(step)
    ensures text != LabelText(Labels.CancelResume) && d.resumeDraft.Some? ==>
      && !s.reply.raised
      && s.reply.data == d.(resumeDraft := Some(WithAnswer(d.resumeDraft.value, step, text)))
      && s.reply.out == [Ask(QuestionAfter(step))] && s.next == Some(StepAfter(step))
  {
    if text == LabelText(Labels.CancelResume) then CancelResume(st, d)
    else match d.resumeDraft
      case None => Step(Raised(st, d), Some(step))
      case Some(r) =>
        Step(Done(st, d.(resumeDraft := Some(WithAnswer(r, step, text))), [Ask(QuestionAfter(step))]),
             Some(StepAfter(step)))
  }

  /**
   * The last answer: stores it, adds the account's contact line, and shows
   * the summary. It raises without a draft, without an account row (after
   * storing the answer), and when an earlier answer is missing (after
   * storing the answer and the contacts).
   */
  function ResumeAbout(st: Store, d: UserData, who: int, text: string): (s: Step<ResumeStep>)
    ensures s.reply.store == st
    ensures text == LabelText(Labels.CancelResume) ==> s == CancelResume(st, d)
    ensures text != LabelText(Labels.CancelResume) ==>
      (s.reply.raised <==> d.resumeDraft.None? || FindUser(st.users, who).None?
                            || !Complete(WithAnswer(d.resumeDraft.value, RAbout, text)
                                           .(contacts := Some(ContactLine(FindUser(st.users, who).value)))))
    ensures text != LabelText(Labels.CancelResume) && s.reply.raised ==> s.next == Some(RAbout)
    ensures text != LabelText(Labels.CancelResume) && !s.reply.raised ==>
      && s.reply.data.resumeDraft.Some?
      && var r := s.reply.data.resumeDraft.value;
      && s.reply.data == d.(resumeDraft := Some(r))
      && Complete(r) && r.about == Some(text)
      && r.contacts == Some(ContactLine(FindUser(st.users, who).value))
      && r == d.resumeDraft.value.(about := r.about, contacts := r.contacts)
      && s.reply.out == [Ask(ConfirmResume(r))] && s.next == Some(RConfirm)
  {
    if text == LabelText(Labels.CancelResume) then CancelResume(st, d)
    else match d.resumeDraft
      case None => Step(Raised(st, d), Some(RAbout))
      case Some(r) =>
        var r1 := WithAnswer(r, RAbout, text);
        var d1 := d.(resumeDraft := Some(r1));
        match FindUser(st.users, who)
        case None => Step(Raised(st, d1), Some(RAbout))
        case Some(u) =>
          var r2 := r1.(contacts := Some(ContactLine(u)));
          var d2 := d.(resumeDraft := Some(r2));
          if !Complete(r2) then Step(Raised(st, d2), Some(RAbout))
          else Step(Done(st, d2, [Ask(ConfirmResume(r2))]), Some(RConfirm))
  }

  /**
   * The confirmation: an affirmative answer writes the draft (raising if it
   * is gone or incomplete), a negative one drops it, anything else asks
   * again.
   */
  function ResumeConfirm(st: Store, d: UserData, who: int, text: string): (s: Step<ResumeStep>)
    ensures text == LabelText(Labels.CancelResume) ==> s == CancelResume(st, d)
    ensures text != LabelText(Labels.CancelResume) && Classify(text) == Decline ==> s == CancelResume(st, d)
    ensures text != LabelText(Labels.CancelResume) && Classify(text) == Unclear ==>
      s.reply == Done(st, d, [Say(AnswerYesOrNo)]) && s.next == Some(RConfirm)
    ensures text != LabelText(Labels.CancelResume) && Classify(text) == Affirm ==>
      (s.reply.raised <==> d.resumeDraft.None? || !Complete(d.resumeDraft.value))
    ensures s.reply.raised ==> s.reply == Raised(st, d) && s.next == Some(RConfirm)
    ensures text != LabelText(Labels.CancelResume) && Classify(text) == Affirm && !s.reply.raised ==>
      && var x := DraftData(d.resumeDraft.value);
      && s.reply.store == UpsertResume(st, who, x)
      && FindResumeOf(s.reply.store.resumes, who).Some?
      && Holds(FindResumeOf(s.reply.store.resumes, who).value, x)
      && s.reply.data == d.(resumeDraft := None)
      && s.reply.out == [Say(ResumeSaved), ShowMenu(ResumeMenu(true))]
      && s.next.None?
    ensures Valid(st) ==> Valid(s.reply.store)
  {
    if text == LabelText(Labels.CancelResume) then CancelResume(st, d)
    else match Classify(text)
      case Affirm =>
        if d.resumeDraft.None? || !Complete(d.resumeDraft.value) then Step(Raised(st, d), Some(RConfirm))
        else
          var st' := UpsertResume(st, who, DraftData(d.resumeDraft.value));
          Step(Done(st', d.(resumeDraft := None), [Say(ResumeSaved), ShowMenu(ResumeMenuOf(st', who))]), None)
      case Decline => CancelResume(st, d)
      case Unclear => Step(Done(st, d, [Say(AnswerYesOrNo)]), Some(RConfirm))
  }

  /** The conversation's state handlers: the step's own function for each state. */
  function ResumeConv(st: Store, d: UserData, who: int, step: ResumeStep, text: string): (s: Step<ResumeStep>)
    ensures step == RAbout ==> s == ResumeAbout(st, d, who, text)
    ensures step == RConfirm ==> s == ResumeConfirm(st, d, who, text)
    ensures step !in {RAbout, RConfirm} ==> s == ResumeAnswer(st, d, step, text)
    ensures Valid(st) ==> Valid(s.reply.store)
    ensures s.reply.store != st ==> step == RConfirm && Classify(text) == Affirm
  {
    match step
    case RAbout => ResumeAbout(st, d, who, text)
    case RConfirm => ResumeConfirm(st, d, who, text)
    case _ => ResumeAnswer(st, d, step, text)
  }

  /** The draft after the six answers, from an empty one. */
  function Answered(a: seq<string>): (r: ResumeDraft)
    requires |a| == 6
  {
    EmptyResumeDraft.(position := Some(a[0]), salary := Some(a[1]), experience := Some(a[2]),
                      education := Some(a[3]), skills := Some(a[4]), about := Some(a[5]))
  }

  /** The five plain answers, from the position step on, fill the draft key by key. */
  lemma {:induction false} PlainAnswersFill(st: Store, d: UserData, a: seq<string>)
    requires |a| == 6 && d.resumeDraft == Some(EmptyResumeDraft)
    requires forall i :: 0 <= i < 6 ==> a[i] != LabelText(Labels.CancelResume)
    ensures var s1 := ResumeAnswer(st, d, RPosition, a[0]);
      var s2 := ResumeAnswer(st, s1.reply.data, RSalary, a[1]);
      var s3 := ResumeAnswer(st, s2.reply.data, RExperience, a[2]);
      var s4 := ResumeAnswer(st, s3.reply.data, REducation, a[3]);
      var s5 := ResumeAnswer(st, s4.reply.data, RSkills, a[4]);
      && s5.next == Some(RAbout) && !s5.reply.raised
      && s5.reply.data == d.(resumeDraft := Some(Answered(a).(about := None)))
  {
    var s1 := ResumeAnswer(st, d, RPosition, a[0]);
    assert s1.reply.data.resumeDraft == Some(EmptyResumeDraft.(position := Some(a[0])));
    var s2 := ResumeAnswer(st, s1.reply.data, RSalary, a[1]);
    var s3 := ResumeAnswer(st, s2.reply.data, RExperience, a[2]);
    var s4 := ResumeAnswer(st, s3.reply.data, REducation, a[3]);
    assert s4.reply.data.resumeDraft.Some?;
  }

  /**
   * The whole conversation for a user with a phone: after the six answers
   * and "Так", the user's resume holds exactly those answers, active, with
   * the account's contact line, and the draft is gone.
   */
  lemma ResumeCreated(st: Store, d: UserData, who: int, a: seq<string>, yes: string)
    requires Valid(st) && HasPhone(FindUser(st.users, who))
    requires |a| == 6 && forall i :: 0 <= i < 6 ==> a[i] != LabelText(Labels.CancelResume)
    requires yes == "Так"
    ensures var s0 := StartResume(st, d, who);
      var s1 := ResumeAnswer(st, s0.reply.data, RPosition, a[0]);
      var s2 := ResumeAnswer(st, s1.reply.data, RSalary, a[1]);
      var s3 := ResumeAnswer(st, s2.reply.data, RExperience, a[2]);
      var s4 := ResumeAnswer(st, s3.reply.data, REducation, a[3]);
      var s5 := ResumeAnswer(st, s4.reply.data, RSkills, a[4]);
      var s6 := ResumeAbout(st, s5.reply.data, who, a[5]);
      var s7 := ResumeConfirm(st, s6.reply.data, who, yes);
      && !s7.reply.raised && s7.next.None?
      && s7.reply.data == d.(resumeDraft := None)
      && var x := FindResumeOf(s7.reply.store.resumes, who);
      && x.Some?
      && Holds(x.value, ResumeData(a[0], a[1], a[2], a[3], a[4], a[5], ContactLine(FindUser(st.users, who).value)))
      && Valid(s7.reply.store)
  {
    var s0 := StartResume(st, d, who);
    PlainAnswersFill(st, s0.reply.data, a);
    var s1 := ResumeAnswer(st, s0.reply.data, RPosition, a[0]);
    var s2 := ResumeAnswer(st, s1.reply.data, RSalary, a[1]);
    var s3 := ResumeAnswer(st, s2.reply.data, RExperience, a[2]);
    var s4 := ResumeAnswer(st, s3.reply.data, REducation, a[3]);
    var s5 := ResumeAnswer(st, s4.reply.data, RSkills, a[4]);
    var u := FindUser(st.users, who).value;
    var r := Answered(a).(contacts := Some(ContactLine(u)));
    AboutCompletes(st, s5.reply.data, who, a);
    var s6 := ResumeAbout(st, s5.reply.data, who, a[5]);
    ConfirmWrites(st, s6.reply.data, who, r, yes);
    assert DraftData(r) == ResumeData(a[0], a[1], a[2], a[3], a[4], a[5], ContactLine(u));
  }

  /** The last answer completes a draft holding the five earlier ones. */
  lemma AboutCompletes(st: Store, d: UserData, who: int, a: seq<string>)
    requires FindUser(st.users, who).Some?
    requires |a| == 6 && a[5] != LabelText(Labels.CancelResume)
    requires d.resumeDraft == Some(Answered(a).(about := None))
    ensures var s := ResumeAbout(st, d, who, a[5]);
      var r := Answered(a).(contacts := Some(ContactLine(FindUser(st.users, who).value)));
      && !s.reply.raised && s.reply.store == st && s.reply.data == d.(resumeDraft := Some(r))
  {
    var r := Answered(a).(contacts := Some(ContactLine(FindUser(st.users, who).value)));
    assert Complete(r);
  }

  /** "Так" on a complete draft writes it as the user's resume and drops the draft. */
  lemma ConfirmWrites(st: Store, d: UserData, who: int, r: ResumeDraft, yes: string)
    requires Valid(st) && Complete(r) && d.resumeDraft == Some(r) && yes == "Так"
    ensures var s := ResumeConfirm(st, d, who, yes);
      && !s.reply.raised && s.next.None? && s.reply.data == d.(resumeDraft := None)
      && FindResumeOf(s.reply.store.resumes, who).Some?
      && Holds(FindResumeOf(s.reply.store.resumes, who).value, DraftData(r))
      && Valid(s.reply.store)
  {
    KeyboardAnswers(yes, "Ні");
    assert yes != LabelText(Labels.CancelResume);
  }

  /** Neither cancelling nor declining ever writes the database. */
  lemma DecliningWritesNothing(st: Store, d: UserData, who: int, text: string)
    requires Classify(text) != Affirm
    ensures ResumeConfirm(st, d, who, text).reply.store == st
  {
  }
}

=== FILE: search.dfy ===
/**
 * Keyword search over active vacancies (title, description, company,
 * requirements; at most 8 shown) and over active resumes (position, skills,
 * experience, education; at most 6 shown), each field matched with
 * `ilike('%term%')`.
 */
module Search {
  import opened Seqs
  import opened Text
  import opened Records
  import opened Session

  const VacancyCap: nat := 8
  const CandidateCap: nat := 6

  predicate VacancyMatches(v: Vacancy, term: string) {
    && (ILikeContains(v.title, term) || ILikeContains(v.description, term)
        || ILikeContains(v.company, term) || ILikeContains(v.requirements, term))
    && v.isActive
  }

  predicate ResumeMatches(x: Resume, term: string) {
    && (ILikeContains(x.position, term) || ILikeContains(x.skills, term)
        || ILikeContains(x.experience, term) || ILikeContains(x.education, term))
    && x.isActive
  }

  /** The stored vacancies the search query returns, in table order. */
  function MatchingVacancies(st: Store, term: string): (hits: seq<Vacancy>)
    ensures forall v :: v in hits <==> v in st.vacancies && VacancyMatches(v, term)
  {
    Filter(st.vacancies, (v: Vacancy) => VacancyMatches(v, term))
  }

  /** The stored resumes the candidate query returns, in table order. */
  function MatchingResumes(st: Store, term: string): (hits: seq<Resume>)
    ensures forall x :: x in hits <==> x in st.resumes && ResumeMatches(x, term)
  {
    Filter(st.resumes, (x: Resume) => ResumeMatches(x, term))
  }

  function Min(a: nat, b: nat): nat { if a <= b then a else b }

  /** The reply layout for a list of vacancy matches. */
  function VacancyReply(hits: seq<Vacancy>, term: string): (out: seq<Out>)
    ensures |hits| == 0 <==> out == [NoHits(term)]
    ensures |hits| > 0 ==>
      && var shown := Min(|hits|, VacancyCap);
      && |out| == 1 + shown + (if |hits| > VacancyCap then 1 else 0)
      && out[0] == HitsHeader(term)
      && (forall i :: 0 <= i < shown ==> out[1 + i] == VacancyHit(hits[i], i + 1, shown))
      && (|hits| > VacancyCap <==> out[|out| - 1] == MoreHits(|hits|))
    ensures forall o :: o in out && o.VacancyHit? ==> o.vacancy in hits
  {
    if |hits| == 0 then [NoHits(term)]
    else
      var shown := Min(|hits|, VacancyCap);
      var cards := VacancyCards(hits, shown);
      var more := if |hits| > VacancyCap then [MoreHits(|hits|)] else [];
      var out := [HitsHeader(term)] + cards + more;
      FramedLayout(HitsHeader(term), cards, more);
      VacancyCardsOnlyHits(HitsHeader(term), cards, more, hits);
      out
  }

  /** Where the header, the cards and the closing notice sit in a search reply. */
  lemma FramedLayout(header: Out, cards: seq<Out>, more: seq<Out>)
    requires |more| <= 1
    ensures var out := [header] + cards + more;
      && |out| == 1 + |cards| + |more| && out[0] == header
      && (forall i :: 0 <= i < |cards| ==> out[1 + i] == cards[i])
      && (|more| == 1 ==> out[|out| - 1] == more[0])
      && (|more| == 0 && |cards| > 0 ==> out[|out| - 1] == cards[|cards| - 1])
  {
    var out := [header] + cards + more;
    assert forall i :: 0 <= i < |cards| ==> out[1 + i] == cards[i];
  }

  /** The first `shown` matches as ranked cards. */
  function VacancyCards(hits: seq<Vacancy>, shown: nat): (cards: seq<Out>)
    requires shown <= |hits|
    ensures |cards| == shown
    ensures forall i :: 0 <= i < shown ==> cards[i] == VacancyHit(hits[i], i + 1, shown)
    ensures forall o :: o in cards ==> o.VacancyHit? && o.vacancy in hits
  {
    seq(shown, i requires 0 <= i < shown => VacancyHit(hits[i], i + 1, shown))
  }

  /** In a reply framed by a header and a closing notice, the vacancy cards are the only hits. */
  lemma VacancyCardsOnlyHits(header: Out, cards: seq<Out>, more: seq<Out>, hits: seq<Vacancy>)
    requires !header.VacancyHit? && forall o :: o in more ==> !o.VacancyHit?
    requires forall o :: o in cards ==> o.VacancyHit? && o.vacancy in hits
    ensures forall o :: o in [header] + cards + more && o.VacancyHit? ==> o.vacancy in hits
  {
    forall o | o in [header] + cards + more && o.VacancyHit?
      ensures o.vacancy in hits
    {
      assert o in [header] || o in cards || o in more;
    }
  }

  /**
   * The search reply for vacancies: the matches are listed in table order
   * (the query has no ORDER BY), the first eight with their rank, and a
   * notice with the total when there are more.
   */
  function SearchVacancies(st: Store, term: string): (out: seq<Out>)
    ensures out == VacancyReply(MatchingVacancies(st, term), term)
    ensures forall o :: o in out && o.VacancyHit? ==>
      o.vacancy in st.vacancies && VacancyMatches(o.vacancy, term)
  {
    VacancyReply(MatchingVacancies(st, term), term)
  }

  /** Every matching vacancy is shown when there are at most eight of them. */
  lemma FewVacancyHitsAllShown(st: Store, term: string, v: Vacancy)
    requires v in st.vacancies && VacancyMatches(v, term)
    requires |MatchingVacancies(st, term)| <= VacancyCap
    ensures exists i :: (0 <= i < |SearchVacancies(st, term)|
                         && SearchVacancies(st, term)[i].VacancyHit? && SearchVacancies(st, term)[i].vacancy == v)
  {
    var hits := MatchingVacancies(st, term);
    var out := SearchVacancies(st, term);
    var k :| 0 <= k < |hits| && hits[k] == v;
    assert out[1 + k].vacancy == v;
  }

  /** For a term without `%` or `_`, a vacancy matches iff one of its four fields contains the term. */
  lemma VacancyMatchIsSubstring(v: Vacancy, term: string)
    requires Literal(term)
    ensures VacancyMatches(v, term) <==>
      v.isActive && (ContainsFolded(v.title, term) || ContainsFolded(v.description, term)
                     || ContainsFolded(v.company, term) || ContainsFolded(v.requirements, term))
  {
    ILikeIsSubstring(v.title, term);
    ILikeIsSubstring(v.description, term);
    ILikeIsSubstring(v.company, term);
    ILikeIsSubstring(v.requirements, term);
  }

  /** The reply layout for a list of matching resumes. */
  function CandidateReply(st: Store, hits: seq<Resume>, term: string): (out: seq<Out>)
    ensures |hits| == 0 <==> out == [NoCandidates(term)]
    ensures |hits| > 0 ==>
      && var shown := Min(|hits|, CandidateCap);
      && |out| == 1 + shown + (if |hits| > CandidateCap then 1 else 0)
      && out[0] == CandidatesHeader(term)
      && (forall i :: 0 <= i < shown ==>
            out[1 + i] == CandidateHit(hits[i], NameOf(st, hits[i].userId), i + 1, shown))
      && (|hits| > CandidateCap <==> out[|out| - 1] == MoreHits(|hits|))
    ensures forall o :: o in out && o.CandidateHit? ==> o.resume in hits
  {
    if |hits| == 0 then [NoCandidates(term)]
    else
      var shown := Min(|hits|, CandidateCap);
      var cards := CandidateCards(st, hits, shown);
      var more := if |hits| > CandidateCap then [MoreHits(|hits|)] else [];
      var out := [CandidatesHeader(term)] + cards + more;
      FramedLayout(CandidatesHeader(term), cards, more);
      CandidateCardsOnlyHits(CandidatesHeader(term), cards, more, hits);
      out
  }

  /** In a reply framed by a header and a closing notice, the candidate cards are the only hits. */
  lemma CandidateCardsOnlyHits(header: Out, cards: seq<Out>, more: seq<Out>, hits: seq<Resume>)
    requires !header.CandidateHit? && forall o :: o in more ==> !o.CandidateHit?
    requires forall o :: o in cards ==> o.CandidateHit? && o.resume in hits
    ensures forall o :: o in [header] + cards + more && o.CandidateHit? ==> o.resume in hits
  {
    forall o | o in [header] + cards + more && o.CandidateHit?
      ensures o.resume in hits
    {
      assert o in [header] || o in cards || o in more;
    }
  }

  /** The first `shown` matches as ranked cards. */
  function CandidateCards(st: Store, hits: seq<Resume>, shown: nat): (cards: seq<Out>)
    requires shown <= |hits|
    ensures |cards| == shown
    ensures forall i :: 0 <= i < shown ==>
      cards[i] == CandidateHit(hits[i], NameOf(st, hits[i].userId), i + 1, shown)
    ensures forall o :: o in cards ==> o.CandidateHit? && o.resume in hits
  {
    seq(shown, i requires 0 <= i < shown => CandidateHit(hits[i], NameOf(st, hits[i].userId), i + 1, shown))
  }

  /**
   * The search reply for candidates: matching resumes in table order, the
   * first six with the account name (or a placeholder) and rank, and a
   * notice with the total when there are more.
   */
  function SearchCandidates(st: Store, term: string): (out: seq<Out>)
    ensures out == CandidateReply(st, MatchingResumes(st, term), term)
    ensures forall o :: o in out && o.CandidateHit? ==>
      o.resume in st.resumes && ResumeMatches(o.resume, term)
  {
    CandidateReply(st, MatchingResumes(st, term), term)
  }

  /** Every matching resume is shown when there are at most six of them. */
  lemma FewCandidateHitsAllShown(st: Store, term: string, x: Resume)
    requires x in st.resumes && ResumeMatches(x, term)
    requires |MatchingResumes(st, term)| <= CandidateCap
    ensures exists i :: (0 <= i < |SearchCandidates(st, term)|
                         && SearchCandidates(st, term)[i].CandidateHit? && SearchCandidates(st, term)[i].resume == x)
  {
    var hits := MatchingResumes(st, term);
    var out := SearchCandidates(st, term);
    var k :| 0 <= k < |hits| && hits[k] == x;
    assert out[1 + k].resume == x;
  }

  /** For a term without `%` or `_`, a resume matches iff one of its four fields contains the term. */
  lemma ResumeMatchIsSubstring(x: Resume, term: string)
    requires Literal(term)
    ensures ResumeMatches(x, term) <==>
      x.isActive && (ContainsFolded(x.position, term) || ContainsFolded(x.skills, term)
                     || ContainsFolded(x.experience, term) || ContainsFolded(x.education, term))
  {
    ILikeIsSubstring(x.position, term);
    ILikeIsSubstring(x.skills, term);
    ILikeIsSubstring(x.experience, term);
    ILikeIsSubstring(x.education, term);
  }
}

=== FILE: seed.dfy ===
/**
 * Seeding of the demonstration vacancies, run when the database module is
 * loaded: seven active vacancies owned by the reserved employer id, inserted
 * only into a database that has no vacancy yet.
 */
module Seed {
  import opened Wrappers
  import opened Records

  // The long description and requirement texts are kept in constants of
  // their own so that proofs about titles and owners never expand them.

  const Description1: string :=
    "Шукаємо досвідченого Python розробника для роботи над масштабними веб-проектами. Обов'язки: розробка бекенду, інтеграція API, оптимізація продуктивності. Проект: розробка CRM системи для великої компанії."
  const Requirements1: string :=
    "Досвід роботи з Python 3+ 2+ роки, знання Django/Flask, PostgreSQL, Docker, Git. Англійська - Intermediate+. Знання REST API, ООП, алгоритмів."

  const Description2: string :=
    "Розробка сучасних веб-додатків з використанням React. Участь у створенні UI/UX, робота в команді з дизайнерами та бекенд-розробниками. Робота над міжнародними проектами."
  const Requirements2: string :=
    "Досвід з React 2+ роки, знання JavaScript/TypeScript, Redux, HTML5/CSS3, SASS. Досвід роботи з REST API, Git. Розуміння принципів адаптивного дизайну."

  const Description3: string :=
    "Повний цикл розробки від ідеї до реалізації. Робота над стартап-проектами в сфері фінтеху. Швидке навчання та кар'єрне зростання. Гнучкий графік, можливість віддаленої роботи."
  const Requirements3: string :=
    "Python/Django, React/Node.js, бази даних (SQL/NoSQL), Docker, AWS/GCP. Досвід 3+ роки. Здатність працювати в команді, самостійність, креативне мислення."

  const Description4: string :=
    "Ідеальна позиція для початківців розробників. Навчання, менторство, робота над банківськими системами. Стабільна компанія, соціальний пакет, корпоративні бенефіти."
  const Requirements4: string :=
    "Базові знання Java, OOP, SQL, Spring Framework. Бажання вчитися та розвиватися. Англійська - Pre-Intermediate. Логічне мислення, увага до деталей."

  const Description5: string :=
    "Робота з хмарною інфраструктурою, автоматизація процесів, CI/CD. Відповідальність за стабільність та безпеку систем. Робота з високонавантаженими системами."
  const Requirements5: string :=
    "Docker, Kubernetes, AWS/Azure/GCP, Jenkins, Terraform, Ansible. Досвід 3+ роки. Знання Linux адміністрування, мережевих технологій, моніторингу (Prometheus, Grafana)."

  const Description6: string :=
    "Робота з клієнтською базою, пошук нових клієнтів, проведення переговорів, укладання договорів. Робота в дружній команді, корпоративні тренінги."
  const Requirements6: string :=
    "Досвід роботи в продажах 1+ рік, комунікабельність, цілеспрямованість. Бажання заробляти та розвиватися. Навички ведення переговорів."

  const Description7: string :=
    "Розробка маркетингових стратегій, ведення соціальних мереж, створення контент-планів, аналітика ефективності кампаній. Робота з різноманітними клієнтами."
  const Requirements7: string :=
    "Досвід у маркетингу 1+ рік, знання SMM, Google Analytics, Facebook Ads. Креативність, аналітичне мислення, вміння працювати в команді."

  /** The seven demonstration vacancies, in insertion order. */
  function SampleVacancies(): (ds: seq<VacancyData>)
    ensures |ds| == 7
  {
    [
      VacancyData("Python Developer", "TechSoft Ukraine", "2500$", Description1, Requirements1,
        "HR TechSoft, +380501234567, hr@techsoft.ua", Some("IT")),
      VacancyData("Frontend Developer (React)", "WebInnovations", "2000$", Description2, Requirements2,
        "Recruiter WebInnovations, +380671234567, jobs@webinnovations.com", Some("IT")),
      VacancyData("Full Stack Developer", "StartUpHub", "3000$", Description3, Requirements3,
        "CEO StartUpHub, +380631234567, founder@starthub.tech", Some("IT")),
      VacancyData("Junior Java Developer", "BankSolutions", "1200$", Description4, Requirements4,
        "HR BankSolutions, +380501112233, career@banksolutions.ua", Some("IT")),
      VacancyData("DevOps Engineer", "CloudSystems", "3500$", Description5, Requirements5,
        "CTO CloudSystems, +380501234568, tech@cloudsystems.com", Some("IT")),
      VacancyData("Менеджер з продажу", "SalesPro Ukraine", "15000 грн + бонуси", Description6, Requirements6,
        "HR SalesPro, +380501234569, hr@salespro.ua", Some("Sales")),
      VacancyData("Маркетолог", "DigitalAgency", "18000 грн", Description7, Requirements7,
        "HR DigitalAgency, +380501234570, career@digitalagency.ua", Some("Marketing"))
    ]
  }

  /** Inserts `ds` in order, each as an active vacancy owned by `employer`. */
  function InsertAll(st: Store, ds: seq<VacancyData>, employer: int): (r: Store)
    ensures |r.vacancies| == |st.vacancies| + |ds|
    ensures r.vacancies[..|st.vacancies|] == st.vacancies
    ensures forall i :: 0 <= i < |ds| ==> Inserted(r.vacancies[|st.vacancies| + i], ds[i], employer)
    ensures r.users == st.users && r.resumes == st.resumes && r.applications == st.applications
    ensures Valid(st) ==> Valid(r)
  {
    if |ds| == 0 then st
    else
      var mid := InsertAll(st, ds[..|ds| - 1], employer);
      var r := InsertVacancy(mid, ds[|ds| - 1], employer);
      assert ds == ds[..|ds| - 1] + [ds[|ds| - 1]];
      InsertAllStep(st, mid, r, ds[..|ds| - 1], ds[|ds| - 1], employer);
      r
  }

  /** Appending the row for `last` after the rows for `init` gives the rows for `init + [last]`. */
  lemma InsertAllStep(st: Store, mid: Store, r: Store, init: seq<VacancyData>, last: VacancyData, employer: int)
    requires |mid.vacancies| == |st.vacancies| + |init|
    requires mid.vacancies[..|st.vacancies|] == st.vacancies
    requires forall i :: 0 <= i < |init| ==> Inserted(mid.vacancies[|st.vacancies| + i], init[i], employer)
    requires |r.vacancies| == |mid.vacancies| + 1 && r.vacancies[..|mid.vacancies|] == mid.vacancies
    requires Inserted(r.vacancies[|mid.vacancies|], last, employer)
    ensures r.vacancies[..|st.vacancies|] == st.vacancies
    ensures forall i :: 0 <= i < |init| + 1 ==> Inserted(r.vacancies[|st.vacancies| + i], (init + [last])[i], employer)
  {
    var n := |st.vacancies|;
    assert r.vacancies[..n] == mid.vacancies[..n];
    forall i | 0 <= i < |init| + 1 ensures Inserted(r.vacancies[n + i], (init + [last])[i], employer) {
      if i < |init| {
        assert r.vacancies[n + i] == mid.vacancies[n + i];
      }
    }
  }

  /** `add_sample_vacancies`: does nothing once any vacancy exists. */
  function AddSampleVacancies(st: Store): (r: Store)
    ensures |st.vacancies| > 0 ==> r == st
    ensures |st.vacancies| == 0 ==>
      && |r.vacancies| == |SampleVacancies()|
      && (forall i :: 0 <= i < |r.vacancies| ==> Inserted(r.vacancies[i], SampleVacancies()[i], SampleEmployerId))
      && r.users == st.users && r.resumes == st.resumes && r.applications == st.applications
    ensures Valid(st) ==> Valid(r)
  {
    if |st.vacancies| > 0 then st
    else InsertAll(st, SampleVacancies(), SampleEmployerId)
  }

  /** Seeding twice is the same as seeding once. */
  lemma SeedingIsIdempotent(st: Store)
    ensures AddSampleVacancies(AddSampleVacancies(st)) == AddSampleVacancies(st)
  {
    assert |SampleVacancies()| == 7;
  }

  /** On a fresh database seeding yields the seven sample vacancies, in order, owned by the reserved employer. */
  lemma SeedingFreshDatabase()
    ensures var r := AddSampleVacancies(EmptyStore);
      && Valid(r)
      && |r.vacancies| == 7
      && forall i :: 0 <= i < 7 ==> Inserted(r.vacancies[i], SampleVacancies()[i], SampleEmployerId)
  {
    EmptyStoreValid();
  }
}

=== FILE: seqs.dfy ===
/** Sequence utilities: filtering, pairwise relations, maximum of a key. */
module Seqs {

  /** Keeps the elements that satisfy `p`, in their original order. */
  function Filter<T(!new)>(s: seq<T>, p: T -> bool): (r: seq<T>)
    ensures |r| <= |s|
    ensures forall x :: x in r <==> x in s && p(x)
  {
    if |s| == 0 then []
    else if p(s[0]) then [s[0]] + Filter(s[1..], p)
    else Filter(s[1..], p)
  }

  /** Filtering a concatenation filters each part. */
  lemma {:induction false} FilterAppend<T(!new)>(a: seq<T>, b: seq<T>, p: T -> bool)
    ensures Filter(a + b, p) == Filter(a, p) + Filter(b, p)
  {
    if |a| > 0 {
      assert (a + b)[0] == a[0];
      assert (a + b)[1..] == a[1..] + b;
      FilterAppend(a[1..], b, p);
    } else {
      assert a + b == b;
    }
  }

  /** Position of a member of `s`. */
  function IndexIn<T(==)>(s: seq<T>, x: T): (i: nat)
    requires x in s
    ensures i < |s| && s[i] == x
  {
    if s[0] == x then 0 else 1 + IndexIn(s[1..], x)
  }

  /** Number of elements of `s` that satisfy `p`. */
  function Count<T(!new)>(s: seq<T>, p: T -> bool): (n: nat)
    ensures n <= |s|
    ensures n == 0 <==> forall x :: x in s ==> !p(x)
  {
    if |s| == 0 then 0
    else (if p(s[0]) then 1 else 0) + Count(s[1..], p)
  }

  /** `Filter` keeps exactly `Count` elements. */
  lemma {:induction false} FilterLength<T(!new)>(s: seq<T>, p: T -> bool)
    ensures |Filter(s, p)| == Count(s, p)
  {
    if |s| > 0 {
      FilterLength(s[1..], p);
    }
  }

  /** Every earlier element of `s` stands in `rel` to every later one. */
  ghost predicate Pairwise<T>(s: seq<T>, rel: (T, T) -> bool) {
    forall i, j | 0 <= i < j < |s| :: rel(s[i], s[j])
  }

  /** Filtering keeps any pairwise relation (the result is a subsequence). */
  lemma {:induction false} FilterPairwise<T(!new)>(s: seq<T>, p: T -> bool, rel: (T, T) -> bool)
    requires Pairwise(s, rel)
    ensures Pairwise(Filter(s, p), rel)
  {
    if |s| > 0 {
      var tail := s[1..];
      assert Pairwise(tail, rel) by {
        forall i, j | 0 <= i < j < |tail| ensures rel(tail[i], tail[j]) {
          assert tail[i] == s[i + 1] && tail[j] == s[j + 1];
        }
      }
      FilterPairwise(tail, p, rel);
      if p(s[0]) {
        var f := Filter(tail, p);
        var r := [s[0]] + f;
        forall i, j | 0 <= i < j < |r| ensures rel(r[i], r[j]) {
          if i == 0 {
            assert r[j] in tail;
            var k :| 0 <= k < |tail| && tail[k] == r[j];
            assert s[k + 1] == r[j];
          } else {
            assert r[i] == f[i - 1] && r[j] == f[j - 1];
          }
        }
      }
    }
  }

  /** Appending an element that every existing element relates to keeps the relation. */
  lemma AppendPairwise<T(!new)>(s: seq<T>, x: T, rel: (T, T) -> bool)
    requires Pairwise(s, rel)
    requires forall y :: y in s ==> rel(y, x)
    ensures Pairwise(s + [x], rel)
  {
    var r := s + [x];
    forall i, j | 0 <= i < j < |r| ensures rel(r[i], r[j]) {
      assert r[i] == s[i];
      if j < |s| {
        assert r[j] == s[j];
      }
    }
  }

  /** Replaces every element that satisfies `p` by its image under `f`, in place. */
  function MapWhere<T>(s: seq<T>, p: T -> bool, f: T -> T): (r: seq<T>)
    ensures |r| == |s|
    ensures forall i :: 0 <= i < |s| ==> r[i] == (if p(s[i]) then f(s[i]) else s[i])
  {
    seq(|s|, i requires 0 <= i < |s| => if p(s[i]) then f(s[i]) else s[i])
  }

  /** An in-place update keeps a pairwise relation that the update itself respects. */
  lemma MapWherePairwise<T>(s: seq<T>, p: T -> bool, f: T -> T, rel: (T, T) -> bool)
    requires Pairwise(s, rel)
    requires forall i, j :: 0 <= i < j < |s| && rel(s[i], s[j]) ==>
      rel(if p(s[i]) then f(s[i]) else s[i], if p(s[j]) then f(s[j]) else s[j])
    ensures Pairwise(MapWhere(s, p, f), rel)
  {
  }

  /** Largest key in `s` (0 for the empty sequence). */
  function MaxKey<T(!new)>(s: seq<T>, key: T -> nat): (m: nat)
    ensures forall x :: x in s ==> key(x) <= m
    ensures |s| > 0 ==> exists x :: x in s && key(x) == m
  {
    if |s| == 0 then 0
    else
      var rest := MaxKey(s[1..], key);
      assert forall x :: x in s ==> x == s[0] || x in s[1..];
      if key(s[0]) >= rest then key(s[0]) else rest
  }

  /** The elements of `s` in the opposite order. */
  function Reverse<T>(s: seq<T>): (r: seq<T>)
    ensures |r| == |s|
    ensures forall i :: 0 <= i < |s| ==> r[i] == s[|s| - 1 - i]
  {
    seq(|s|, i requires 0 <= i < |s| => s[|s| - 1 - i])
  }

  lemma ReverseMembers<T>(s: seq<T>)
    ensures forall x :: x in Reverse(s) <==> x in s
  {
    var r := Reverse(s);
    forall x | x in s ensures x in r {
      var i :| 0 <= i < |s| && s[i] == x;
      assert r[|s| - 1 - i] == x;
    }
  }

  /** Reversing turns a pairwise relation around. */
  lemma ReversePairwise<T>(s: seq<T>, rel: (T, T) -> bool)
    requires Pairwise(s, rel)
    ensures forall i, j :: 0 <= i < j < |s| ==> rel(Reverse(s)[j], Reverse(s)[i])
  {
    var r := Reverse(s);
    forall i, j | 0 <= i < j < |s| ensures rel(r[j], r[i]) {
      assert r[j] == s[|s| - 1 - j] && r[i] == s[|s| - 1 - i];
    }
  }

  /** The kept elements, reversed, stand in `rel` the other way round. */
  lemma FilterReversePairwise<T(!new)>(s: seq<T>, p: T -> bool, rel: (T, T) -> bool)
    ensures Pairwise(s, rel) ==> forall i, j :: 0 <= i < j < |Filter(s, p)| ==>
      rel(Reverse(Filter(s, p))[j], Reverse(Filter(s, p))[i])
  {
    if Pairwise(s, rel) {
      FilterPairwise(s, p, rel);
      ReversePairwise(Filter(s, p), rel);
    }
  }

  /** Appending a new element keeps a sequence free of duplicates. */
  lemma AppendDistinct<T>(s: seq<T>, x: T)
    requires Pairwise(s, (a: T, b: T) => a != b)
    ensures x !in s ==> Pairwise(s + [x], (a: T, b: T) => a != b)
  {
    if x !in s {
      var r := s + [x];
      forall i, j | 0 <= i < j < |r| ensures r[i] != r[j] {
        assert r[i] == s[i];
        if j < |s| {
          assert r[j] == s[j];
        }
      }
    }
  }

  /** Every element either satisfies `p` or is kept by the complement filter. */
  lemma {:induction false} CountComplement<T(!new)>(s: seq<T>, p: T -> bool, q: T -> bool)
    requires forall x :: q(x) == !p(x)
    ensures Count(s, p) + |Filter(s, q)| == |s|
  {
    if |s| > 0 {
      CountComplement(s[1..], p, q);
    }
  }
}

=== FILE: session.dfy ===
/**
 * Per-user conversation state: the keys the handlers keep in
 * `context.user_data`, the current state of each of the four guided
 * conversations, and what a handler sends back.
 *
 * Replies are modelled by meaning, not by wording: which notice, which
 * record is shown, who is notified. Keyboards and message layout are left
 * to the transport.
 */
module Session {
  import opened Wrappers
  import opened Records
  import opened Labels
  import opened Snapshot

  // ------------------------------------------------------------ user_data

  /** The `vacancy` draft dictionary: a key is absent until its step has run. */
  datatype VacancyDraft = VacancyDraft(
    title: Option<string>,
    company: Option<string>,
    salary: Option<string>,
    description: Option<string>,
    requirements: Option<string>,
    contacts: Option<string>)

  const EmptyVacancyDraft := VacancyDraft(None, None, None, None, None, None)

  /** The `resume` draft dictionary. */
  datatype ResumeDraft = ResumeDraft(
    position: Option<string>,
    salary: Option<string>,
    experience: Option<string>,
    education: Option<string>,
    skills: Option<string>,
    about: Option<string>,
    contacts: Option<string>)

  const EmptyResumeDraft := ResumeDraft(None, None, None, None, None, None, None)

  /** The `current_resume` dictionary the single-field update starts from. */
  datatype ResumeFields = ResumeFields(
    position: string,
    salary: string,
    experience: string,
    education: string,
    skills: string,
    about: string)

  /**
   * `context.user_data`. The browsing list and its index are read with
   * `.get(key, [])` and `.get(key, 0)`, and the three flags with `.get`, so
   * an absent key and its default are the same value here.
   */
  datatype UserData = UserData(
    browse: seq<Vacancy>,
    cursor: int,
    waitingForSearch: bool,
    waitingForCandidateSearch: bool,
    pendingResumeDeletion: bool,
    regName: Option<string>,
    regPhone: Option<string>,
    regEmail: Option<string>,
    vacancyDraft: Option<VacancyDraft>,
    resumeDraft: Option<ResumeDraft>,
    currentResume: Option<ResumeFields>,
    updateField: Option<ResumeField>)

  /** An empty `user_data`, as after `/reset`. */
  const NoData := UserData([], 0, false, false, false, None, None, None, None, None, None, None)

  // ------------------------------------------------------------ conversations

  datatype VacancyStep = Title | Company | Salary | Description | Requirements | Confirm
  datatype ContactStep = AskName | AskPhone | AskEmail
  datatype ResumeStep = RPosition | RSalary | RExperience | REducation | RSkills | RAbout | RConfirm
  datatype UpdateStep = Choice | Value

  /** Each conversation handler keeps its own state for the user; `None` is "not in it". */
  datatype Convs = Convs(
    vacancy: Option<VacancyStep>,
    contact: Option<ContactStep>,
    resume: Option<ResumeStep>,
    update: Option<UpdateStep>)

  const Idle := Convs(None, None, None, None)

  // ------------------------------------------------------------ replies

  datatype Menu = Welcome | SeekerMenu | EmployerMenu | ResumeMenu(hasResume: bool)

  /** The guided flows' questions. */
  datatype Question =
    | EnterName | EnterPhone | EnterEmail
    | EnterTitle | EnterCompany | EnterVacancySalary | EnterDescription | EnterRequirements
    | EnterPosition | EnterResumeSalary | EnterExperience | EnterEducation | EnterSkills | EnterAbout
    | ConfirmVacancy(vacancyDraft: VacancyDraft)
    | ConfirmResume(resumeDraft: ResumeDraft)
    | ChooseField(current: ResumeFields)
    | EnterFieldValue(field: ResumeField)
    | EnterSearchTerm | EnterCandidateTerm
    | ConfirmResumeDeletion(applications: nat)

  /** Fixed-text notices. */
  datatype Note =
    | NoActiveVacancies | ListHeader
    | NeedResumeToApply | AlreadyApplied
    | NoOwnApplications | NoReceivedApplications | NoOwnVacancies
    | ApplicationNotFound | VacancyNotFoundOrNotOwned
    | ProfileNotFound | ContactsNotFound
    | WrongPhone | WrongEmail | ContactsSaved | RegistrationCancelled
    | ResumeNotFound | ResumeNotFoundShort | PickAField | WhatNext
    | ResumeDeletionCancelled | ResumeDeletionAborted | UpdateCancelled
    | NeedContactsForResume | NeedContactsForVacancy
    | AnswerYesOrNo | ResumeSaved | ResumeCreationCancelled
    | VacancySaved | VacancyCreationCancelled
    | RegisteredAsSeeker | WelcomeBackSeeker | RegisteredAsEmployer | WelcomeBackEmployer
    | SeekerContactsHint | EmployerContactsHint
    | HelpText | PickFromMenu | ResetDone

  /** What a notification sent to another user is about. */
  datatype Notice =
    | NewApplication(vacancyTitle: string, candidate: string, position: string)
    | ApplicationRejected(vacancy: Option<Vacancy>)

  datatype Out =
    | ShowMenu(menu: Menu)
    | Say(note: Note)
    | Ask(question: Question)
    | Card(vacancy: Vacancy, index: nat, total: nat)
    | Submitted(vacancyTitle: string)
    | Notify(recipient: int, notice: Notice)
    | StatusSet(status: Status, contacts: Option<string>)
    | ApplicationCard(application: Application, applicant: string, summary: Summary)
    | VacancyDeleted(title: string, applications: nat)
    | ResumeDeleted(applications: nat)
    | FieldUpdated(field: ResumeField)
    | HitsHeader(term: string)
    | NoHits(term: string)
    | CandidatesHeader(term: string)
    | NoCandidates(term: string)
    | VacancyHit(vacancy: Vacancy, rank: nat, shown: nat)
    | CandidateHit(resume: Resume, name: string, rank: nat, shown: nat)
    | MoreHits(total: nat)
    | OwnApplicationsHeader(count: nat)
    | OwnApplication(application: Application, target: Option<Vacancy>)
    | ReceivedApplicationsHeader(count: nat)
    | VacancyGroup(vacancy: Vacancy, count: nat)
    | OwnVacanciesHeader
    | OwnVacancy(vacancy: Vacancy, applications: nat, unseen: nat)
    | EmployerProfile(user: User, vacancies: nat, received: nat)
    | SeekerProfile(user: User, submitted: nat)
    | ContactCard(user: User)
    | ResumeCard(resume: Resume)

  /**
   * The outcome of one handler call. `raised` marks a handler that stopped on
   * a Python exception (a missing `user_data` key, an attribute of `None`, a
   * division by zero): nothing was committed to the database, but changes it
   * had already made to `user_data` stay, and the conversation it ran in
   * keeps its state.
   */
  datatype Reply = Reply(store: Store, data: UserData, out: seq<Out>, raised: bool)

  /** A conversation step: the reply and the state the handler returns (`None` for END). */
  datatype Step<S> = Step(reply: Reply, next: Option<S>)

  /** The ordinary, non-raising outcome. */
  function Done(st: Store, d: UserData, out: seq<Out>): Reply {
    Reply(st, d, out, false)
  }

  /** A handler that raised after changing `user_data` to `d`. */
  function Raised(st: Store, d: UserData): Reply {
    Reply(st, d, [], true)
  }

  /** The menu the contact flow returns to: the employer's when the account is an employer's. */
  function RoleMenu(st: Store, who: int): Menu {
    var u := FindUser(st.users, who);
    if u.Some? && u.value.isEmployer then EmployerMenu else SeekerMenu
  }

  /** `show_my_resume_menu`: the keyboard depends on whether the user has a resume. */
  function ResumeMenuOf(st: Store, who: int): Menu {
    ResumeMenu(FindResumeOf(st.resumes, who).Some?)
  }

  /** The name shown for an applicant or candidate without an account row. */
  const AnonymousName: string := "Користувач"

  /** The name of the account `tid`, or the placeholder. */
  function NameOf(st: Store, tid: int): string {
    match FindUser(st.users, tid)
    case Some(u) => u.fullName
    case None => AnonymousName
  }

  /** Python's `f"{x}"` of a nullable column: `None` prints as "None". */
  function PyStr(o: Option<string>): string {
    match o
    case Some(s) => s
    case None => "None"
  }

  /** `f"{full_name}, {phone}, {email}"`, the contact line copied into vacancies and resumes. */
  function ContactLine(u: User): string {
    u.fullName + ", " + PyStr(u.phone) + ", " + PyStr(u.email)
  }
}

=== FILE: snapshot.dfy ===
/**
 * The resume snapshot an application carries: four resume fields joined with
 * '|' when the application is submitted, and cut apart again with Python's
 * `str.split('|')` when an employer looks at it.
 */
module Snapshot {
  import opened Text

  const Separator: char := '|'

  /** What the employer's view shows for a part the snapshot does not have. */
  const Placeholder: string := "Не вказано"

  /** `f"{position}|{experience}|{education}|{skills}"`. */
  function Encode(position: string, experience: string, education: string, skills: string): string {
    position + [Separator] + experience + [Separator] + education + [Separator] + skills
  }

  /**
   * Python's `s.split(d)` for a one-character separator: the maximal
   * separator-free pieces, empty ones included, always at least one.
   */
  function Split(s: string, d: char): (parts: seq<string>)
    ensures |parts| >= 1
    ensures forall i :: 0 <= i < |parts| ==> d !in parts[i]
    decreases |s|
  {
    var k := IndexOf(s, d);
    if k == |s| then [s]
    else [s[..k]] + Split(s[k + 1..], d)
  }

  /** `d.join(parts)`. */
  function Join(parts: seq<string>, d: char): string
    requires |parts| >= 1
  {
    if |parts| == 1 then parts[0]
    else parts[0] + [d] + Join(parts[1..], d)
  }

  /** Splitting peels off the separator-free prefix before the first separator. */
  lemma SplitAfterPrefix(a: string, d: char, b: string)
    requires d !in a
    ensures Split(a + [d] + b, d) == [a] + Split(b, d)
  {
    var s := a + [d] + b;
    IndexOfAfterPrefix(a, d, b);
    assert s[..|a|] == a;
    assert s[|a| + 1..] == b;
  }

  /** Joining the pieces of a split gives back the text. */
  lemma {:induction false} JoinSplit(s: string, d: char)
    ensures Join(Split(s, d), d) == s
    decreases |s|
  {
    var k := IndexOf(s, d);
    if k < |s| {
      JoinSplit(s[k + 1..], d);
      assert s == s[..k] + [d] + s[k + 1..];
    }
  }

  /** Splitting a join of separator-free pieces gives back the pieces. */
  lemma {:induction false} SplitJoin(parts: seq<string>, d: char)
    requires |parts| >= 1
    requires forall i :: 0 <= i < |parts| ==> d !in parts[i]
    ensures Split(Join(parts, d), d) == parts
  {
    if |parts| == 1 {
      assert IndexOf(parts[0], d) == |parts[0]|;
    } else {
      SplitJoin(parts[1..], d);
      SplitAfterPrefix(parts[0], d, Join(parts[1..], d));
      assert parts == [parts[0]] + parts[1..];
    }
  }

  /** The four fields as the employer's view reads them back. */
  datatype Summary = Summary(position: string, experience: string, education: string, skills: string)

  function PartOr(parts: seq<string>, i: nat): string {
    if i < |parts| then parts[i] else Placeholder
  }

  /** `resume_data.split('|')` and the positional reads with their fallbacks. */
  function Parse(data: string): (r: Summary)
    ensures Separator !in r.position && Separator !in r.experience
    ensures Separator !in r.education && Separator !in r.skills
  {
    var parts := Split(data, Separator);
    Summary(PartOr(parts, 0), PartOr(parts, 1), PartOr(parts, 2), PartOr(parts, 3))
  }

  /** The snapshot of four fields splits into those four pieces when none holds a '|'. */
  lemma EncodeSplits(position: string, experience: string, education: string, skills: string)
    requires Separator !in position && Separator !in experience
    requires Separator !in education && Separator !in skills
    ensures Split(Encode(position, experience, education, skills), Separator)
      == [position, experience, education, skills]
  {
    var d := Separator;
    var rest1 := experience + [d] + (education + [d] + skills);
    var s := Encode(position, experience, education, skills);
    EncodeShape(position, experience, education, skills);
    assert s == position + [d] + rest1;
    SplitAfterPrefix(position, d, rest1);
    assert Split(s, d) == [position] + Split(rest1, d);
    SplitThree(experience, education, skills);
    assert [position] + [experience, education, skills] == [position, experience, education, skills];
  }

  /** A text without the separator is one piece. */
  lemma SplitOne(s: string, d: char)
    requires d !in s
    ensures Split(s, d) == [s]
  {
    assert IndexOf(s, d) == |s|;
  }

  /** Two separator-free pieces around one separator. */
  lemma SplitTwo(a: string, b: string)
    requires Separator !in a && Separator !in b
    ensures Split(a + [Separator] + b, Separator) == [a, b]
  {
    SplitAfterPrefix(a, Separator, b);
    SplitOne(b, Separator);
  }

  /** Three separator-free pieces, grouped from the right. */
  lemma SplitThree(a: string, b: string, c: string)
    requires Separator !in a && Separator !in b && Separator !in c
    ensures Split(a + [Separator] + (b + [Separator] + c), Separator) == [a, b, c]
  {
    SplitAfterPrefix(a, Separator, b + [Separator] + c);
    SplitTwo(b, c);
  }

  /** The snapshot regrouped from the right, one field and separator at a time. */
  lemma EncodeShape(position: string, experience: string, education: string, skills: string)
    ensures Encode(position, experience, education, skills)
      == position + [Separator] + (experience + [Separator] + (education + [Separator] + skills))
  {
    var d := Separator;
    calc {
      Encode(position, experience, education, skills);
      position + [d] + experience + [d] + education + [d] + skills;
      { assert position + [d] + experience + [d] + education + [d] + skills
          == (position + [d] + experience + [d]) + (education + [d] + skills); }
      (position + [d] + experience + [d]) + (education + [d] + skills);
      { assert (position + [d] + experience + [d]) + (education + [d] + skills)
          == position + [d] + (experience + [d] + (education + [d] + skills)); }
      position + [d] + (experience + [d] + (education + [d] + skills));
    }
  }

  /** Round trip: parsing a snapshot recovers the four fields exactly when none contains '|'. */
  lemma RoundTrip(position: string, experience: string, education: string, skills: string)
    ensures Parse(Encode(position, experience, education, skills))
      == Summary(position, experience, education, skills)
      <==> (Separator !in position && Separator !in experience
            && Separator !in education && Separator !in skills)
  {
    if Separator !in position && Separator !in experience
       && Separator !in education && Separator !in skills {
      EncodeSplits(position, experience, education, skills);
    }
  }

  /** Every snapshot has at least four pieces, so the placeholder never shows for one. */
  lemma {:induction false} EncodedHasFourParts(position: string, experience: string, education: string, skills: string)
    ensures |Split(Encode(position, experience, education, skills), Separator)| >= 4
  {
    var s := Encode(position, experience, education, skills);
    PiecesCount(s, Separator);
    assert s == position + ([Separator] + experience + [Separator] + education + [Separator] + skills);
    OccurrenceCountAppend(position, [Separator] + experience + [Separator] + education + [Separator] + skills, Separator);
    var t := [Separator] + experience + [Separator] + education + [Separator] + skills;
    assert t == [Separator] + (experience + ([Separator] + education + [Separator] + skills));
    OccurrenceCountAppend([Separator], experience + ([Separator] + education + [Separator] + skills), Separator);
    OccurrenceCountAppend(experience, [Separator] + education + [Separator] + skills, Separator);
    var u := [Separator] + education + [Separator] + skills;
    assert u == [Separator] + (education + ([Separator] + skills));
    OccurrenceCountAppend([Separator], education + ([Separator] + skills), Separator);
    OccurrenceCountAppend(education, [Separator] + skills, Separator);
    OccurrenceCountAppend([Separator], skills, Separator);
  }

  function OccurrenceCount(s: string, d: char): nat {
    if |s| == 0 then 0 else (if s[0] == d then 1 else 0) + OccurrenceCount(s[1..], d)
  }

  lemma {:induction false} OccurrenceCountAppend(a: string, b: string, d: char)
    ensures OccurrenceCount(a + b, d) == OccurrenceCount(a, d) + OccurrenceCount(b, d)
  {
    if |a| > 0 {
      assert (a + b)[1..] == a[1..] + b;
      OccurrenceCountAppend(a[1..], b, d);
    } else {
      assert a + b == b;
    }
  }

  /** Python's split yields one more piece than there are separators. */
  lemma {:induction false} PiecesCount(s: string, d: char)
    ensures |Split(s, d)| == OccurrenceCount(s, d) + 1
    decreases |s|
  {
    var k := IndexOf(s, d);
    NoOccurrenceBefore(s, d, k);
    if k < |s| {
      var a, b := s[..k], s[k + 1..];
      PiecesCount(b, d);
      assert Split(s, d) == [a] + Split(b, d);
      assert s == a + ([d] + b);
      OccurrenceCountAppend(a, [d] + b, d);
      OccurrenceCountAppend([d], b, d);
      assert OccurrenceCount([d], d) == 1;
    } else {
      assert s[..k] == s;
      assert Split(s, d) == [s];
    }
  }

  lemma {:induction false} NoOccurrenceBefore(s: string, d: char, k: nat)
    requires k <= |s|
    requires forall i :: 0 <= i < k ==> s[i] != d
    ensures OccurrenceCount(s[..k], d) == 0
  {
    if k > 0 {
      assert s[..k][1..] == s[1..][..k - 1];
      NoOccurrenceBefore(s[1..], d, k - 1);
    }
  }

  /** A '|' inside the position splits it in two and pushes every later field one place on. */
  lemma SeparatorInPositionShifts(x: string, y: string, experience: string, education: string, skills: string)
    requires Separator !in x && Separator !in y && Separator !in experience
    requires Separator !in education && Separator !in skills
    ensures Parse(Encode(x + [Separator] + y, experience, education, skills))
      == Summary(x, y, experience, education)
  {
    var d := Separator;
    var rest := Encode(y, experience, education, skills);
    assert Encode(x + [d] + y, experience, education, skills) == x + [d] + rest;
    SplitAfterPrefix(x, d, rest);
    EncodeSplits(y, experience, education, skills);
  }

  /** A concrete instance: the skill "C|C++" typed as the position loses the skills field. */
  lemma SeparatorInFieldShifts(x: string, y: string)
    requires x == "C" && y == "C++"
    ensures Parse(Encode(x + [Separator] + y, "3", "KPI", "Python")) != Summary(x + [Separator] + y, "3", "KPI", "Python")
  {
    SeparatorInPositionShifts(x, y, "3", "KPI", "Python");
  }
}

=== FILE: tables.dfy ===
/**
 * The database writes the handlers perform, one function per kind of write,
 * each stating what it changes, what it leaves alone, and that it keeps the
 * store invariant `Valid`.
 */
module Tables {
  import opened Wrappers
  import opened Seqs
  import opened Records
  import opened Labels

  // ------------------------------------------------------------ users

  /** Adds an account row for `a` unless one exists, stamped with the clock. */
  function EnsureUser(st: Store, a: Actor, isEmployer: bool): (r: Store)
    ensures FindUser(st.users, a.id).Some? ==> r == st
    ensures FindUser(st.users, a.id).None? ==>
      r == st.(users := st.users + [NewUser(a, isEmployer, st.clock)], clock := st.clock + 1)
    ensures FindUser(r.users, a.id).Some?
    ensures Valid(st) ==> Valid(r)
  {
    if FindUser(st.users, a.id).Some? then st
    else
      var u := NewUser(a, isEmployer, st.clock);
      var r := st.(users := st.users + [u], clock := st.clock + 1);
      assert u in r.users;
      AppendUserKeepsValid(st, u);
      r
  }

  lemma AppendUserKeepsValid(st: Store, u: User)
    requires forall x :: x in st.users ==> x.telegramId != u.telegramId
    ensures Valid(st) ==> Valid(st.(users := st.users + [u], clock := st.clock + 1))
  {
    if Valid(st) {
      AppendPairwise(st.users, u, UserOrder);
    }
  }

  /** Sets the role flag of the account `tid` (a no-op when there is none). */
  function SetRole(st: Store, tid: int, isEmployer: bool): (r: Store)
    ensures |r.users| == |st.users|
    ensures forall i :: 0 <= i < |st.users| ==>
      r.users[i] == (if st.users[i].telegramId == tid then st.users[i].(isEmployer := isEmployer) else st.users[i])
    ensures r == st.(users := r.users)
    ensures Valid(st) ==> Valid(r)
  {
    var upd := (u: User) => u.(isEmployer := isEmployer);
    var r := st.(users := MapWhere(st.users, (u: User) => u.telegramId == tid, upd));
    UpdateUsersKeepsValid(st, tid, upd);
    r
  }

  /** Overwrites name, phone and e-mail of the account `tid` (a no-op when there is none). */
  function SetContacts(st: Store, tid: int, name: string, phone: string, email: string): (r: Store)
    ensures |r.users| == |st.users|
    ensures forall i :: 0 <= i < |st.users| ==>
      r.users[i] == (if st.users[i].telegramId == tid
                     then st.users[i].(fullName := name, phone := Some(phone), email := Some(email))
                     else st.users[i])
    ensures r == st.(users := r.users)
    ensures Valid(st) ==> Valid(r)
  {
    var upd := (u: User) => u.(fullName := name, phone := Some(phone), email := Some(email));
    var r := st.(users := MapWhere(st.users, (u: User) => u.telegramId == tid, upd));
    UpdateUsersKeepsValid(st, tid, upd);
    r
  }

  /** Changing account rows without touching their Telegram ids keeps the invariant. */
  lemma UpdateUsersKeepsValid(st: Store, tid: int, upd: User -> User)
    requires forall u :: upd(u).telegramId == u.telegramId
    ensures Valid(st) ==> Valid(st.(users := MapWhere(st.users, (u: User) => u.telegramId == tid, upd)))
  {
    if Valid(st) {
      MapWherePairwise(st.users, (u: User) => u.telegramId == tid, upd, UserOrder);
    }
  }

  // ------------------------------------------------------------ resumes

  /** The column values a resume is written with. */
  datatype ResumeData = ResumeData(
    position: string,
    salary: string,
    experience: string,
    education: string,
    skills: string,
    about: string,
    contacts: string)

  /** `x` holds the values `d` and is active. */
  predicate Holds(x: Resume, d: ResumeData) {
    && x.position == d.position && x.salary == d.salary && x.experience == d.experience
    && x.education == d.education && x.skills == d.skills && x.about == d.about
    && x.contacts == d.contacts && x.isActive
  }

  function Overwrite(x: Resume, d: ResumeData): Resume {
    x.(position := d.position, salary := d.salary, experience := d.experience,
       education := d.education, skills := d.skills, about := d.about,
       contacts := d.contacts, isActive := true)
  }

  /**
   * The confirmed resume draft: overwrites the user's existing resume in
   * place (keeping its id and creation stamp), or inserts a new one.
   */
  function UpsertResume(st: Store, uid: int, d: ResumeData): (r: Store)
    ensures var found := FindResumeOf(r.resumes, uid); found.Some? && Holds(found.value, d)
    ensures FindResumeOf(st.resumes, uid).Some? ==> |r.resumes| == |st.resumes|
    ensures FindResumeOf(st.resumes, uid).None? ==> |r.resumes| == |st.resumes| + 1
    ensures Valid(st) ==> forall x :: x in st.resumes && x.userId != uid ==> x in r.resumes
    ensures Valid(st) ==> forall x :: x in r.resumes && x.userId != uid ==> x in st.resumes
    ensures r.users == st.users && r.vacancies == st.vacancies && r.applications == st.applications
    ensures Valid(st) ==> Valid(r)
  {
    match FindResumeOf(st.resumes, uid)
    case Some(x) =>
      var g := (y: Resume) => Overwrite(y, d);
      RewriteResumeFacts(st, x, g, uid);
      st.(resumes := MapWhere(st.resumes, (y: Resume) => y.id == x.id, g))
    case None =>
      var x := Resume(NextResumeId(st.resumes), uid, d.position, d.salary, d.experience, d.education,
                      d.skills, d.about, d.contacts, true, st.clock);
      var r := st.(resumes := st.resumes + [x], clock := st.clock + 1);
      InsertResumeFacts(st, x, d);
      r
  }

  /** Rewriting the row of `x`, the user's resume, in place with `g`. */
  lemma RewriteResumeFacts(st: Store, x: Resume, g: Resume -> Resume, uid: int)
    requires FindResumeOf(st.resumes, uid) == Some(x)
    requires forall y :: g(y).userId == y.userId && g(y).id == y.id
    ensures var rs := MapWhere(st.resumes, (y: Resume) => y.id == x.id, g);
      && FindResumeOf(rs, uid) == Some(g(x))
      && (Valid(st) ==> (forall y :: y in st.resumes && y.userId != uid ==> y in rs))
      && (Valid(st) ==> (forall y :: y in rs && y.userId != uid ==> y in st.resumes))
      && (Valid(st) ==> Valid(st.(resumes := rs)))
  {
    var p := (y: Resume) => y.id == x.id;
    FirstResumeUpdated(st.resumes, p, g, uid, x);
    if Valid(st) {
      OverwriteKeepsOthers(st.resumes, x, p, g, uid);
      UpdateResumesKeepsValid(st, p, g);
    }
  }

  /** Rewriting resume rows without touching their ids or owners keeps the invariant. */
  lemma UpdateResumesKeepsValid(st: Store, p: Resume -> bool, f: Resume -> Resume)
    requires forall y :: f(y).userId == y.userId && f(y).id == y.id
    ensures Valid(st) ==> Valid(st.(resumes := MapWhere(st.resumes, p, f)))
  {
    if Valid(st) {
      var m := MapWhere(st.resumes, p, f);
      MapWherePairwise(st.resumes, p, f, ResumeOrder);
      forall a | a in st.applications ensures HasResume(m, a.userId) {
        var y :| y in st.resumes && y.userId == a.userId;
        var i :| 0 <= i < |st.resumes| && st.resumes[i] == y;
        assert m[i] in m && m[i].userId == a.userId;
      }
    }
  }

  /** With unique ids, rewriting the row with x's id touches no other user's resume. */
  lemma OverwriteKeepsOthers(rs: seq<Resume>, x: Resume, p: Resume -> bool, f: Resume -> Resume, uid: int)
    requires Pairwise(rs, ResumeOrder)
    requires x in rs && x.userId == uid
    requires forall y :: p(y) == (y.id == x.id)
    requires forall y :: f(y).userId == y.userId
    ensures forall y :: y in rs && y.userId != uid ==> y in MapWhere(rs, p, f)
    ensures forall y :: y in MapWhere(rs, p, f) && y.userId != uid ==> y in rs
  {
    var m := MapWhere(rs, p, f);
    forall y | y in rs && y.userId != uid ensures y in m {
      var i :| 0 <= i < |rs| && rs[i] == y;
      var k :| 0 <= k < |rs| && rs[k] == x;
      assert i != k;
      assert !p(y) by {
        if i < k { assert ResumeOrder(rs[i], rs[k]); } else { assert ResumeOrder(rs[k], rs[i]); }
      }
      assert m[i] == y;
    }
    forall y | y in m && y.userId != uid ensures y in rs {
      var i :| 0 <= i < |m| && m[i] == y;
      assert m[i] == (if p(rs[i]) then f(rs[i]) else rs[i]);
    }
  }

  lemma FirstResumeUpdated(rs: seq<Resume>, p: Resume -> bool, f: Resume -> Resume, uid: int, x: Resume)
    requires FindResumeOf(rs, uid) == Some(x)
    requires p(x) && forall y :: f(y).userId == y.userId && f(y).id == y.id
    ensures FindResumeOf(MapWhere(rs, p, f), uid) == Some(f(x))
  {
    if |rs| > 0 && rs[0].userId != uid {
      FirstResumeUpdated(rs[1..], p, f, uid, x);
      assert MapWhere(rs, p, f)[1..] == MapWhere(rs[1..], p, f);
    }
  }

  lemma InsertResumeFacts(st: Store, x: Resume, d: ResumeData)
    requires FindResumeOf(st.resumes, x.userId).None?
    requires forall y :: y in st.resumes ==> y.id < x.id
    requires Holds(x, d) && x.created == st.clock
    ensures var rs := st.resumes + [x];
      && FindResumeOf(rs, x.userId) == Some(x)
      && (Valid(st) ==> Valid(st.(resumes := rs, clock := st.clock + 1)))
  {
    FindResumeAfter(st.resumes, x);
    if Valid(st) {
      AppendPairwise(st.resumes, x, ResumeOrder);
      var r := st.(resumes := st.resumes + [x], clock := st.clock + 1);
      forall a | a in r.applications ensures HasResume(r.resumes, a.userId) {
        var y :| y in st.resumes && y.userId == a.userId;
        assert y in r.resumes;
      }
    }
  }

  lemma FindResumeAfter(rs: seq<Resume>, x: Resume)
    requires FindResumeOf(rs, x.userId).None?
    ensures FindResumeOf(rs + [x], x.userId) == Some(x)
  {
    if |rs| > 0 {
      assert (rs + [x])[1..] == rs[1..] + [x];
      FindResumeAfter(rs[1..], x);
    }
  }

  // ------------------------------------------------------------ single resume field

  /** The value of one updatable field. */
  function FieldValue(x: Resume, f: ResumeField): string {
    match f
    case Position => x.position
    case Salary => x.salary
    case Experience => x.experience
    case Education => x.education
    case Skills => x.skills
    case About => x.about
  }

  /** The `if field == "position": resume.position = new_value ...` chain. */
  function Assign(x: Resume, f: ResumeField, v: string): (y: Resume)
    ensures FieldValue(y, f) == v
    ensures forall g :: g != f ==> FieldValue(y, g) == FieldValue(x, g)
    ensures y.id == x.id && y.userId == x.userId && y.contacts == x.contacts
    ensures y.isActive == x.isActive && y.created == x.created
  {
    match f
    case Position => x.(position := v)
    case Salary => x.(salary := v)
    case Experience => x.(experience := v)
    case Education => x.(education := v)
    case Skills => x.(skills := v)
    case About => x.(about := v)
  }

  /** Sets one field of the user's resume; nothing happens when the user has none. */
  function SetResumeField(st: Store, uid: int, f: ResumeField, v: string): (r: Store)
    ensures FindResumeOf(st.resumes, uid).None? ==> r == st
    ensures FindResumeOf(st.resumes, uid).Some? ==>
      FindResumeOf(r.resumes, uid) == Some(Assign(FindResumeOf(st.resumes, uid).value, f, v))
    ensures |r.resumes| == |st.resumes|
    ensures Valid(st) ==> forall x :: x in st.resumes && x.userId != uid ==> x in r.resumes
    ensures r.users == st.users && r.vacancies == st.vacancies && r.applications == st.applications
    ensures r.clock == st.clock
    ensures Valid(st) ==> Valid(r)
  {
    match FindResumeOf(st.resumes, uid)
    case None => st
    case Some(x) =>
      var g := (y: Resume) => Assign(y, f, v);
      RewriteResumeFacts(st, x, g, uid);
      st.(resumes := MapWhere(st.resumes, (y: Resume) => y.id == x.id, g))
  }

  // ------------------------------------------------------------ applications

  /** Appends `a`, stamped with the clock; the caller has checked the preconditions `Valid` needs. */
  function AddApplication(st: Store, a: Application): (r: Store)
    ensures r.applications == st.applications + [a] && r.clock == st.clock + 1
    ensures r.users == st.users && r.vacancies == st.vacancies && r.resumes == st.resumes
    ensures Valid(st) && a.id == NextApplicationId(st.applications) && a.created == st.clock
      && !HasApplication(st.applications, a.userId, a.vacancyId)
      && VacancyOwnedBy(st.vacancies, a.vacancyId, a.employerId)
      && HasResume(st.resumes, a.userId)
      ==> Valid(r)
  {
    var r := st.(applications := st.applications + [a], clock := st.clock + 1);
    AppendApplicationKeepsValid(st, a);
    r
  }

  lemma AppendApplicationKeepsValid(st: Store, a: Application)
    ensures Valid(st) && a.id == NextApplicationId(st.applications) && a.created == st.clock
      && !HasApplication(st.applications, a.userId, a.vacancyId)
      && VacancyOwnedBy(st.vacancies, a.vacancyId, a.employerId)
      && HasResume(st.resumes, a.userId)
      ==> Valid(st.(applications := st.applications + [a], clock := st.clock + 1))
  {
    if Valid(st) && a.id == NextApplicationId(st.applications) && a.created == st.clock
      && !HasApplication(st.applications, a.userId, a.vacancyId) {
      AppendPairwise(st.applications, a, ApplicationOrder);
    }
  }

  function WithStatus(a: Application, s: Status): Application { a.(status := s) }

  /** Sets the status of the application with rowid `id`; every other row is unchanged. */
  function SetStatus(st: Store, id: nat, s: Status): (r: Store)
    ensures |r.applications| == |st.applications|
    ensures forall i :: 0 <= i < |st.applications| ==>
      r.applications[i] == (if st.applications[i].id == id then st.applications[i].(status := s)
                            else st.applications[i])
    ensures r == st.(applications := r.applications)
    ensures Valid(st) ==> Valid(r)
  {
    var p := (a: Application) => a.id == id;
    var f := (a: Application) => WithStatus(a, s);
    UpdateApplicationsKeepsValid(st, p, f);
    st.(applications := MapWhere(st.applications, p, f))
  }

  /** Rewriting application rows without touching their keys, owners or stamps keeps the invariant. */
  lemma UpdateApplicationsKeepsValid(st: Store, p: Application -> bool, f: Application -> Application)
    requires forall a :: (f(a).id == a.id && f(a).userId == a.userId && f(a).vacancyId == a.vacancyId
                          && f(a).employerId == a.employerId && f(a).created == a.created)
    ensures Valid(st) ==> Valid(st.(applications := MapWhere(st.applications, p, f)))
  {
    if Valid(st) {
      var m := MapWhere(st.applications, p, f);
      MapWherePairwise(st.applications, p, f, ApplicationOrder);
      forall a | a in m
        ensures a.created < st.clock
        ensures VacancyOwnedBy(st.vacancies, a.vacancyId, a.employerId)
        ensures HasResume(st.resumes, a.userId)
      {
        var i :| 0 <= i < |m| && m[i] == a;
        assert st.applications[i] in st.applications;
      }
    }
  }

  // ------------------------------------------------------------ deletions

  /** Deletes the vacancy `vid` together with every application to it. */
  function RemoveVacancy(st: Store, vid: nat): (r: Store)
    ensures forall v :: v in r.vacancies <==> v in st.vacancies && v.id != vid
    ensures forall a :: a in r.applications <==> a in st.applications && a.vacancyId != vid
    ensures r.users == st.users && r.resumes == st.resumes && r.clock == st.clock
    ensures Valid(st) ==> Valid(r)
  {
    var r := st.(vacancies := Filter(st.vacancies, (v: Vacancy) => v.id != vid),
                 applications := Filter(st.applications, (a: Application) => a.vacancyId != vid));
    RemoveVacancyKeepsValid(st, vid);
    r
  }

  lemma RemoveVacancyKeepsValid(st: Store, vid: nat)
    ensures Valid(st) ==> Valid(st.(vacancies := Filter(st.vacancies, (v: Vacancy) => v.id != vid),
                                    applications := Filter(st.applications, (a: Application) => a.vacancyId != vid)))
  {
    if Valid(st) {
      var vs := Filter(st.vacancies, (v: Vacancy) => v.id != vid);
      var apps := Filter(st.applications, (a: Application) => a.vacancyId != vid);
      FilterPairwise(st.vacancies, (v: Vacancy) => v.id != vid, VacancyOrder);
      FilterPairwise(st.applications, (a: Application) => a.vacancyId != vid, ApplicationOrder);
      forall a | a in apps ensures VacancyOwnedBy(vs, a.vacancyId, a.employerId) {
        var v :| v in st.vacancies && v.id == a.vacancyId && v.employerId == a.employerId;
        assert v in vs;
      }
    }
  }

  /** Deletes the resume row `x` together with every application of its owner `uid`. */
  function RemoveResume(st: Store, x: Resume, uid: int): (r: Store)
    requires x in st.resumes && x.userId == uid
    ensures forall y :: y in r.resumes <==> y in st.resumes && y.id != x.id
    ensures forall a :: a in r.applications <==> a in st.applications && a.userId != uid
    ensures r.users == st.users && r.vacancies == st.vacancies && r.clock == st.clock
    ensures Valid(st) ==> FindResumeOf(r.resumes, uid).None?
    ensures Valid(st) ==> Valid(r)
  {
    var r := st.(resumes := Filter(st.resumes, (y: Resume) => y.id != x.id),
                 applications := Filter(st.applications, (a: Application) => a.userId != uid));
    RemoveResumeKeepsValid(st, x, uid);
    r
  }

  lemma RemoveResumeKeepsValid(st: Store, x: Resume, uid: int)
    requires x in st.resumes && x.userId == uid
    ensures var rs := Filter(st.resumes, (y: Resume) => y.id != x.id);
      Valid(st) ==> ((forall y :: y in rs ==> y.userId != uid) &&
                     Valid(st.(resumes := rs, applications := Filter(st.applications, (a: Application) => a.userId != uid))))
  {
    if Valid(st) {
      var rs := Filter(st.resumes, (y: Resume) => y.id != x.id);
      var apps := Filter(st.applications, (a: Application) => a.userId != uid);
      FilterPairwise(st.resumes, (y: Resume) => y.id != x.id, ResumeOrder);
      FilterPairwise(st.applications, (a: Application) => a.userId != uid, ApplicationOrder);
      forall y | y in st.resumes && y != x ensures y.id != x.id && y.userId != x.userId {
        var i :| 0 <= i < |st.resumes| && st.resumes[i] == y;
        var k :| 0 <= k < |st.resumes| && st.resumes[k] == x;
        if i < k { assert ResumeOrder(st.resumes[i], st.resumes[k]); }
        else { assert ResumeOrder(st.resumes[k], st.resumes[i]); }
      }
      forall a | a in apps ensures HasResume(rs, a.userId) {
        var y :| y in st.resumes && y.userId == a.userId;
        assert y in rs;
      }
    }
  }

  /** `/reset` with an account row: everything the user owns or submitted, and the row itself. */
  function RemoveAccount(st: Store, uid: int): (r: Store)
    ensures forall u :: u in r.users <==> u in st.users && u.telegramId != uid
    ensures forall v :: v in r.vacancies <==> v in st.vacancies && v.employerId != uid
    ensures forall y :: y in r.resumes <==> y in st.resumes && y.userId != uid
    ensures forall a :: a in r.applications <==>
      a in st.applications && a.userId != uid && a.employerId != uid
    ensures r.clock == st.clock
    ensures Valid(st) ==> Valid(r)
  {
    var r := Store(Filter(st.users, (u: User) => u.telegramId != uid),
                   Filter(st.vacancies, (v: Vacancy) => v.employerId != uid),
                   Filter(st.resumes, (y: Resume) => y.userId != uid),
                   Filter(st.applications, (a: Application) => a.userId != uid && a.employerId != uid),
                   st.clock);
    RemoveAccountKeepsValid(st, uid);
    r
  }

  lemma RemoveAccountKeepsValid(st: Store, uid: int)
    ensures Valid(st) ==> Valid(Store(Filter(st.users, (u: User) => u.telegramId != uid),
                   Filter(st.vacancies, (v: Vacancy) => v.employerId != uid),
                   Filter(st.resumes, (y: Resume) => y.userId != uid),
                   Filter(st.applications, (a: Application) => a.userId != uid && a.employerId != uid),
                   st.clock))
  {
    if Valid(st) {
      var vs := Filter(st.vacancies, (v: Vacancy) => v.employerId != uid);
      var rs := Filter(st.resumes, (y: Resume) => y.userId != uid);
      var apps := Filter(st.applications, (a: Application) => a.userId != uid && a.employerId != uid);
      FilterPairwise(st.users, (u: User) => u.telegramId != uid, UserOrder);
      FilterPairwise(st.vacancies, (v: Vacancy) => v.employerId != uid, VacancyOrder);
      FilterPairwise(st.resumes, (y: Resume) => y.userId != uid, ResumeOrder);
      FilterPairwise(st.applications, (a: Application) => a.userId != uid && a.employerId != uid, ApplicationOrder);
      forall a | a in apps
        ensures VacancyOwnedBy(vs, a.vacancyId, a.employerId) && HasResume(rs, a.userId)
      {
        var v :| v in st.vacancies && v.id == a.vacancyId && v.employerId == a.employerId;
        assert v in vs;
        var y :| y in st.resumes && y.userId == a.userId;
        assert y in rs;
      }
    }
  }
}

=== FILE: text.dfy ===
/**
 * Character-level text operations that the bot relies on: the two notions of
 * lower-casing it meets (Python's `str.lower` and SQLite's `lower()`), space
 * removal, the first-occurrence search, and SQL `LIKE` pattern matching.
 */
module Text {
  import opened Seqs

  predicate IsAsciiDigit(c: char) { '0' <= c <= '9' }

  predicate IsAsciiLetter(c: char) { 'a' <= c <= 'z' || 'A' <= c <= 'Z' }

  predicate AllDigits(s: string) { forall i :: 0 <= i < |s| ==> IsAsciiDigit(s[i]) }

  predicate AllLetters(s: string) { forall i :: 0 <= i < |s| ==> IsAsciiLetter(s[i]) }

  /** SQLite's built-in `lower()`: folds the ASCII letters only. */
  function AsciiFold(c: char): char {
    if 'A' <= c <= 'Z' then (c as int + 32) as char else c
  }

  function AsciiLower(s: string): (r: string)
    ensures |r| == |s|
  {
    seq(|s|, i requires 0 <= i < |s| => AsciiFold(s[i]))
  }

  /**
   * Python's `str.lower` on the characters whose lower-case form can occur in
   * the confirmation words: ASCII, the Cyrillic block U+0400..U+042F and the
   * KELVIN SIGN, which Python lowers to 'k'. Every other character is kept.
   */
  function PyFold(c: char): char {
    if 'A' <= c <= 'Z' then (c as int + 32) as char
    else if 'А' <= c <= 'Я' then (c as int + 32) as char
    else if 'Ѐ' <= c <= 'Џ' then (c as int + 80) as char
    else if c == 'K' then 'k'
    else c
  }

  function PyLower(s: string): (r: string)
    ensures |r| == |s|
  {
    seq(|s|, i requires 0 <= i < |s| => PyFold(s[i]))
  }

  /** Lower-casing twice is lower-casing once. */
  lemma PyLowerIdempotent(s: string)
    ensures PyLower(PyLower(s)) == PyLower(s)
  {
    forall i | 0 <= i < |s|
      ensures PyFold(PyFold(s[i])) == PyFold(s[i])
    {
      var c := s[i];
      if 'A' <= c <= 'Z' {
        assert 'a' <= PyFold(c) <= 'z';
      } else if 'А' <= c <= 'Я' {
        assert 'а' <= PyFold(c) <= 'я';
      } else if 'Ѐ' <= c <= 'Џ' {
        assert 'ѐ' <= PyFold(c) <= 'џ';
      }
    }
  }

  predicate NotSpace(c: char) { c != ' ' }

  /** Python's `s.replace(' ', '')`. */
  function RemoveSpaces(s: string): (r: string)
    ensures ' ' !in r
    ensures forall c :: c != ' ' ==> (c in r <==> c in s)
  {
    Filter(s, NotSpace)
  }

  /** Removing spaces works piece by piece, so the order of the kept characters is the text's own. */
  lemma RemoveSpacesSplits(a: string, b: string)
    ensures RemoveSpaces(a + b) == RemoveSpaces(a) + RemoveSpaces(b)
  {
    FilterAppend(a, b, NotSpace);
  }

  /** A single character is dropped when it is a space and kept otherwise. */
  lemma RemoveSpacesChar(c: char)
    ensures RemoveSpaces([c]) == if c == ' ' then [] else [c]
  {
  }

  /** Index of the first `c` in `s`, or `|s|` when there is none. */
  function IndexOf(s: string, c: char): (k: nat)
    ensures k <= |s|
    ensures k < |s| ==> s[k] == c
    ensures forall i :: 0 <= i < k ==> s[i] != c
  {
    if |s| == 0 then 0
    else if s[0] == c then 0
    else 1 + IndexOf(s[1..], c)
  }

  /** The first occurrence is at the end of a separator-free prefix. */
  lemma IndexOfAfterPrefix(a: string, c: char, b: string)
    requires c !in a
    ensures IndexOf(a + [c] + b, c) == |a|
  {
    var s := a + [c] + b;
    var k := IndexOf(s, c);
    assert s[|a|] == c;
  }

  /**
   * SQLite `LIKE` (no ESCAPE clause): `%` matches any run of characters, `_`
   * any single character, and every other character matches itself with ASCII
   * letters compared case-insensitively.
   */
  function LikeMatch(pat: string, s: string): bool
    decreases |pat| + |s|
  {
    if |pat| == 0 then |s| == 0
    else if pat[0] == '%' then LikeMatch(pat[1..], s) || (|s| > 0 && LikeMatch(pat, s[1..]))
    else |s| > 0 && (pat[0] == '_' || AsciiFold(pat[0]) == AsciiFold(s[0])) && LikeMatch(pat[1..], s[1..])
  }

  /**
   * SQLAlchemy's `field.ilike('%' + term + '%')` as SQLite runs it:
   * `lower(field) LIKE lower('%' + term + '%')`. The term is not escaped.
   */
  predicate ILikeContains(field: string, term: string) {
    LikeMatch(AsciiLower("%" + term + "%"), AsciiLower(field))
  }

  /** No `LIKE` wildcard occurs in `s`. */
  predicate Literal(s: string) { '%' !in s && '_' !in s }

  /** `t` occurs in `s` at offset `k`, ASCII letters compared case-insensitively. */
  predicate FoldedAt(s: string, t: string, k: nat) {
    k + |t| <= |s| && forall i :: 0 <= i < |t| ==> AsciiFold(t[i]) == AsciiFold(s[k + i])
  }

  /** Reference meaning of a case-insensitive substring search. */
  ghost predicate ContainsFolded(s: string, t: string) {
    exists k: nat :: FoldedAt(s, t, k)
  }

  lemma {:induction false} PercentMatchesAll(s: string)
    ensures LikeMatch("%", s)
  {
    if |s| > 0 {
      PercentMatchesAll(s[1..]);
    }
  }

  /** A literal pattern followed by `%` matches exactly the strings it prefixes. */
  lemma {:induction false} LiteralPrefixMatch(q: string, s: string)
    requires Literal(q)
    ensures LikeMatch(q + "%", s) <==> FoldedAt(s, q, 0)
    decreases |q|
  {
    if |q| == 0 {
      assert q + "%" == "%";
      PercentMatchesAll(s);
    } else {
      var p := q + "%";
      assert p[0] == q[0] && p[1..] == q[1..] + "%";
      assert Literal(q[1..]) by {
        assert forall c :: c in q[1..] ==> c in q;
      }
      if |s| > 0 {
        LiteralPrefixMatch(q[1..], s[1..]);
        if FoldedAt(s, q, 0) {
          assert FoldedAt(s[1..], q[1..], 0) by {
            forall i | 0 <= i < |q[1..]| ensures AsciiFold(q[1..][i]) == AsciiFold(s[1..][i]) {
              assert q[1..][i] == q[i + 1] && s[1..][i] == s[i + 1];
            }
          }
        }
        if LikeMatch(p, s) {
          assert FoldedAt(s, q, 0) by {
            forall i | 0 <= i < |q| ensures AsciiFold(q[i]) == AsciiFold(s[i]) {
              if i > 0 {
                assert q[1..][i - 1] == q[i] && s[1..][i - 1] == s[i];
              }
            }
          }
        }
      }
    }
  }

  /** A leading `%` lets the rest of the pattern match at any suffix. */
  lemma {:induction false} LeadingPercent(r: string, s: string)
    ensures LikeMatch("%" + r, s) <==> exists k :: 0 <= k <= |s| && LikeMatch(r, s[k..])
    decreases |s|
  {
    var p := "%" + r;
    assert p[1..] == r;
    if |s| == 0 {
      assert s[0..] == s;
    } else {
      LeadingPercent(r, s[1..]);
      assert s[0..] == s;
      if exists k :: 0 <= k <= |s| && LikeMatch(r, s[k..]) {
        var k :| 0 <= k <= |s| && LikeMatch(r, s[k..]);
        if k > 0 {
          assert s[1..][k - 1..] == s[k..];
        }
      }
      if exists k :: 0 <= k <= |s[1..]| && LikeMatch(r, s[1..][k..]) {
        var k :| 0 <= k <= |s[1..]| && LikeMatch(r, s[1..][k..]);
        assert s[1..][k..] == s[k + 1..];
      }
    }
  }

  /** Matching the literal `%q%` is a case-insensitive substring test. */
  lemma LiteralInfixMatch(q: string, s: string)
    requires Literal(q)
    ensures LikeMatch("%" + q + "%", s) <==> ContainsFolded(s, q)
  {
    assert "%" + q + "%" == "%" + (q + "%");
    LeadingPercent(q + "%", s);
    if LikeMatch("%" + q + "%", s) {
      var k :| 0 <= k <= |s| && LikeMatch(q + "%", s[k..]);
      LiteralPrefixMatch(q, s[k..]);
      assert FoldedAt(s, q, k) by {
        forall i | 0 <= i < |q| ensures AsciiFold(q[i]) == AsciiFold(s[k + i]) {
          assert s[k..][i] == s[k + i];
        }
      }
    }
    if ContainsFolded(s, q) {
      var k: nat :| FoldedAt(s, q, k);
      LiteralPrefixMatch(q, s[k..]);
      assert FoldedAt(s[k..], q, 0) by {
        forall i | 0 <= i < |q| ensures AsciiFold(q[i]) == AsciiFold(s[k..][i]) {
          assert s[k..][i] == s[k + i];
        }
      }
    }
  }

  lemma AsciiFoldIdempotent(c: char)
    ensures AsciiFold(AsciiFold(c)) == AsciiFold(c)
  {
  }

  /**
   * For a search term without `%` or `_`, the `ilike` filter is exactly a
   * case-insensitive (ASCII letters only) substring test.
   */
  lemma ILikeIsSubstring(field: string, term: string)
    requires Literal(term)
    ensures ILikeContains(field, term) <==> ContainsFolded(field, term)
  {
    var lt := AsciiLower(term);
    var lf := AsciiLower(field);
    assert AsciiLower("%" + term + "%") == "%" + lt + "%" by {
      var a := AsciiLower("%" + term + "%");
      var b := "%" + lt + "%";
      assert |a| == |b|;
      forall i | 0 <= i < |a| ensures a[i] == b[i] {
        if 0 < i <= |term| {
          assert ("%" + term + "%")[i] == term[i - 1];
        }
      }
    }
    assert Literal(lt) by {
      forall i | 0 <= i < |lt| ensures lt[i] != '%' && lt[i] != '_' {
        assert term[i] in term;
      }
    }
    LiteralInfixMatch(lt, lf);
    if ContainsFolded(lf, lt) {
      var k: nat :| FoldedAt(lf, lt, k);
      assert FoldedAt(field, term, k) by {
        forall i | 0 <= i < |term| ensures AsciiFold(term[i]) == AsciiFold(field[k + i]) {
          assert lt[i] == AsciiFold(term[i]) && lf[k + i] == AsciiFold(field[k + i]);
          AsciiFoldIdempotent(term[i]);
          AsciiFoldIdempotent(field[k + i]);
        }
      }
    }
    if ContainsFolded(field, term) {
      var k: nat :| FoldedAt(field, term, k);
      assert FoldedAt(lf, lt, k) by {
        forall i | 0 <= i < |lt| ensures AsciiFold(lt[i]) == AsciiFold(lf[k + i]) {
          AsciiFoldIdempotent(term[i]);
          AsciiFoldIdempotent(field[k + i]);
        }
      }
    }
  }

  /** An unescaped `_` in the term is a wildcard: "C_D" finds "cad". */
  lemma UnderscoreIsWildcard()
    ensures ILikeContains("CAD", "C_D")
    ensures !ContainsFolded("CAD", "C_D")
  {
    assert "%" + "C_D" + "%" == "%C_D%";
    assert AsciiLower("%C_D%") == "%c_d%";
    assert AsciiLower("CAD") == "cad";
    assert "%c_d%"[1..] == "c_d%" && "c_d%"[1..] == "_d%" && "_d%"[1..] == "d%" && "d%"[1..] == "%";
    assert "cad"[1..] == "ad" && "ad"[1..] == "d" && "d"[1..] == "";
    assert LikeMatch("%", "") by { assert "%"[1..] == ""; }
    assert LikeMatch("d%", "d");
    assert LikeMatch("_d%", "ad");
    assert LikeMatch("c_d%", "cad");
    assert LikeMatch("%c_d%", "cad");
  }
}

=== FILE: update_flow.dfy ===
/**
 * The "🔄 Оновити резюме" conversation: pick one of six fields from the
 * keyboard, type its new value, and only that column of the user's resume
 * changes.
 */
module UpdateFlow {
  import opened Wrappers
  import opened Records
  import opened Labels
  import opened Session
  import opened Tables

  /** The `current_resume` snapshot taken when the conversation starts. */
  function FieldsOf(x: Resume): (c: ResumeFields)
    ensures c.position == FieldValue(x, Position) && c.salary == FieldValue(x, ResumeField.Salary)
    ensures c.experience == FieldValue(x, Experience) && c.education == FieldValue(x, Education)
    ensures c.skills == FieldValue(x, Skills) && c.about == FieldValue(x, About)
  {
    ResumeFields(x.position, x.salary, x.experience, x.education, x.skills, x.about)
  }

  /** The two update keys removed. */
  function ClearUpdate(d: UserData): (c: UserData)
    ensures c.currentResume.None? && c.updateField.None?
    ensures c == d.(currentResume := c.currentResume, updateField := c.updateField)
  {
    d.(currentResume := None, updateField := None)
  }

  /** The entry point: without a resume there is nothing to update and the conversation does not start. */
  function StartUpdate(st: Store, d: UserData, who: int): (s: Step<UpdateStep>)
    ensures s.reply.store == st && !s.reply.raised
    ensures FindResumeOf(st.resumes, who).None? ==>
      s.reply.data == d && s.reply.out == [Say(ResumeNotFound)] && s.next.None?
    ensures FindResumeOf(st.resumes, who).Some? ==>
      && var c := FieldsOf(FindResumeOf(st.resumes, who).value);
      && s.reply.data == d.(currentResume := Some(c))
      && s.reply.out == [Ask(ChooseField(c))] && s.next == Some(Choice)
  {
    match FindResumeOf(st.resumes, who)
    case None => Step(Done(st, d, [Say(ResumeNotFound)]), None)
    case Some(x) =>
      var c := FieldsOf(x);
      Step(Done(st, d.(currentResume := Some(c)), [Ask(ChooseField(c))]), Some(Choice))
  }

  /** "❌ Скасувати оновлення": forgets the choice, writes nothing, and shows the resume menu. */
  function CancelUpdate(st: Store, d: UserData, who: int): (s: Step<UpdateStep>)
    ensures s.reply == Done(st, ClearUpdate(d), [Say(UpdateCancelled), ShowMenu(ResumeMenuOf(st, who))])
    ensures s.next.None?
  {
    Step(Done(st, ClearUpdate(d), [Say(UpdateCancelled), ShowMenu(ResumeMenuOf(st, who))]), None)
  }

  /**
   * The field choice: a text that is not one of the six buttons is refused;
   * a button selects its field and asks for the value. The choice is kept
   * before the snapshot is read, so without a snapshot (after `/reset`) the
   * step raises with the choice recorded.
   */
  function UpdateChoice(st: Store, d: UserData, who: int, text: string): (s: Step<UpdateStep>)
    ensures s.reply.store == st
    ensures text == LabelText(Labels.CancelUpdate) ==> s == CancelUpdate(st, d, who)
    ensures text != LabelText(Labels.CancelUpdate) && (forall f :: text != FieldLabel(f)) ==>
      s.reply == Done(st, d, [Say(PickAField)]) && s.next == Some(Choice)
    ensures forall f :: text == FieldLabel(f) ==>
      && s.reply.data == d.(updateField := Some(f))
      && (s.reply.raised <==> d.currentResume.None?)
      && (s.reply.raised ==> s.next == Some(Choice))
      && (!s.reply.raised ==> s.reply.out == [Ask(EnterFieldValue(f))] && s.next == Some(Value))
  {
    FieldLabelsApart();
    if text == LabelText(Labels.CancelUpdate) then CancelUpdate(st, d, who)
    else match FieldOf(text)
      case None => Step(Done(st, d, [Say(PickAField)]), Some(Choice))
      case Some(f) =>
        var d1 := d.(updateField := Some(f));
        if d.currentResume.None? then Step(Raised(st, d1), Some(Choice))
        else Step(Done(st, d1, [Ask(EnterFieldValue(f))]), Some(Value))
  }

  /**
   * The new value: written into the chosen column of the user's resume when
   * there is one (with a confirmation), then the update keys are dropped and
   * the conversation ends. Without a recorded choice the step raises.
   */
  function UpdateValue(st: Store, d: UserData, who: int, text: string): (s: Step<UpdateStep>)
    ensures text == LabelText(Labels.CancelUpdate) ==> s == CancelUpdate(st, d, who)
    ensures text != LabelText(Labels.CancelUpdate) ==> (s.reply.raised <==> d.updateField.None?)
    ensures s.reply.raised ==> s.reply == Raised(st, d) && s.next == Some(Value)
    ensures text != LabelText(Labels.CancelUpdate) && !s.reply.raised ==>
      && var f := d.updateField.value;
      && s.reply.store == SetResumeField(st, who, f, text)
      && s.reply.data == ClearUpdate(d)
      && s.next.None?
      && (FindResumeOf(st.resumes, who).Some? ==> s.reply.out == [FieldUpdated(f), Say(WhatNext)])
      && (FindResumeOf(st.resumes, who).None? ==> s.reply.out == [Say(WhatNext)] && s.reply.store == st)
    ensures Valid(st) ==> Valid(s.reply.store)
  {
    if text == LabelText(Labels.CancelUpdate) then CancelUpdate(st, d, who)
    else match d.updateField
      case None => Step(Raised(st, d), Some(Value))
      case Some(f) =>
        var found := FindResumeOf(st.resumes, who).Some?;
        var st' := SetResumeField(st, who, f, text);
        var out := (if found then [FieldUpdated(f)] else []) + [Say(WhatNext)];
        Step(Done(st', ClearUpdate(d), out), None)
  }

  /** The conversation's state handlers. */
  function UpdateConv(st: Store, d: UserData, who: int, step: UpdateStep, text: string): (s: Step<UpdateStep>)
    ensures step == Choice ==> s == UpdateChoice(st, d, who, text)
    ensures step == Value ==> s == UpdateValue(st, d, who, text)
    ensures Valid(st) ==> Valid(s.reply.store)
    ensures s.reply.store != st ==> step == Value
  {
    match step
    case Choice => UpdateChoice(st, d, who, text)
    case Value => UpdateValue(st, d, who, text)
  }

  /**
   * The whole conversation on a user with a resume: choosing the button of
   * field `f` and typing `v` leaves the resume with `v` in that field and
   * every other column as it was.
   */
  lemma UpdateChangesOneField(st: Store, d: UserData, who: int, f: ResumeField, v: string)
    requires FindResumeOf(st.resumes, who).Some?
    requires v != LabelText(Labels.CancelUpdate)
    ensures var s0 := StartUpdate(st, d, who);
      var s1 := UpdateChoice(st, s0.reply.data, who, FieldLabel(f));
      var s2 := UpdateValue(st, s1.reply.data, who, v);
      var x0 := FindResumeOf(st.resumes, who).value;
      && s0.next == Some(Choice) && s1.next == Some(Value) && s2.next.None? && !s2.reply.raised
      && var x := FindResumeOf(s2.reply.store.resumes, who);
      && x.Some? && FieldValue(x.value, f) == v
      && (forall g :: g != f ==> FieldValue(x.value, g) == FieldValue(x0, g))
      && x.value.id == x0.id && x.value.contacts == x0.contacts && x.value.created == x0.created
      && s2.reply.data == ClearUpdate(d)
  {
    FieldOfLabel(f);
    var s0 := StartUpdate(st, d, who);
    var s1 := UpdateChoice(st, s0.reply.data, who, FieldLabel(f));
    assert s1.reply.data == d.(currentResume := s0.reply.data.currentResume, updateField := Some(f));
  }

  /** Choosing a field and cancelling leaves the database as it was. */
  lemma ChoosingThenCancellingWritesNothing(st: Store, d: UserData, who: int, f: ResumeField, cancel: string)
    requires cancel == LabelText(Labels.CancelUpdate)
    ensures var s1 := UpdateChoice(st, d, who, FieldLabel(f));
      UpdateValue(st, s1.reply.data, who, cancel).reply.store == st
  {
  }
}

=== FILE: vacancy_flow.dfy ===
/**
 * The "📝 Додати вакансію" conversation: five answers collected into the
 * `vacancy` draft, the account's contact line added, a summary, and a
 * yes/no confirmation that publishes the vacancy.
 */
module VacancyFlow {
  import opened Wrappers
  import opened Records
  import opened Labels
  import opened Session
  import Browsing

  function QuestionAfter(step: VacancyStep): Question {
    match step
    case Title => EnterCompany
    case Company => EnterVacancySalary
    case Salary => EnterDescription
    case Description => EnterRequirements
    case _ => EnterTitle
  }

  function StepAfter(step: VacancyStep): VacancyStep {
    match step
    case Title => Company
    case Company => VacancyStep.Salary
    case Salary => Description
    case Description => Requirements
    case _ => Confirm
  }

  /** The draft with the answer of `step` stored under its key. */
  function WithAnswer(v: VacancyDraft, step: VacancyStep, text: string): VacancyDraft {
    match step
    case Title => v.(title := Some(text))
    case Company => v.(company := Some(text))
    case Salary => v.(salary := Some(text))
    case Description => v.(description := Some(text))
    case Requirements => v.(requirements := Some(text))
    case Confirm => v
  }

  /** Every key the confirmation reads is present. */
  predicate Complete(v: VacancyDraft) {
    && v.title.Some? && v.company.Some? && v.salary.Some? && v.description.Some?
    && v.requirements.Some? && v.contacts.Some?
  }

  /** The new row's column values; a vacancy created in the chat has no category. */
  function DraftData(v: VacancyDraft): (x: VacancyData)
    requires Complete(v)
    ensures Some(x.title) == v.title && Some(x.company) == v.company && Some(x.salary) == v.salary
    ensures Some(x.description) == v.description && Some(x.requirements) == v.requirements
    ensures Some(x.contacts) == v.contacts && x.category.None?
  {
    VacancyData(v.title.value, v.company.value, v.salary.value, v.description.value,
                v.requirements.value, v.contacts.value, None)
  }

  /**
   * The entry point. Without an account or a phone, the contact prompt is
   * sent but this conversation ends and the contact conversation is not
   * entered; otherwise an empty draft is opened.
   */
  function StartVacancy(st: Store, d: UserData, who: int): (s: Step<VacancyStep>)
    ensures s.reply.store == st && !s.reply.raised
    ensures !HasPhone(FindUser(st.users, who)) ==>
      s.reply.data == d && s.reply.out == [Say(NeedContactsForVacancy), Ask(EnterName)] && s.next.None?
    ensures HasPhone(FindUser(st.users, who)) ==>
      && s.reply.data == d.(vacancyDraft := Some(EmptyVacancyDraft))
      && s.reply.out == [Ask(EnterTitle)] && s.next == Some(Title)
  {
    if !HasPhone(FindUser(st.users, who)) then
      Step(Done(st, d, [Say(NeedContactsForVacancy), Ask(EnterName)]), None)
    else Step(Done(st, d.(vacancyDraft := Some(EmptyVacancyDraft)), [Ask(EnterTitle)]), Some(Title))
  }

  /** "❌ Скасувати створення вакансії": drops the draft and writes nothing. */
  function CancelVacancy(st: Store, d: UserData): (s: Step<VacancyStep>)
    ensures s.reply == Done(st, d.(vacancyDraft := None), [Say(VacancyCreationCancelled), ShowMenu(EmployerMenu)])
    ensures s.next.None?
  {
    Step(Done(st, d.(vacancyDraft := None), [Say(VacancyCreationCancelled), ShowMenu(EmployerMenu)]), None)
  }

  /** One of the four plain steps (title to description); raises without a draft. */
  function VacancyAnswer(st: Store, d: UserData, step: VacancyStep, text: string): (s: Step<VacancyStep>)
    requires step in {Title, Company, VacancyStep.Salary, Description}
    ensures s.reply.store == st
    ensures text == LabelText(Labels.CancelVacancy) ==> s == CancelVacancy(st, d)
    ensures text != LabelText(Labels.CancelVacancy) && d.vacancyDraft.None? ==>
      s.reply == Raised(st, d) && s.next == Some(step)
    ensures text != LabelText(Labels.CancelVacancy) && d.vacancyDraft.Some? ==>
      && !s.reply.raised
      && s.reply.data == d.(vacancyDraft := Some(WithAnswer(d.vacancyDraft.value, step, text)))
      && s.reply.out == [Ask(QuestionAfter(step))] && s.next == Some(StepAfter(step))
  {
    if text == LabelText(Labels.CancelVacancy) then CancelVacancy(st, d)
    else match d.vacancyDraft
      case None => Step(Raised(st, d), Some(step))
      case Some(v) =>
        Step(Done(st, d.(vacancyDraft := Some(WithAnswer(v, step, text))), [Ask(QuestionAfter(step))]),
             Some(StepAfter(step)))
  }

  /**
   * The requirements step: stores the answer, adds the account's contact
   * line, and shows the summary; raises without a draft, without an account
   * row, or when an earlier answer is missing.
   */
  function VacancyRequirements(st: Store, d: UserData, who: int, text: string): (s: Step<VacancyStep>)
    ensures s.reply.store == st
    ensures text == LabelText(Labels.CancelVacancy) ==> s == CancelVacancy(st, d)
    ensures text != LabelText(Labels.CancelVacancy) ==>
      (s.reply.raised <==> d.vacancyDraft.None? || FindUser(st.users, who).None?
                            || !Complete(WithAnswer(d.vacancyDraft.value, Requirements, text)
                                           .(contacts := Some(ContactLine(FindUser(st.users, who).value)))))
    ensures text != LabelText(Labels.CancelVacancy) && s.reply.raised ==> s.next == Some(Requirements)
    ensures text != LabelText(Labels.CancelVacancy) && !s.reply.raised ==>
      && s.reply.data.vacancyDraft.Some?
      && var v := s.reply.data.vacancyDraft.value;
      && s.reply.data == d.(vacancyDraft := Some(v))
      && Complete(v) && v.requirements == Some(text)
      && v.contacts == Some(ContactLine(FindUser(st.users, who).value))
      && v == d.vacancyDraft.value.(requirements := v.requirements, contacts := v.contacts)
      && s.reply.out == [Ask(ConfirmVacancy(v))] && s.next == Some(Confirm)
  {
    if text == LabelText(Labels.CancelVacancy) then CancelVacancy(st, d)
    else match d.vacancyDraft
      case None => Step(Raised(st, d), Some(Requirements))
      case Some(v) =>
        var v1 := WithAnswer(v, Requirements, text);
        var d1 := d.(vacancyDraft := Some(v1));
        match FindUser(st.users, who)
        case None => Step(Raised(st, d1), Some(Requirements))
        case Some(u) =>
          var v2 := v1.(contacts := Some(ContactLine(u)));
          var d2 := d.(vacancyDraft := Some(v2));
          if !Complete(v2) then Step(Raised(st, d2), Some(Requirements))
          else Step(Done(st, d2, [Ask(ConfirmVacancy(v2))]), Some(Confirm))
  }

  /**
   * The confirmation: an affirmative answer publishes the draft as an
   * active vacancy owned by the sender (raising if the draft is gone or
   * incomplete), a negative one drops it, anything else asks again.
   */
  function VacancyConfirm(st: Store, d: UserData, who: int, text: string): (s: Step<VacancyStep>)
    ensures text == LabelText(Labels.CancelVacancy) ==> s == CancelVacancy(st, d)
    ensures text != LabelText(Labels.CancelVacancy) && Classify(text) == Decline ==> s == CancelVacancy(st, d)
    ensures text != LabelText(Labels.CancelVacancy) && Classify(text) == Unclear ==>
      s.reply == Done(st, d, [Say(AnswerYesOrNo)]) && s.next == Some(Confirm)
    ensures text != LabelText(Labels.CancelVacancy) && Classify(text) == Affirm ==>
      (s.reply.raised <==> d.vacancyDraft.None? || !Complete(d.vacancyDraft.value))
    ensures s.reply.raised ==> s.reply == Raised(st, d) && s.next == Some(Confirm)
    ensures text != LabelText(Labels.CancelVacancy) && Classify(text) == Affirm && !s.reply.raised ==>
      && var r := s.reply.store;
      && |r.vacancies| == |st.vacancies| + 1 && r.vacancies[..|st.vacancies|] == st.vacancies
      && Inserted(r.vacancies[|st.vacancies|], DraftData(d.vacancyDraft.value), who)
      && r.users == st.users && r.resumes == st.resumes && r.applications == st.applications
      && s.reply.data == d.(vacancyDraft := None)
      && s.reply.out == [Say(VacancySaved), ShowMenu(EmployerMenu)]
      && s.next.None?
    ensures Valid(st) ==> Valid(s.reply.store)
  {
    if text == LabelText(Labels.CancelVacancy) then CancelVacancy(st, d)
    else match Classify(text)
      case Affirm =>
        if d.vacancyDraft.None? || !Complete(d.vacancyDraft.value) then Step(Raised(st, d), Some(Confirm))
        else
          var st' := InsertVacancy(st, DraftData(d.vacancyDraft.value), who);
          Step(Done(st', d.(vacancyDraft := None), [Say(VacancySaved), ShowMenu(EmployerMenu)]), None)
      case Decline => CancelVacancy(st, d)
      case Unclear => Step(Done(st, d, [Say(AnswerYesOrNo)]), Some(Confirm))
  }

  /** The conversation's state handlers. */
  function VacancyConv(st: Store, d: UserData, who: int, step: VacancyStep, text: string): (s: Step<VacancyStep>)
    ensures step == Requirements ==> s == VacancyRequirements(st, d, who, text)
    ensures step == Confirm ==> s == VacancyConfirm(st, d, who, text)
    ensures step !in {Requirements, Confirm} ==> s == VacancyAnswer(st, d, step, text)
    ensures Valid(st) ==> Valid(s.reply.store)
    ensures s.reply.store != st ==> step == Confirm && Classify(text) == Affirm
  {
    match step
    case Requirements => VacancyRequirements(st, d, who, text)
    case Confirm => VacancyConfirm(st, d, who, text)
    case _ => VacancyAnswer(st, d, step, text)
  }

  /**
   * A vacancy just published is the first card of the job seekers' listing:
   * it is active and carries the newest stamp.
   */
  lemma PublishedVacancyListedFirst(st: Store, d: UserData, who: int, text: string)
    requires Valid(st)
    requires text != LabelText(Labels.CancelVacancy) && Classify(text) == Affirm
    requires d.vacancyDraft.Some? && Complete(d.vacancyDraft.value)
    ensures var r := VacancyConfirm(st, d, who, text).reply.store;
      var l := Browsing.Listing(r);
      |l| > 0 && l[0] == r.vacancies[|st.vacancies|]
  {
    var r := VacancyConfirm(st, d, who, text).reply.store;
    assert Valid(r) && |r.vacancies| == |st.vacancies| + 1;
    assert r.vacancies[|r.vacancies| - 1].isActive;
    Browsing.NewestListedFirst(r);
  }

  /** The five answers and "Так" publish a vacancy holding exactly those answers and the account's contacts. */
  lemma VacancyCreated(st: Store, d: UserData, who: int, a: seq<string>, yes: string)
    requires Valid(st) && HasPhone(FindUser(st.users, who))
    requires |a| == 5 && forall i :: 0 <= i < 5 ==> a[i] != LabelText(Labels.CancelVacancy)
    requires yes == "Так"
    ensures var s0 := StartVacancy(st, d, who);
      var s1 := VacancyAnswer(st, s0.reply.data, Title, a[0]);
      var s2 := VacancyAnswer(st, s1.reply.data, Company, a[1]);
      var s3 := VacancyAnswer(st, s2.reply.data, VacancyStep.Salary, a[2]);
      var s4 := VacancyAnswer(st, s3.reply.data, Description, a[3]);
      var s5 := VacancyRequirements(st, s4.reply.data, who, a[4]);
      var s6 := VacancyConfirm(st, s5.reply.data, who, yes);
      && !s6.reply.raised && s6.next.None?
      && s6.reply.data == d.(vacancyDraft := None)
      && |s6.reply.store.vacancies| == |st.vacancies| + 1
      && Inserted(s6.reply.store.vacancies[|st.vacancies|],
                  VacancyData(a[0], a[1], a[2], a[3], a[4], ContactLine(FindUser(st.users, who).value), None), who)
      && Valid(s6.reply.store)
  {
    var s0 := StartVacancy(st, d, who);
    var s1 := VacancyAnswer(st, s0.reply.data, Title, a[0]);
    var s2 := VacancyAnswer(st, s1.reply.data, Company, a[1]);
    var s3 := VacancyAnswer(st, s2.reply.data, VacancyStep.Salary, a[2]);
    var s4 := VacancyAnswer(st, s3.reply.data, Description, a[3]);
    var u := FindUser(st.users, who).value;
    var draft := EmptyVacancyDraft.(title := Some(a[0]), company := Some(a[1]), salary := Some(a[2]),
                                    description := Some(a[3]));
    assert s4.reply.data == d.(vacancyDraft := Some(draft));
    var v := draft.(requirements := Some(a[4]), contacts := Some(ContactLine(u)));
    RequirementsComplete(st, s4.reply.data, who, draft, a[4]);
    var s5 := VacancyRequirements(st, s4.reply.data, who, a[4]);
    ConfirmPublishes(st, s5.reply.data, who, v, yes);
    assert DraftData(v) == VacancyData(a[0], a[1], a[2], a[3], a[4], ContactLine(u), None);
  }

  /** The requirements answer completes a draft holding the four earlier answers. */
  lemma RequirementsComplete(st: Store, d: UserData, who: int, draft: VacancyDraft, text: string)
    requires FindUser(st.users, who).Some? && text != LabelText(Labels.CancelVacancy)
    requires draft.title.Some? && draft.company.Some? && draft.salary.Some? && draft.description.Some?
    requires d.vacancyDraft == Some(draft)
    ensures var s := VacancyRequirements(st, d, who, text);
      var v := draft.(requirements := Some(text), contacts := Some(ContactLine(FindUser(st.users, who).value)));
      && !s.reply.raised && s.reply.store == st && s.reply.data == d.(vacancyDraft := Some(v))
  {
    var v := draft.(requirements := Some(text), contacts := Some(ContactLine(FindUser(st.users, who).value)));
    assert Complete(v);
  }

  /** "Так" on a complete draft publishes it and drops the draft. */
  lemma ConfirmPublishes(st: Store, d: UserData, who: int, v: VacancyDraft, yes: string)
    requires Valid(st) && Complete(v) && d.vacancyDraft == Some(v) && yes == "Так"
    ensures var s := VacancyConfirm(st, d, who, yes);
      && !s.reply.raised && s.next.None? && s.reply.data == d.(vacancyDraft := None)
      && |s.reply.store.vacancies| == |st.vacancies| + 1
      && Inserted(s.reply.store.vacancies[|st.vacancies|], DraftData(v), who)
      && Valid(s.reply.store)
  {
    KeyboardAnswers(yes, "Ні");
    assert yes != LabelText(Labels.CancelVacancy);
  }
}

=== FILE: validation.dfy ===
/**
 * The two contact validators of the registration flow. Each is given twice:
 * as the shape of the source's regular expression (`...Pattern`, a ghost
 * predicate with existential split points) and as a deterministic
 * character-level check (`IsValid...`), and a lemma proves they agree.
 *
 * Python's `re.match` with a pattern ending in `$` also accepts the input
 * followed by exactly one final newline; both patterns model that.
 */
module Validation {
  import opened Text

  /** Removes one trailing newline, the only thing `$` lets through before the end. */
  function DropFinalNewline(s: string): (r: string)
    ensures |s| > 0 && s[|s| - 1] == '\n' ==> r + "\n" == s
    ensures !(|s| > 0 && s[|s| - 1] == '\n') ==> r == s
  {
    if |s| > 0 && s[|s| - 1] == '\n' then s[..|s| - 1] else s
  }

  // ---------------------------------------------------------------- phone

  /** `0\d{9}`: a leading zero and nine more digits. */
  predicate IsNationalNumber(s: string) {
    |s| == 10 && s[0] == '0' && AllDigits(s)
  }

  predicate IsPhonePrefix(p: string) { p == "" || p == "38" || p == "+38" }

  /** `(\+?38)?0\d{9}` matched against the whole of `s`. */
  ghost predicate PhoneBody(s: string) {
    exists k :: 0 <= k <= |s| && IsPhonePrefix(s[..k]) && IsNationalNumber(s[k..])
  }

  /** `re.match(r'^(\+?38)?0\d{9}$', s)` succeeds. */
  ghost predicate PhonePattern(s: string) {
    PhoneBody(s) || (|s| > 0 && s[|s| - 1] == '\n' && PhoneBody(s[..|s| - 1]))
  }

  /** The check the registration flow applies to the phone text. */
  predicate IsValidPhone(text: string) {
    var b := DropFinalNewline(RemoveSpaces(text));
    if |b| == 13 then b[..3] == "+38" && IsNationalNumber(b[3..])
    else if |b| == 12 then b[..2] == "38" && IsNationalNumber(b[2..])
    else IsNationalNumber(b)
  }

  lemma PhoneBodyEndsInDigit(s: string)
    requires PhoneBody(s)
    ensures |s| > 0 && IsAsciiDigit(s[|s| - 1])
  {
    var k :| 0 <= k <= |s| && IsPhonePrefix(s[..k]) && IsNationalNumber(s[k..]);
    assert s[k..][|s| - k - 1] == s[|s| - 1];
  }

  /** The body pattern decided by length: 10, 12 or 13 characters. */
  lemma PhoneBodyByLength(b: string)
    ensures PhoneBody(b) <==>
      (if |b| == 13 then b[..3] == "+38" && IsNationalNumber(b[3..])
       else if |b| == 12 then b[..2] == "38" && IsNationalNumber(b[2..])
       else IsNationalNumber(b))
  {
    if PhoneBody(b) {
      var k :| 0 <= k <= |b| && IsPhonePrefix(b[..k]) && IsNationalNumber(b[k..]);
      assert |b[..k]| == k;
      if k == 0 {
        assert b[k..] == b;
      }
    } else {
      if |b| == 13 && b[..3] == "+38" && IsNationalNumber(b[3..]) {
        assert IsPhonePrefix(b[..3]);
      } else if |b| == 12 && b[..2] == "38" && IsNationalNumber(b[2..]) {
        assert IsPhonePrefix(b[..2]);
      } else if |b| != 13 && |b| != 12 && IsNationalNumber(b) {
        assert b[..0] == "" && b[0..] == b;
        assert IsPhonePrefix(b[..0]);
      }
    }
  }

  /**
   * The phone check accepts exactly the texts that, spaces removed, match
   * `^(\+?38)?0\d{9}$`.
   */
  lemma PhoneCheckIsPattern(text: string)
    ensures IsValidPhone(text) <==> PhonePattern(RemoveSpaces(text))
  {
    var s := RemoveSpaces(text);
    var b := DropFinalNewline(s);
    PhoneBodyByLength(b);
    if |s| > 0 && s[|s| - 1] == '\n' {
      if PhoneBody(s) {
        PhoneBodyEndsInDigit(s);
      }
      assert b == s[..|s| - 1];
    }
  }

  lemma {:induction false} NoSpacesKept(s: string)
    requires ' ' !in s
    ensures RemoveSpaces(s) == s
  {
    if |s| > 0 {
      assert s[1..] == s[1..];
      assert ' ' !in s[1..] by { assert forall c :: c in s[1..] ==> c in s; }
      NoSpacesKept(s[1..]);
      assert s == [s[0]] + s[1..];
    }
  }

  lemma PhoneAcceptedLocal(s: string)
    requires s == "0501234567"
    ensures IsValidPhone(s)
  {
    NoSpacesKept(s);
    assert IsNationalNumber(s);
  }

  lemma PhoneAcceptedInternational(s: string)
    requires s == "+380501234567"
    ensures IsValidPhone(s)
  {
    NoSpacesKept(s);
    assert s[..3] == "+38" && s[3..] == "0501234567";
    assert IsNationalNumber(s[3..]);
  }

  lemma PhoneRejected()
    ensures !IsValidPhone("123456")
  {
    NoSpacesKept("123456");
  }

  // ---------------------------------------------------------------- email

  /** `[a-zA-Z0-9._%+-]` */
  predicate IsLocalChar(c: char) {
    IsAsciiLetter(c) || IsAsciiDigit(c) || c == '.' || c == '_' || c == '%' || c == '+' || c == '-'
  }

  /** `[a-zA-Z0-9.-]` */
  predicate IsDomainChar(c: char) {
    IsAsciiLetter(c) || IsAsciiDigit(c) || c == '.' || c == '-'
  }

  predicate AllLocal(s: string) { forall i :: 0 <= i < |s| ==> IsLocalChar(s[i]) }

  predicate AllDomain(s: string) { forall i :: 0 <= i < |s| ==> IsDomainChar(s[i]) }

  /** `s` splits as local `@` domain `.` tld at positions `at` and `dot`. */
  predicate EmailSplitAt(s: string, at: int, dot: int) {
    && 1 <= at && at + 1 < dot && dot + 3 <= |s|
    && AllLocal(s[..at]) && s[at] == '@'
    && AllDomain(s[at + 1..dot]) && s[dot] == '.'
    && AllLetters(s[dot + 1..])
  }

  /** `[a-zA-Z0-9._%+-]+@[a-zA-Z0-9.-]+\.[a-zA-Z]{2,}` matched against the whole of `s`. */
  ghost predicate EmailBody(s: string) {
    exists at, dot :: EmailSplitAt(s, at, dot)
  }

  /** `re.match(r'^[a-zA-Z0-9._%+-]+@[a-zA-Z0-9.-]+\.[a-zA-Z]{2,}$', s)` succeeds. */
  ghost predicate EmailPattern(s: string) {
    EmailBody(s) || (|s| > 0 && s[|s| - 1] == '\n' && EmailBody(s[..|s| - 1]))
  }

  /** Length of the longest all-letter suffix of `s`. */
  function TrailingLetters(s: string): (n: nat)
    ensures n <= |s|
    ensures AllLetters(s[|s| - n..])
    ensures n < |s| ==> !IsAsciiLetter(s[|s| - n - 1])
  {
    if |s| == 0 || !IsAsciiLetter(s[|s| - 1]) then 0
    else
      var n := 1 + TrailingLetters(s[..|s| - 1]);
      assert s[|s| - n..] == s[..|s| - 1][|s| - n..] + [s[|s| - 1]];
      n
  }

  /** A non-letter followed only by letters fixes the letter suffix. */
  lemma TrailingLettersAt(s: string, k: int)
    requires 0 <= k < |s| && !IsAsciiLetter(s[k]) && AllLetters(s[k + 1..])
    ensures TrailingLetters(s) == |s| - k - 1
  {
  }

  /** What must follow the first `@`: a non-empty domain, a dot, two or more letters. */
  predicate ValidAfterAt(b: string, at: nat)
    requires at < |b|
  {
    var rest := b[at + 1..];
    var n := TrailingLetters(rest);
    && n >= 2 && n + 2 <= |rest| && rest[|rest| - n - 1] == '.'
    && AllDomain(rest[..|rest| - n - 1])
  }

  /** The deterministic scan: split at the first `@`, then at the dot before the letter suffix. */
  predicate IsValidEmailBody(b: string) {
    var at := IndexOf(b, '@');
    at < |b| && at >= 1 && AllLocal(b[..at]) && ValidAfterAt(b, at)
  }

  /** The check the registration flow applies to the e-mail text. */
  predicate IsValidEmail(text: string) {
    IsValidEmailBody(DropFinalNewline(text))
  }

  lemma ScanGivesSplit(b: string)
    requires IsValidEmailBody(b)
    ensures EmailBody(b)
  {
    var at := IndexOf(b, '@');
    var rest := b[at + 1..];
    var n := TrailingLetters(rest);
    var dot := |rest| - n - 1;
    var d := at + 1 + dot;
    assert b[at + 1..d] == rest[..dot];
    assert b[d + 1..] == rest[|rest| - n..];
    assert EmailSplitAt(b, at, d);
  }

  /** The `@` of any split is the first one, since local parts contain no `@`. */
  lemma SplitAtIsFirstAt(b: string, at: int, dot: int)
    requires EmailSplitAt(b, at, dot)
    ensures IndexOf(b, '@') == at
  {
  }

  lemma SplitGivesScan(b: string, at: int, dot: int)
    requires EmailSplitAt(b, at, dot)
    ensures IsValidEmailBody(b)
  {
    SplitAtIsFirstAt(b, at, dot);
    var rest := b[at + 1..];
    var k := dot - at - 1;
    assert rest[k] == '.';
    assert rest[k + 1..] == b[dot + 1..];
    TrailingLettersAt(rest, k);
    assert rest[..k] == b[at + 1..dot];
  }

  lemma EmailBodyByScan(b: string)
    ensures IsValidEmailBody(b) <==> EmailBody(b)
  {
    if IsValidEmailBody(b) {
      ScanGivesSplit(b);
    }
    if EmailBody(b) {
      var at, dot :| EmailSplitAt(b, at, dot);
      SplitGivesScan(b, at, dot);
    }
  }

  /**
   * The e-mail check accepts exactly the texts that match
   * `^[a-zA-Z0-9._%+-]+@[a-zA-Z0-9.-]+\.[a-zA-Z]{2,}$`.
   */
  lemma EmailCheckIsPattern(text: string)
    ensures IsValidEmail(text) <==> EmailPattern(text)
  {
    var b := DropFinalNewline(text);
    EmailBodyByScan(b);
    if |text| > 0 && text[|text| - 1] == '\n' {
      EmailBodyByScan(text[..|text| - 1]);
    }
  }

  lemma EmailAccepted()
    ensures IsValidEmail("ivan@gmail.com")
  {
    var s := "ivan@gmail.com";
    assert EmailSplitAt(s, 4, 10) by {
      assert s[..4] == "ivan" && s[5..10] == "gmail" && s[11..] == "com";
      assert AllLocal("ivan") && AllDomain("gmail") && AllLetters("com");
    }
    SplitGivesScan(s, 4, 10);
    assert DropFinalNewline(s) == s;
  }

  lemma EmailRejected()
    ensures !IsValidEmail("not-an-email")
  {
    var s := "not-an-email";
    assert s[|s| - 1] == 'l';
    assert DropFinalNewline(s) == s;
    assert '@' !in s;
    assert IndexOf(s, '@') == |s|;
  }
}

=== FILE: views.dfy ===
/**
 * The read-only screens: a seeker's own applications, the applications an
 * employer has received (grouped by vacancy), an employer's vacancies with
 * their application counts, the profile and contact cards, and the resume
 * screens. None of them writes to the database or to `user_data`.
 */
module Views {
  import opened Wrappers
  import opened Seqs
  import opened Records
  import opened Snapshot
  import opened Session

  /** The card an employer sees for an application. */
  function ApplicantCard(st: Store, a: Application): Out {
    ApplicationCard(a, NameOf(st, a.userId), Parse(a.resumeData))
  }

  // ------------------------------------------------------------ my applications

  /** `filter_by(user_id=...).order_by(created_at.desc())`. */
  function SubmittedBy(st: Store, uid: int): (apps: seq<Application>)
    ensures forall a :: a in apps <==> a in st.applications && a.userId == uid
    ensures Valid(st) ==> forall i, j :: 0 <= i < j < |apps| ==> apps[i].created > apps[j].created
  {
    var mine := Filter(st.applications, (a: Application) => a.userId == uid);
    ReverseMembers(mine);
    FilterReversePairwise(st.applications, (a: Application) => a.userId == uid, ApplicationOrder);
    Reverse(mine)
  }

  /** "📨 Мої заявки": every own application, newest first, with the vacancy it went to. */
  function MyApplications(st: Store, uid: int): (out: seq<Out>)
    ensures |SubmittedBy(st, uid)| == 0 <==> out == [Say(NoOwnApplications)]
    ensures |SubmittedBy(st, uid)| > 0 ==>
      && |out| == |SubmittedBy(st, uid)| + 1
      && out[0] == OwnApplicationsHeader(|SubmittedBy(st, uid)|)
      && forall i :: 1 <= i < |out| ==> out[i].OwnApplication?
    ensures forall a :: ((exists i :: 1 <= i < |out| && out[i].OwnApplication? && out[i].application == a)
                         <==> a in st.applications && a.userId == uid)
    ensures forall i :: 1 <= i < |out| && out[i].OwnApplication? ==>
      out[i].target == FindVacancy(st.vacancies, out[i].application.vacancyId)
    ensures Valid(st) ==> forall i :: 1 <= i < |out| && out[i].OwnApplication? ==> out[i].target.Some?
  {
    var apps := SubmittedBy(st, uid);
    if |apps| == 0 then [Say(NoOwnApplications)]
    else
      var cards := OwnCards(st, apps);
      var out := [OwnApplicationsHeader(|apps|)] + cards;
      assert forall i :: 1 <= i < |out| ==> out[i] == cards[i - 1];
      ListedExactly(apps, out);
      out
  }

  /** A header followed by one card per application lists exactly those applications. */
  lemma ListedExactly(apps: seq<Application>, out: seq<Out>)
    requires |out| == |apps| + 1
    requires forall i :: 0 <= i < |apps| ==> out[i + 1].OwnApplication? && out[i + 1].application == apps[i]
    ensures forall a :: (exists i :: 1 <= i < |out| && out[i].OwnApplication? && out[i].application == a) <==> a in apps
  {
    forall a | a in apps
      ensures exists i :: 1 <= i < |out| && out[i].OwnApplication? && out[i].application == a
    {
      var j := IndexIn(apps, a);
      assert out[j + 1].application == a;
    }
    forall a | exists i :: 1 <= i < |out| && out[i].OwnApplication? && out[i].application == a
      ensures a in apps
    {
      var i :| 1 <= i < |out| && out[i].OwnApplication? && out[i].application == a;
      assert apps[i - 1] == a;
    }
  }

  /** A seeker's card for each of `apps`, in order, with the vacancy it went to. */
  function OwnCards(st: Store, apps: seq<Application>): (cards: seq<Out>)
    ensures |cards| == |apps|
    ensures forall i :: 0 <= i < |apps| ==> cards[i].OwnApplication? && cards[i].application == apps[i]
    ensures forall i :: 0 <= i < |apps| ==> cards[i].target == FindVacancy(st.vacancies, apps[i].vacancyId)
  {
    seq(|apps|, i requires 0 <= i < |apps| => OwnApplication(apps[i], FindVacancy(st.vacancies, apps[i].vacancyId)))
  }

  // ------------------------------------------------------------ received applications

  /** `filter_by(employer_id=...).order_by(created_at.desc())`. */
  function ReceivedBy(st: Store, eid: int): (apps: seq<Application>)
    ensures forall a :: a in apps <==> a in st.applications && a.employerId == eid
    ensures Valid(st) ==> forall i, j :: 0 <= i < j < |apps| ==> apps[i].created > apps[j].created
  {
    var mine := Filter(st.applications, (a: Application) => a.employerId == eid);
    ReverseMembers(mine);
    FilterReversePairwise(st.applications, (a: Application) => a.employerId == eid, ApplicationOrder);
    Reverse(mine)
  }

  /** The applications of `apps` to vacancy `k`, in order: one group's `vac_applications`. */
  function ForVacancy(apps: seq<Application>, k: nat): (g: seq<Application>)
    ensures forall a :: a in g <==> a in apps && a.vacancyId == k
  {
    Filter(apps, (a: Application) => a.vacancyId == k)
  }

  /** The vacancy of the nearest group header at or before position `j`, if any. */
  function HeaderAt(out: seq<Out>, j: int): Option<Vacancy>
    requires j < |out|
    decreases j + 1
  {
    if j < 0 then None
    else if out[j].VacancyGroup? then Some(out[j].vacancy)
    else HeaderAt(out, j - 1)
  }

  /** Every application card sits below the header of its own vacancy. */
  predicate CardsUnderOwnHeader(out: seq<Out>) {
    forall j :: 0 <= j < |out| && out[j].ApplicationCard? ==>
      HeaderAt(out, j).Some? && HeaderAt(out, j).value.id == out[j].application.vacancyId
  }

  /** Each header names a stored vacancy and counts the applications of `apps` to it. */
  predicate HeadersCount(st: Store, out: seq<Out>, apps: seq<Application>) {
    forall j :: 0 <= j < |out| && out[j].VacancyGroup? ==>
      && FindVacancy(st.vacancies, out[j].vacancy.id) == Some(out[j].vacancy)
      && out[j].count == |ForVacancy(apps, out[j].vacancy.id)|
  }

  /** No vacancy has two headers. */
  predicate HeadersDistinct(out: seq<Out>) {
    forall i, j :: 0 <= i < j < |out| && out[i].VacancyGroup? && out[j].VacancyGroup? ==>
      out[i].vacancy.id != out[j].vacancy.id
  }

  /** A header found inside `s` is still the nearest one after a prefix is put in front. */
  lemma {:induction false} HeaderAtShift(pre: seq<Out>, s: seq<Out>, p: int)
    requires 0 <= p < |s| && HeaderAt(s, p).Some?
    ensures HeaderAt(pre + s, |pre| + p) == HeaderAt(s, p)
    decreases p
  {
    assert (pre + s)[|pre| + p] == s[p];
    if !s[p].VacancyGroup? {
      HeaderAtShift(pre, s, p - 1);
    }
  }

  /**
   * The vacancy ids of `apps` in order of first appearance, skipping those
   * whose vacancy is gone, after the ids already in `acc`: the key order of
   * the handler's grouping dictionary.
   */
  function GroupKeys(apps: seq<Application>, vs: seq<Vacancy>, acc: seq<nat>): (keys: seq<nat>)
    requires Pairwise(acc, (x: nat, y: nat) => x != y)
    requires forall k :: k in acc ==> FindVacancy(vs, k).Some?
    ensures Pairwise(keys, (x: nat, y: nat) => x != y)
    ensures forall k :: k in keys ==> FindVacancy(vs, k).Some?
    ensures forall k :: k in keys <==>
      k in acc || exists a :: a in apps && a.vacancyId == k && FindVacancy(vs, k).Some?
    decreases |apps|
  {
    if |apps| == 0 then acc
    else
      var k := apps[0].vacancyId;
      var acc' := if FindVacancy(vs, k).Some? && k !in acc then acc + [k] else acc;
      AppendDistinct(acc, k);
      assert forall a :: a in apps ==> a == apps[0] || a in apps[1..];
      GroupKeys(apps[1..], vs, acc')
  }

  /**
   * One vacancy header followed by its applications' cards, for each key in
   * turn: every card sits below the header of its own vacancy, every header
   * carries the size of its group, and no vacancy gets two headers.
   */
  function Groups(st: Store, apps: seq<Application>, keys: seq<nat>): (out: seq<Out>)
    requires Pairwise(keys, (x: nat, y: nat) => x != y)
    requires forall k :: k in keys ==> FindVacancy(st.vacancies, k).Some?
    ensures forall o :: o in out && o.ApplicationCard? ==>
      o.application in apps && o.application.vacancyId in keys && o == ApplicantCard(st, o.application)
    ensures forall a :: a in apps && a.vacancyId in keys ==> ApplicantCard(st, a) in out
    ensures forall j :: 0 <= j < |out| && out[j].VacancyGroup? ==> out[j].vacancy.id in keys
    ensures CardsUnderOwnHeader(out) && HeadersCount(st, out, apps) && HeadersDistinct(out)
  {
    if |keys| == 0 then []
    else
      var k := keys[0];
      var g := ForVacancy(apps, k);
      var cards := Cards(st, g);
      var rest := Groups(st, apps, keys[1..]);
      var header := VacancyGroup(FindVacancy(st.vacancies, k).value, |g|);
      assert forall k' :: k' in keys ==> k' == k || k' in keys[1..];
      var out := [header] + cards + rest;
      GroupMembers(st, apps, keys, header, cards, rest);
      GroupLayout(st, apps, keys, header, cards, rest);
      out
  }

  /** The membership facts of one header, its cards, and the later groups. */
  lemma GroupMembers(st: Store, apps: seq<Application>, keys: seq<nat>, header: Out, cards: seq<Out>, rest: seq<Out>)
    requires |keys| > 0 && header.VacancyGroup?
    requires cards == Cards(st, ForVacancy(apps, keys[0]))
    requires forall o :: o in rest && o.ApplicationCard? ==>
      o.application in apps && o.application.vacancyId in keys[1..] && o == ApplicantCard(st, o.application)
    requires forall a :: a in apps && a.vacancyId in keys[1..] ==> ApplicantCard(st, a) in rest
    ensures var out := [header] + cards + rest;
      && (forall o :: o in out && o.ApplicationCard? ==>
            o.application in apps && o.application.vacancyId in keys && o == ApplicantCard(st, o.application))
      && (forall a :: a in apps && a.vacancyId in keys ==> ApplicantCard(st, a) in out)
  {
    var out := [header] + cards + rest;
    assert forall k' :: k' in keys ==> k' == keys[0] || k' in keys[1..];
    assert forall o :: o in out ==> o == header || o in cards || o in rest;
    assert forall o :: o in cards || o in rest ==> o in out;
  }

  /** The header, count and distinctness facts of one header, its cards, and the later groups. */
  lemma GroupLayout(st: Store, apps: seq<Application>, keys: seq<nat>, header: Out, cards: seq<Out>, rest: seq<Out>)
    requires Pairwise(keys, (x: nat, y: nat) => x != y) && |keys| > 0
    requires FindVacancy(st.vacancies, keys[0]).Some?
    requires header == VacancyGroup(FindVacancy(st.vacancies, keys[0]).value, |ForVacancy(apps, keys[0])|)
    requires cards == Cards(st, ForVacancy(apps, keys[0]))
    requires forall j :: 0 <= j < |rest| && rest[j].VacancyGroup? ==> rest[j].vacancy.id in keys[1..]
    requires CardsUnderOwnHeader(rest) && HeadersCount(st, rest, apps) && HeadersDistinct(rest)
    ensures var out := [header] + cards + rest;
      && (forall j :: 0 <= j < |out| && out[j].VacancyGroup? ==> out[j].vacancy.id in keys)
      && CardsUnderOwnHeader(out) && HeadersCount(st, out, apps) && HeadersDistinct(out)
  {
    var k := keys[0];
    assert forall o :: o in cards ==> o.ApplicationCard? && o.application.vacancyId == k;
    assert k !in keys[1..] by {
      forall m | 1 <= m < |keys| ensures keys[m] != k {
        assert 0 < m;
      }
    }
    assert forall k' :: k' in keys[1..] ==> k' in keys;
    LayoutHeaders(st, apps, keys[1..], header, cards, rest);
    LayoutCards(header, cards, rest);
  }

  /** Headers of a new block in front of later groups whose keys exclude the new one. */
  lemma LayoutHeaders(st: Store, apps: seq<Application>, later: seq<nat>, header: Out, cards: seq<Out>, rest: seq<Out>)
    requires header.VacancyGroup? && header.vacancy.id !in later
    requires FindVacancy(st.vacancies, header.vacancy.id) == Some(header.vacancy)
    requires header.count == |ForVacancy(apps, header.vacancy.id)|
    requires forall o :: o in cards ==> o.ApplicationCard?
    requires forall j :: 0 <= j < |rest| && rest[j].VacancyGroup? ==> rest[j].vacancy.id in later
    requires HeadersCount(st, rest, apps) && HeadersDistinct(rest)
    ensures var out := [header] + cards + rest;
      && (forall j :: 0 <= j < |out| && out[j].VacancyGroup? ==> out[j] == header || out[j].vacancy.id in later)
      && HeadersCount(st, out, apps) && HeadersDistinct(out)
  {
    var pre := [header] + cards;
    var out := pre + rest;
    forall j | 0 < j < |pre| ensures out[j].ApplicationCard? {
      assert out[j] == cards[j - 1] && cards[j - 1] in cards;
    }
    forall j | |pre| <= j < |out| ensures out[j] == rest[j - |pre|] {
    }
  }

  /** Cards of a new block sit below its header; cards of the later groups keep theirs. */
  lemma LayoutCards(header: Out, cards: seq<Out>, rest: seq<Out>)
    requires header.VacancyGroup?
    requires forall o :: o in cards ==> o.ApplicationCard? && o.application.vacancyId == header.vacancy.id
    requires CardsUnderOwnHeader(rest)
    ensures CardsUnderOwnHeader([header] + cards + rest)
  {
    var pre := [header] + cards;
    var out := pre + rest;
    forall j | 0 <= j < |out| && out[j].ApplicationCard?
      ensures HeaderAt(out, j).Some? && HeaderAt(out, j).value.id == out[j].application.vacancyId
    {
      if j < |pre| {
        assert out[j] == pre[j];
        CardBlock(header, cards, j);
        HeaderAtPrefix(pre, rest, j);
      } else {
        assert out[j] == rest[j - |pre|];
        HeaderAtShift(pre, rest, j - |pre|);
      }
    }
  }

  /** Inside a header's block of cards, the nearest header is that one. */
  lemma {:induction false} CardBlock(header: Out, cards: seq<Out>, i: nat)
    requires header.VacancyGroup? && i <= |cards|
    requires forall o :: o in cards ==> o.ApplicationCard?
    ensures HeaderAt([header] + cards, i) == Some(header.vacancy)
  {
    assert ([header] + cards)[0] == header;
    if i > 0 {
      assert ([header] + cards)[i] == cards[i - 1] && cards[i - 1] in cards;
      CardBlock(header, cards, i - 1);
    }
  }

  /** What follows a position does not change the nearest header before it. */
  lemma {:induction false} HeaderAtPrefix(pre: seq<Out>, s: seq<Out>, j: int)
    requires j < |pre|
    ensures HeaderAt(pre + s, j) == HeaderAt(pre, j)
    decreases j + 1
  {
    if j >= 0 {
      assert (pre + s)[j] == pre[j];
      HeaderAtPrefix(pre, s, j - 1);
    }
  }

  /** The employer's cards for the applications of one group, in order. */
  function Cards(st: Store, g: seq<Application>): (cards: seq<Out>)
    ensures |cards| == |g| && forall i :: 0 <= i < |g| ==> cards[i] == ApplicantCard(st, g[i])
    ensures forall o :: o in cards ==> o.ApplicationCard? && o.application in g && o == ApplicantCard(st, o.application)
    ensures forall a :: a in g ==> ApplicantCard(st, a) in cards
  {
    var cards := seq(|g|, i requires 0 <= i < |g| => ApplicantCard(st, g[i]));
    assert forall a :: a in g ==> cards[IndexIn(g, a)] == ApplicantCard(st, a);
    cards
  }

  /**
   * "📨 Заявки на вакансії": the count of all received applications, then
   * one group per vacancy. Below the count line every card sits under its own
   * vacancy's header, each header counts that vacancy's received applications,
   * and no vacancy is headed twice; under `Valid` every received application
   * is shown.
   */
  function EmployerApplications(st: Store, eid: int): (out: seq<Out>)
    ensures |ReceivedBy(st, eid)| == 0 <==> out == [Say(NoReceivedApplications)]
    ensures |ReceivedBy(st, eid)| > 0 ==>
      |out| >= 1 && out[0] == ReceivedApplicationsHeader(|ReceivedBy(st, eid)|)
    ensures forall o :: o in out && o.ApplicationCard? ==>
      o.application in st.applications && o.application.employerId == eid
    ensures Valid(st) ==> forall a :: a in st.applications && a.employerId == eid ==>
      ApplicantCard(st, a) in out
    ensures |out| >= 1 && CardsUnderOwnHeader(out[1..]) && HeadersDistinct(out[1..])
    ensures |out| >= 1 && HeadersCount(st, out[1..], ReceivedBy(st, eid))
  {
    var apps := ReceivedBy(st, eid);
    if |apps| == 0 then [Say(NoReceivedApplications)]
    else
      var keys := GroupKeys(apps, st.vacancies, []);
      ReceivedAreGrouped(st, eid, keys);
      var groups := Groups(st, apps, keys);
      var out := [ReceivedApplicationsHeader(|apps|)] + groups;
      assert out[0] != Say(NoReceivedApplications);
      assert out[1..] == groups;
      out
  }

  /** Under `Valid` every received application's vacancy exists, so it has a group. */
  lemma ReceivedAreGrouped(st: Store, eid: int, keys: seq<nat>)
    requires forall k :: k in keys <==>
      exists a :: a in ReceivedBy(st, eid) && a.vacancyId == k && FindVacancy(st.vacancies, k).Some?
    ensures Valid(st) ==> forall a :: a in st.applications && a.employerId == eid ==> a.vacancyId in keys
  {
    if Valid(st) {
      forall a | a in st.applications && a.employerId == eid ensures a.vacancyId in keys {
        var v :| v in st.vacancies && v.id == a.vacancyId && v.employerId == a.employerId;
        assert FindVacancy(st.vacancies, a.vacancyId).Some?;
      }
    }
  }

  // ------------------------------------------------------------ my vacancies

  /** `filter_by(employer_id=...).order_by(created_at.desc())`. */
  function OwnedBy(st: Store, eid: int): (vs: seq<Vacancy>)
    ensures forall v :: v in vs <==> v in st.vacancies && v.employerId == eid
    ensures Valid(st) ==> forall i, j :: 0 <= i < j < |vs| ==> vs[i].created > vs[j].created
  {
    var mine := Filter(st.vacancies, (v: Vacancy) => v.employerId == eid);
    ReverseMembers(mine);
    FilterReversePairwise(st.vacancies, (v: Vacancy) => v.employerId == eid, VacancyOrder);
    Reverse(mine)
  }

  /** The card of an own vacancy: all applications to it and how many are still new. */
  function VacancySummary(st: Store, v: Vacancy): (o: Out)
    ensures o.OwnVacancy? && o.vacancy == v
    ensures o.unseen <= o.applications
    ensures o.applications == |Filter(st.applications, (a: Application) => a.vacancyId == v.id)|
    ensures o.unseen == |Filter(st.applications, (a: Application) => a.vacancyId == v.id && a.status == New)|
  {
    var all := (a: Application) => a.vacancyId == v.id;
    var unseen := (a: Application) => a.vacancyId == v.id && a.status == New;
    FilterLength(st.applications, all);
    FilterLength(st.applications, unseen);
    CountMonotone(st.applications, unseen, all);
    OwnVacancy(v, Count(st.applications, all), Count(st.applications, unseen))
  }

  /** Fewer elements satisfy a stronger predicate. */
  lemma {:induction false} CountMonotone<T(!new)>(s: seq<T>, p: T -> bool, q: T -> bool)
    requires forall x :: p(x) ==> q(x)
    ensures Count(s, p) <= Count(s, q)
  {
    if |s| > 0 {
      CountMonotone(s[1..], p, q);
    }
  }

  /** "📊 Мої вакансії": every own vacancy, active or not, newest first. */
  function MyVacancies(st: Store, eid: int): (out: seq<Out>)
    ensures |OwnedBy(st, eid)| == 0 <==> out == [Say(NoOwnVacancies)]
    ensures |OwnedBy(st, eid)| > 0 ==>
      && |out| == |OwnedBy(st, eid)| + 1 && out[0] == OwnVacanciesHeader
      && forall i :: 1 <= i < |out| ==>
        out[i] == VacancySummary(st, OwnedBy(st, eid)[i - 1])
    ensures forall v :: ((exists i :: 1 <= i < |out| && out[i].OwnVacancy? && out[i].vacancy == v)
                         <==> v in st.vacancies && v.employerId == eid)
  {
    var vs := OwnedBy(st, eid);
    if |vs| == 0 then [Say(NoOwnVacancies)]
    else
      var out := [OwnVacanciesHeader] + seq(|vs|, i requires 0 <= i < |vs| => VacancySummary(st, vs[i]));
      CardsShowAll(st, vs, out);
      out
  }

  lemma CardsShowAll(st: Store, vs: seq<Vacancy>, out: seq<Out>)
    requires |out| == |vs| + 1 && out[0] == OwnVacanciesHeader
    requires forall i :: 1 <= i < |out| ==> out[i] == VacancySummary(st, vs[i - 1])
    ensures forall v :: (exists i :: 1 <= i < |out| && out[i].OwnVacancy? && out[i].vacancy == v) <==> v in vs
  {
    forall v | v in vs ensures exists i :: 1 <= i < |out| && out[i].OwnVacancy? && out[i].vacancy == v {
      var i := IndexIn(vs, v);
      assert out[i + 1].vacancy == v;
    }
  }

  // ------------------------------------------------------------ profile and contacts

  /** "👤 Мій профіль": the account with the counts that fit its role, then the role's menu. */
  function Profile(st: Store, uid: int): (out: seq<Out>)
    ensures FindUser(st.users, uid).None? ==> out == [Say(ProfileNotFound)]
    ensures FindUser(st.users, uid).Some? ==>
      var u := FindUser(st.users, uid).value;
      && |out| == 2
      && (u.isEmployer ==>
          out[0].EmployerProfile? && out[0].user == u && out[1] == ShowMenu(EmployerMenu)
          && out[0].vacancies == |OwnedBy(st, uid)| && out[0].received == |ReceivedBy(st, uid)|)
      && (!u.isEmployer ==>
          out[0].SeekerProfile? && out[0].user == u && out[1] == ShowMenu(SeekerMenu)
          && out[0].submitted == |SubmittedBy(st, uid)|)
  {
    match FindUser(st.users, uid)
    case None => [Say(ProfileNotFound)]
    case Some(u) =>
      if u.isEmployer then
        [EmployerProfile(u, |OwnedBy(st, uid)|, |ReceivedBy(st, uid)|), ShowMenu(EmployerMenu)]
      else
        [SeekerProfile(u, |SubmittedBy(st, uid)|), ShowMenu(SeekerMenu)]
  }

  /** `show_user_contacts`: the stored contact card and the role's menu. */
  function ContactsCard(st: Store, uid: int): (out: seq<Out>)
    ensures FindUser(st.users, uid).None? <==> out == [Say(ContactsNotFound)]
    ensures FindUser(st.users, uid).Some? ==>
      out == [ContactCard(FindUser(st.users, uid).value), ShowMenu(RoleMenu(st, uid))]
  {
    match FindUser(st.users, uid)
    case None => [Say(ContactsNotFound)]
    case Some(u) => [ContactCard(u), ShowMenu(RoleMenu(st, uid))]
  }

  // ------------------------------------------------------------ resume screens

  /** "👀 Переглянути резюме": the stored resume, if there is one. */
  function ShowResume(st: Store, uid: int): (out: seq<Out>)
    ensures FindResumeOf(st.resumes, uid).None? <==> out == [Say(ResumeNotFound)]
    ensures |out| == 1
    ensures out[0].ResumeCard? ==> out[0].resume in st.resumes && out[0].resume.userId == uid
  {
    match FindResumeOf(st.resumes, uid)
    case None => [Say(ResumeNotFound)]
    case Some(x) => [ResumeCard(x)]
  }

  /** "📄 Моє резюме": the keyboard offers creation or management depending on the resume. */
  function ResumeScreen(st: Store, uid: int): (out: seq<Out>)
    ensures out == [ShowMenu(ResumeMenu(true))] <==> exists x :: x in st.resumes && x.userId == uid
    ensures out == [ShowMenu(ResumeMenu(false))] <==> forall x :: x in st.resumes ==> x.userId != uid
  {
    [ShowMenu(ResumeMenuOf(st, uid))]
  }
}

=== FILE: wrappers.dfy ===
/** The optional value the model uses for nullable columns and missing keys. */
module Wrappers {

  /** A value that may be absent: a nullable column, a missing dictionary key. */
  datatype Option<+T> = None | Some(value: T)
}
